=== FILE: README.md ===
# Penny Control authentication core, modelled in Dafny

This project models the security and account core of the Penny Control backend.
That backend is a set of Spring services for personal-finance tracking. The model
covers:

- **Refresh-token ledger** (`ledger.dfy`, `refresh_tokens.dfy`, `cleanup.dfy`):
  - the `refresh_tokens` table, keyed by the SHA-256 digest of the token;
  - the repository's finders and bulk deletes;
  - `RefreshTokenServiceImpl`;
  - the nightly `TokenCleanupScheduler`.
- **Authentication flows** (`auth.dfy`): `AuthServiceImpl` signup, login,
  refresh-token rotation, logout and single-device logout. They work over the
  users table (`users.dfy`) and the ledger.
- **Tokens and the request gate** (`jwt.dfy`, `gate.dfy`, `security_context.dfy`,
  `role_check.dfy`):
  - `JwtProperties` and `JwtTokenProvider`;
  - `JwtAuthenticationFilter` and `ExceptionHandlerFilter`;
  - `JwtAuthenticationToken`, `SecurityUtils` and `RoleCheckAspect`.
- **Errors and envelopes** (`errors.dfy`, `envelopes.dfy`, `handlers.dfy`):
  - `ErrorCode`, the exception family, `ErrorResponse` and `ApiResponse`;
  - the two `GlobalExceptionHandler`s.
- **The user service** (`profiles.dfy`): `UserServiceImpl` reads, updates and
  soft-deletes the current user's profile.
- **Validation** (`requests.dfy`, `validation.dfy`): the bean-validation
  constraints of `UserSignupRequest` and `UpdateUserProfileRequest`, and
  `ValidationUtils`.

Conventions:

- Java `null` is `Option.None`.
- A `char` here is a Unicode character. Java's `String.length()`, which `@Size` and
  `validateLength` use, counts UTF-16 units (`Utf16Length`): two per character outside
  the Basic Multilingual Plane.
- A repository query declared to return one row fails with a persistence error when
  several rows match (`FindOneByEmail`).
- A thrown exception is `Result.Failure` carrying an `AppException`.
- A `@Transactional` operation either returns the whole new state or fails. The
  caller then keeps the old state.
- Times are epoch milliseconds, passed in as `now`.
- Each JWT date is the NumericDate of section 2 of RFC 7519. That is whole
  seconds, computed with Java's truncating division.
- The cryptography is a `Primitives` record of functions supplied by the caller:
  - SHA-256 hex (`digest`);
  - HS512 signing and jjwt parsing (`sign`/`decode`);
  - BCrypt (`passwordEncode`/`passwordMatches`).
- Where a property depends on the cryptography behaving, the lemma requires it:
  - `SignerSound`: parsing a token signed here yields its claims;
  - `EncoderSound`: a password matches its own hash.

`auth.dfy` parameterises login and refresh by a `mint` function, which produces
the refresh token:

- `JwtMint` is the code as written: a JWT signed over the principal's claims.
- `FreshMint` hands out a caller-supplied unique value. It is the corrected
  behaviour of finding 1 below.

## Model

| member | source | states |
|---|---|---|
| Errors.FromCodeRoundTrip | common-library/src/main/java/com/pennycontrol/common/exception/ErrorCode.java:8-29 | every constant is recovered from its code string, so codes identify constants |
| Errors.CodesDistinct | common-library/src/main/java/com/pennycontrol/common/exception/ErrorCode.java:8-29 | no two constants share a code |
| Errors.CodePrefixMatchesGroup | common-library/src/main/java/com/pennycontrol/common/exception/ErrorCode.java:7-29 | each code is its group's prefix (`AUTH_`, `RES_`, `VAL_`, `BUS_`, `SYS_`) followed by three characters |
| Errors.HttpStatusOf | common-library/src/main/java/com/pennycontrol/common/exception/GlobalExceptionHandler.java:184-194 | `determineHttpStatus` as a partition, each status paired with exactly its constants: 401 for the three authentication failures, 403, 404, 400, 409, 503, and 500 for the rest |
| Errors.NewUnauthorized | common-library/src/main/java/com/pennycontrol/common/exception/UnauthorizedException.java:4-6 | the no-argument constructor carries `UNAUTHORIZED` and that constant's default message |
| Errors.NewUnauthorizedMessage | common-library/src/main/java/com/pennycontrol/common/exception/UnauthorizedException.java:8-10 | the one-argument constructor defaults the code to `UNAUTHORIZED` and keeps the message |
| Errors.NewResourceNotFound | common-library/src/main/java/com/pennycontrol/common/exception/ResourceNotFoundException.java:8-11 | the formatted constructor reports `RESOURCE_NOT_FOUND` and its message starts with the resource name |
| Errors.NewValidation | common-library/src/main/java/com/pennycontrol/common/exception/ValidationException.java:11-14 | the message constructor reports `VALIDATION_ERROR` with no field map |
| Errors.NewValidationFields | common-library/src/main/java/com/pennycontrol/common/exception/ValidationException.java:16-19 | the map constructor uses the fixed summary message and keeps the map |
| Errors.NewValidationWith | common-library/src/main/java/com/pennycontrol/common/exception/ValidationException.java:21-24 | the two-argument constructor keeps both message and map |
| Errors.ValidationConstructorsAgree | common-library/src/main/java/com/pennycontrol/common/exception/ValidationException.java:11-24 | the three constructors are one constructor with defaults |
| Envelopes.ErrorResponseOf | common-library/src/main/java/com/pennycontrol/common/exception/ErrorResponse.java:28-36 | the free-form factory has no error code; exactly status, error, message and path are serialised |
| Envelopes.ErrorResponseOfCodeMessage | common-library/src/main/java/com/pennycontrol/common/exception/ErrorResponse.java:49-58 | the code written decodes back to the given constant; `error` is the constant's name; exactly five keys are serialised |
| Envelopes.ErrorResponseOfCode | common-library/src/main/java/com/pennycontrol/common/exception/ErrorResponse.java:38-47 | the code decodes back to the constant; the message is the constant's default |
| Envelopes.ErrorResponseFactoriesAgree | common-library/src/main/java/com/pennycontrol/common/exception/ErrorResponse.java:38-58 | the three-argument factory is the four-argument one with the default message; the free-form one differs only in lacking the code |
| Envelopes.DetailsOf6 | common-library/src/main/java/com/pennycontrol/common/dto/ApiResponse.java:123-132 | every argument lands in its field; `errors` is serialised only when present |
| Envelopes.DetailsOf5 | common-library/src/main/java/com/pennycontrol/common/dto/ApiResponse.java:113-121 | the five-argument details have no error list and serialise exactly five keys |
| Envelopes.DetailsOf4 | common-library/src/main/java/com/pennycontrol/common/dto/ApiResponse.java:104-111 | the four-argument details have neither detail nor error list |
| Envelopes.DetailsOverloadsAgree | common-library/src/main/java/com/pennycontrol/common/dto/ApiResponse.java:104-132 | each shorter overload is the six-argument one with its trailing arguments null |
| Envelopes.SuccessWithMetadata | common-library/src/main/java/com/pennycontrol/common/dto/ApiResponse.java:67-75 | a success body keeps message, data and metadata and never carries an error |
| Envelopes.SuccessMessageData | common-library/src/main/java/com/pennycontrol/common/dto/ApiResponse.java:44-51 | a success body with no metadata |
| Envelopes.SuccessData | common-library/src/main/java/com/pennycontrol/common/dto/ApiResponse.java:33-39 | only `success` and, when present, `data` are serialised |
| Envelopes.SuccessMessage | common-library/src/main/java/com/pennycontrol/common/dto/ApiResponse.java:56-62 | only `success` and, when present, `message` are serialised |
| Envelopes.ApiError | common-library/src/main/java/com/pennycontrol/common/dto/ApiResponse.java:80-86 | an error body is unsuccessful, well formed and carries the given details |
| Envelopes.SuccessOverloadsAgree | common-library/src/main/java/com/pennycontrol/common/dto/ApiResponse.java:33-75 | every success overload is the general one with the omitted arguments null |
| Envelopes.ValidationErrorOf | common-library/src/main/java/com/pennycontrol/common/dto/ApiResponse.java:146-151 | one field error keeps its field and message |
| Handlers.ReportedCode | common-library/src/main/java/com/pennycontrol/common/exception/GlobalExceptionHandler.java:23-181 | the code written for an exception is its own code when it has one |
| Handlers.ReportedStatus | common-library/src/main/java/com/pennycontrol/common/exception/GlobalExceptionHandler.java:23-181 | an `UnauthorizedException` is always 401, whatever its code; otherwise the status of the reported code |
| Handlers.StatusFollowsCodeTable | common-library/src/main/java/com/pennycontrol/common/exception/GlobalExceptionHandler.java:56-69 | the status agrees with `determineHttpStatus` of the reported code exactly when the exception is not an `UnauthorizedException` carrying a code outside the 401 group; the `ACCESS_DENIED` refusals of a disabled or locked login (AuthServiceImpl.java:114, 120) and of the role check are answered 401 where the code table gives 403 |
| Handlers.FieldErrorMap | common-library/src/main/java/com/pennycontrol/common/exception/GlobalExceptionHandler.java:89-110 | every rejected field is a key, and every key's message comes from an error for that field |
| Handlers.FieldErrorMapLastWins | common-library/src/main/java/com/pennycontrol/common/exception/GlobalExceptionHandler.java:96-100 | for a field rejected twice, the map keeps the message of its last occurrence |
| Handlers.FieldErrorList | common-library/src/main/java/com/pennycontrol/common/exception/handler/GlobalExceptionHandler.java:182-189 | the binding-result errors are listed one for one, in order |
| Handlers.EntryList | common-library/src/main/java/com/pennycontrol/common/exception/handler/GlobalExceptionHandler.java:94-99 | each listed entry is a field of the map with its message |
| Handlers.EntryListLength | common-library/src/main/java/com/pennycontrol/common/exception/handler/GlobalExceptionHandler.java:94-99 | each key of the iteration order contributes one entry |
| Handlers.EntryListContains | common-library/src/main/java/com/pennycontrol/common/exception/handler/GlobalExceptionHandler.java:94-99 | every key the iteration visits appears with its message |
| Handlers.EntryListComplete | common-library/src/main/java/com/pennycontrol/common/exception/handler/GlobalExceptionHandler.java:94-99 | under a genuine enumeration of the map, the list has exactly one entry per map entry |
| Handlers.ExtractPath | common-library/src/main/java/com/pennycontrol/common/exception/handler/GlobalExceptionHandler.java:324-331 | one leading `uri=` is removed; any other description is kept whole |
| Handlers.ExtractPathRoundTrip | common-library/src/main/java/com/pennycontrol/common/exception/handler/GlobalExceptionHandler.java:324-331 | the path recovered from a request description is the request URI |
| Handlers.HandleLegacy | common-library/src/main/java/com/pennycontrol/common/exception/GlobalExceptionHandler.java:23-181 | the flat body's status, code, message and path; a `ValidationException`'s field map is attached unchanged (null stays null), a binding failure attaches the last-wins map of its field errors, and nothing else carries a map |
| Handlers.HandleApi | common-library/src/main/java/com/pennycontrol/common/exception/handler/GlobalExceptionHandler.java:35-169 | the status, code, type name and path of the `ApiResponse` body, which is always an unsuccessful, well-formed envelope; a `ValidationException` gets no error list exactly when its map is null or empty, a binding failure lists its field errors in order, and nothing else has a list |
| Handlers.HandlersAgree | common-library/src/main/java/com/pennycontrol/common/exception/handler/GlobalExceptionHandler.java:35-318 | both handlers answer every exception with the same status, code and message |
| Handlers.UnexpectedIsOpaque | common-library/src/main/java/com/pennycontrol/common/exception/handler/GlobalExceptionHandler.java:304-318 | an unexpected failure never leaks its own message; both bodies carry the fixed text with `INTERNAL_SERVER_ERROR` |
| Handlers.ValidationEntriesReported | common-library/src/main/java/com/pennycontrol/common/exception/handler/GlobalExceptionHandler.java:87-111 | a non-empty field map is reported in full: one entry per map entry |
| Handlers.DistinctCount | common-library/src/main/java/com/pennycontrol/common/exception/handler/GlobalExceptionHandler.java:94-99 | a duplicate-free key order has as many elements as its set |
| JavaTime.JavaDiv | common-library/src/main/java/com/pennycontrol/common/security/jwt/JwtTokenProvider.java:51-52 | Java's `/` on `long`: it truncates toward zero, so the remainder takes the sign of the dividend |
| JavaTime.ToEpochSeconds | common-library/src/main/java/com/pennycontrol/common/security/jwt/JwtTokenProvider.java:51-52 | a non-negative instant lies in the second it is mapped to |
| JavaTime.EpochSecondsShift | common-library/src/main/java/com/pennycontrol/common/security/jwt/JwtTokenProvider.java:51-52 | adding whole seconds to an instant adds them to its second |
| Jwt.DefaultProperties | common-library/src/main/java/com/pennycontrol/common/security/jwt/JwtProperties.java:11-16 | the defaults: one hour, thirty days, issuer `penny-control`, prefix `Bearer ` and header `Authorization` |
| Jwt.DefaultDurations | common-library/src/main/java/com/pennycontrol/common/security/jwt/JwtProperties.java:12-13 | both default validities are whole seconds, and the refresh validity is 720 times the access one |
| Jwt.ClaimsFor | common-library/src/main/java/com/pennycontrol/common/security/jwt/JwtTokenProvider.java:50-66 | subject, user id, roles, issuer, and issue and expiry dates in whole seconds |
| Jwt.GenerateToken | common-library/src/main/java/com/pennycontrol/common/security/jwt/JwtTokenProvider.java:50-66 | under a sound signer the token parses back to exactly those claims |
| Jwt.GenerateAccessToken | common-library/src/main/java/com/pennycontrol/common/security/jwt/JwtTokenProvider.java:36-38 | the token expires after the access validity |
| Jwt.GenerateRefreshToken | common-library/src/main/java/com/pennycontrol/common/security/jwt/JwtTokenProvider.java:43-45 | the token expires after the refresh validity |
| Jwt.ExpirationFollowsIssue | common-library/src/main/java/com/pennycontrol/common/security/jwt/JwtTokenProvider.java:51-63 | for a whole-second validity, `exp` is `iat` plus that many seconds |
| Jwt.ParseClaims | common-library/src/main/java/com/pennycontrol/common/security/jwt/JwtTokenProvider.java:167-173 | a blank string is refused first; otherwise the decoder's verdict; success returns the decoded claims |
| Jwt.RawJwtException | common-library/src/main/java/com/pennycontrol/common/security/jwt/JwtTokenProvider.java:167-173 | a jjwt exception escaping the getters has no error code, so the handlers report it as a 500 |
| Jwt.ValidateToken | common-library/src/main/java/com/pennycontrol/common/security/jwt/JwtTokenProvider.java:126-146 | true exactly when parsing succeeds; a caught refusal becomes `INVALID_TOKEN` with its own message; anything else escapes raw |
| Jwt.FailureMessagesDistinct | common-library/src/main/java/com/pennycontrol/common/security/jwt/JwtTokenProvider.java:130-145 | the five caught refusals carry five different messages |
| Jwt.ClaimsFromToken | common-library/src/main/java/com/pennycontrol/common/security/jwt/JwtTokenProvider.java:167-173 | the getters see the parsed claims or an uncaught raw exception |
| Jwt.GetUserPrincipalFromToken | common-library/src/main/java/com/pennycontrol/common/security/jwt/JwtTokenProvider.java:104-120 | id, subject and roles come from the claims; the principal has no password and every account flag set |
| Jwt.GetUserIdFromToken | common-library/src/main/java/com/pennycontrol/common/security/jwt/JwtTokenProvider.java:79-82 | the `userId` claim of a token that parses |
| Jwt.GetEmailFromToken | common-library/src/main/java/com/pennycontrol/common/security/jwt/JwtTokenProvider.java:87-90 | the subject of a token that parses |
| Jwt.GetEmailFromTokenSubject | common-library/src/main/java/com/pennycontrol/common/security/jwt/JwtTokenProvider.java:71-74 | the subject of a token that parses |
| Jwt.EmailGettersAgree | common-library/src/main/java/com/pennycontrol/common/security/jwt/JwtTokenProvider.java:71-90 | the two e-mail getters are the same query |
| Jwt.GetRolesFromToken | common-library/src/main/java/com/pennycontrol/common/security/jwt/JwtTokenProvider.java:96-99 | the `roles` claim, as a set |
| Jwt.GetExpirationDateFromToken | common-library/src/main/java/com/pennycontrol/common/security/jwt/JwtTokenProvider.java:151-154 | the expiry in milliseconds, which is never before `now` when it is returned |
| Jwt.IsTokenExpired | common-library/src/main/java/com/pennycontrol/common/security/jwt/JwtTokenProvider.java:159-162 | as written: it answers exactly when the parser accepts the token |
| Jwt.IsTokenExpiredNeverTrue | common-library/src/main/java/com/pennycontrol/common/security/jwt/JwtTokenProvider.java:159-162 | as written it never answers true; an expired token makes it throw instead (finding 2) |
| Jwt.IsTokenExpiredCorrected | common-library/src/main/java/com/pennycontrol/common/security/jwt/JwtTokenProvider.java:159-162 | corrected: for a well-formed token, true exactly when its expiry is before `now` |
| Jwt.IsTokenExpiredCorrectedAgreesWithParser | common-library/src/main/java/com/pennycontrol/common/security/jwt/JwtTokenProvider.java:159-162 | corrected: true exactly when the parser refuses the token as expired, false exactly when the parser accepts it |
| Jwt.TokenRoundTrip | common-library/src/main/java/com/pennycontrol/common/security/jwt/JwtTokenProvider.java:50-120 | before its expiry, a generated token reads back as the principal it was generated for |
| SecurityContext.UnauthenticatedToken | common-library/src/main/java/com/pennycontrol/common/security/jwt/JwtAuthenticationToken.java:17-22 | a bare token: credentials only, unauthenticated, no authorities |
| SecurityContext.AuthenticatedToken | common-library/src/main/java/com/pennycontrol/common/security/jwt/JwtAuthenticationToken.java:24-30 | principal, credentials and authorities as given, and authenticated |
| SecurityContext.EraseCredentials | common-library/src/main/java/com/pennycontrol/common/security/jwt/JwtAuthenticationToken.java:42-46 | the credentials are dropped and nothing else changes |
| SecurityContext.EraseCredentialsIdempotent | common-library/src/main/java/com/pennycontrol/common/security/jwt/JwtAuthenticationToken.java:42-46 | erasing twice is erasing once |
| SecurityContext.TokenEqualsIsEquality | common-library/src/main/java/com/pennycontrol/common/security/jwt/JwtAuthenticationToken.java:48-66 | `equals` is value equality over all four fields; a token with credentials differs from its erased copy |
| SecurityContext.CurrentUser | common-library/src/main/java/com/pennycontrol/common/util/SecurityUtils.java:19-32 | a user exactly for an authenticated, non-anonymous context holding a `UserPrincipal`; a null principal throws |
| SecurityContext.CurrentUserId | common-library/src/main/java/com/pennycontrol/common/util/SecurityUtils.java:37-41 | the current user's id, or `UNAUTHORIZED` "User not authenticated" |
| SecurityContext.CurrentUserEmail | common-library/src/main/java/com/pennycontrol/common/util/SecurityUtils.java:46-50 | the current user's address, or the same refusal |
| SecurityContext.HasRole | common-library/src/main/java/com/pennycontrol/common/util/SecurityUtils.java:55-59 | true exactly when there is a current user holding the role |
| SecurityContext.AnyHeld | common-library/src/main/java/com/pennycontrol/common/util/SecurityUtils.java:67-72 | the loop finds a role exactly when one of the listed roles is held |
| SecurityContext.HasAnyRole | common-library/src/main/java/com/pennycontrol/common/util/SecurityUtils.java:64-75 | true exactly when there is a current user holding one of the roles |
| SecurityContext.HasAnyRoleGeneralisesHasRole | common-library/src/main/java/com/pennycontrol/common/util/SecurityUtils.java:55-75 | with one role it is `hasRole`; with none it is false |
| Gate.ExtractBearer | common-library/src/main/java/com/pennycontrol/common/security/jwt/JwtAuthenticationFilter.java:59-67 | a token exactly for a header with text that starts with the prefix; the header is the prefix followed by the token |
| Gate.ExtractBearerRoundTrip | common-library/src/main/java/com/pennycontrol/common/security/jwt/JwtAuthenticationFilter.java:59-67 | a header built from the prefix and a token yields the token back |
| Gate.Authenticate | common-library/src/main/java/com/pennycontrol/common/security/jwt/JwtAuthenticationFilter.java:27-54 | without a usable token the context is unchanged; a refused token aborts with the refusal; an accepted one installs the principal with its roles as authorities |
| Gate.FilterResponse | common-library/src/main/java/com/pennycontrol/common/security/jwt/ExceptionHandlerFilter.java:25-59 | nothing is written when the chain proceeds; `UnauthorizedException` keeps its code and message under 401; anything else becomes a 500 with a fixed message |
| Gate.RejectedTokenGives401 | common-library/src/main/java/com/pennycontrol/common/security/jwt/ExceptionHandlerFilter.java:30-38 | every 401 the filter pair writes carries `INVALID_TOKEN`, and every `UnauthorizedException` the gate throws is written as 401 |
| Gate.NoBearerPassesThrough | common-library/src/main/java/com/pennycontrol/common/security/jwt/JwtAuthenticationFilter.java:59-67 | a request without the bearer prefix passes through unchanged and nothing is written |
| Gate.IssuedTokenAuthenticates | common-library/src/main/java/com/pennycontrol/common/security/jwt/JwtAuthenticationFilter.java:33-44 | an access token the provider issued, presented before its expiry, is let through, and the current user id, address and roles are the principal's |
| RoleCheck.PoliciesAreSetConditions | common-library/src/main/java/com/pennycontrol/common/security/aspect/RoleCheckAspect.java:79-91 | the all-policy is inclusion of the listed roles and the any-policy is non-empty intersection |
| RoleCheck.CheckRole | common-library/src/main/java/com/pennycontrol/common/security/aspect/RoleCheckAspect.java:32-76 | no annotation means no check; a missing user is `UNAUTHORIZED`; otherwise success iff the chosen policy holds, else `ACCESS_DENIED` |
| RoleCheck.EmptyRequirement | common-library/src/main/java/com/pennycontrol/common/security/aspect/RoleCheckAspect.java:79-91 | an empty role list denies every user under the any-policy and admits every user under the all-policy |
| RoleCheck.PolicyOrdering | common-library/src/main/java/com/pennycontrol/common/security/aspect/RoleCheckAspect.java:79-91 | for one role the policies coincide; for a non-empty list the all-policy is never more permissive |
| RoleCheck.AnyPolicyIsHasAnyRole | common-library/src/main/java/com/pennycontrol/common/security/aspect/RoleCheckAspect.java:79-83 | the any-policy is `SecurityUtils.hasAnyRole` of the listed roles |
| JavaStrings.TrimLeft | common-library/src/main/java/com/pennycontrol/common/util/ValidationUtils.java:37-41 | the result is a suffix; everything dropped is whitespace and the first character kept is not |
| JavaStrings.TrimRight | common-library/src/main/java/com/pennycontrol/common/util/ValidationUtils.java:37-41 | the result is a prefix; everything dropped is whitespace and the last character kept is not |
| JavaStrings.TrimEmptyIff | common-library/src/main/java/com/pennycontrol/common/util/ValidationUtils.java:37-41 | `trim()` is empty exactly when every character is at most a space |
| JavaStrings.TrimIdentity | common-library/src/main/java/com/pennycontrol/common/util/ValidationUtils.java:37-41 | a string with no such characters is its own trim |
| JavaStrings.ToLower | auth-service/src/main/java/com/pennycontrol/authservice/service/impl/AuthServiceImpl.java:71 | lower-casing maps each character, keeping the length |
| JavaStrings.ToUpper | auth-service/src/main/java/com/pennycontrol/authservice/service/impl/AuthServiceImpl.java:75 | upper-casing maps each character, keeping the length |
| JavaStrings.Utf16Length | common-library/src/main/java/com/pennycontrol/common/util/ValidationUtils.java:57 | `length()` lies between the number of characters and twice it |
| JavaStrings.Utf16LengthIsCount | common-library/src/main/java/com/pennycontrol/common/util/ValidationUtils.java:57 | `length()` equals the number of characters exactly when no character lies outside the Basic Multilingual Plane |
| JavaStrings.Utf16LengthAllSupplementary | common-library/src/main/java/com/pennycontrol/common/util/ValidationUtils.java:57 | a string of characters outside the Basic Multilingual Plane has twice their number as its `length()` |
| Validation.IndexOf | common-library/src/main/java/com/pennycontrol/common/util/ValidationUtils.java:9-11 | the first `@`, with none before it |
| Validation.LastIndexOf | common-library/src/main/java/com/pennycontrol/common/util/ValidationUtils.java:9-11 | the last `.`, with none after it |
| Validation.MatchesEmailIsPattern | common-library/src/main/java/com/pennycontrol/common/util/ValidationUtils.java:9-11 | the executable matcher accepts exactly the language of the e-mail pattern |
| Validation.IsValidEmail | common-library/src/main/java/com/pennycontrol/common/util/ValidationUtils.java:23-25 | false for null; otherwise true exactly when the whole string is in the pattern's language |
| Validation.ValidateEmail | common-library/src/main/java/com/pennycontrol/common/util/ValidationUtils.java:83-87 | throws "Invalid email format" exactly when `isValidEmail` is false |
| Validation.RequireNonEmpty | common-library/src/main/java/com/pennycontrol/common/util/ValidationUtils.java:37-41 | throws "<field> cannot be empty" exactly for null or a string made only of characters up to a space |
| Validation.RequireNonNull | common-library/src/main/java/com/pennycontrol/common/util/ValidationUtils.java:46-50 | throws "<field> cannot be null" exactly for null |
| Validation.ValidateLength | common-library/src/main/java/com/pennycontrol/common/util/ValidationUtils.java:55-64 | null passes; otherwise passes exactly when Java's `length()`, counted in UTF-16 units, lies in the bounds; failures are `VALIDATION_ERROR` |
| Validation.ValidateLengthAgreesWithSize | common-library/src/main/java/com/pennycontrol/common/util/ValidationUtils.java:55-64 | with bounds 0..100 and 3..3 it agrees with the name and currency `@Size` rules, both directions |
| Validation.EmailExample | common-library/src/main/java/com/pennycontrol/common/util/ValidationUtils.java:9-11 | `ann@x.io` is accepted |
| Validation.MatchesSound | common-library/src/main/java/com/pennycontrol/common/util/ValidationUtils.java:12-14 | the backtracking matcher accepts exactly the strings that split into one run per term |
| Validation.TryRunSound | common-library/src/main/java/com/pennycontrol/common/util/ValidationUtils.java:12-14 | trying first runs of length `k` and more finds a match exactly when a split with such a first run exists |
| Validation.IsValidPhone | common-library/src/main/java/com/pennycontrol/common/util/ValidationUtils.java:30-32 | false for null; otherwise true exactly when the whole string is in the phone pattern's language |
| Validation.E164Accepted | common-library/src/main/java/com/pennycontrol/common/util/ValidationUtils.java:12-14 | every number the signup form accepts with three digits or more passes `isValidPhone` |
| Validation.PhoneNeedsThreeDigits | common-library/src/main/java/com/pennycontrol/common/util/ValidationUtils.java:12-14 | a number that passes `isValidPhone` has at least three digits, one per digit group |
| Validation.SignupPhoneValidIff | common-library/src/main/java/com/pennycontrol/common/util/ValidationUtils.java:12-14 | for a number the signup form accepts, `isValidPhone` holds exactly when it has three digits or more, so `+12` passes the form but not the check |
| Requests.MatchesPasswordPattern | auth-service/src/main/java/com/pennycontrol/authservice/dto/request/UserSignupRequest.java:24-27 | the executable check decides the password pattern: one lower-case letter, one upper-case letter, one digit and one special character, all from the allowed alphabet |
| Requests.PasswordPatternNotBlank | auth-service/src/main/java/com/pennycontrol/authservice/dto/request/UserSignupRequest.java:22-27 | a password matching the pattern is never blank |
| Requests.PhonePatternShape | auth-service/src/main/java/com/pennycontrol/authservice/dto/request/UserSignupRequest.java:33-36 | an E.164 number holds 2 to 15 digits and nothing else but a leading plus, and trimming leaves it unchanged |
| Requests.CheckSignup | auth-service/src/main/java/com/pennycontrol/authservice/dto/request/UserSignupRequest.java:16-41 | decides every constraint of the signup body except `@Email`, with `@Size` counted in UTF-16 units |
| Requests.EmojiNameTooLong | auth-service/src/main/java/com/pennycontrol/authservice/dto/request/UserSignupRequest.java:30 | a name of sixty emoji, sixty characters, still fails `@Size(max = 100)` |
| Requests.SizeCountsCharactersInBmp | auth-service/src/main/java/com/pennycontrol/authservice/dto/request/UserSignupRequest.java:30-40 | on characters of the Basic Multilingual Plane the name and currency sizes count characters |
| Requests.EmptyUpdateIsValid | user-service/src/main/java/com/pennycontrol/userservice/dto/request/UpdateUserProfileRequest.java:14-29 | an all-null update passes validation, whatever the avatar |
| Requests.SharedFieldRules | user-service/src/main/java/com/pennycontrol/userservice/dto/request/UpdateUserProfileRequest.java:16-26 | a valid signup's name, phone and currency also satisfy the update body's rules |
| Users.FindById | user-service/src/main/java/com/pennycontrol/userservice/repository/UserRepository.java:15 | under consecutive ids, found exactly for an id between 1 and the row count, and it is that row |
| Users.FindByOwnId | user-service/src/main/java/com/pennycontrol/userservice/service/impl/UserServiceImpl.java:34-37 | every stored user is found by its own id |
| Users.FindByPhoneNumber | user-service/src/main/java/com/pennycontrol/userservice/service/impl/UserServiceImpl.java:72 | found exactly when some row has the number, and the row found has it |
| Users.FindOneByEmail | auth-service/src/main/java/com/pennycontrol/authservice/repository/UserRepository.java:16 | empty exactly when no row has the address; the one row when exactly one has it; the non-unique-result persistence error exactly when two rows have it |
| Users.Insert | auth-service/src/main/java/com/pennycontrol/authservice/service/impl/AuthServiceImpl.java:83 | the identity column assigns the next id and the row is appended; ids stay consecutive |
| Users.Save | user-service/src/main/java/com/pennycontrol/userservice/service/impl/UserServiceImpl.java:94 | the row with the user's id is replaced, every other row is kept, and ids stay consecutive |
| Users.AppendKeepsPhonesUnique | auth-service/src/main/java/com/pennycontrol/authservice/service/impl/AuthServiceImpl.java:57-61 | appending a user whose number is not on file keeps numbers unique |
| Ledger.Insert | auth-service/src/main/java/com/pennycontrol/authservice/entity/RefreshToken.java:29-47 | the unique hash and the 45-character `ip_address` column refuse an insert; otherwise exactly one row is added and the table stays valid |
| Ledger.Save | auth-service/src/main/java/com/pennycontrol/authservice/service/impl/RefreshTokenServiceImpl.java:90 | a loaded row is written back in place |
| Ledger.FindByTokenHash | auth-service/src/main/java/com/pennycontrol/authservice/repository/RefreshTokenRepository.java:19 | found exactly when the hash is on file; a valid table files every row under its own hash |
| Ledger.Purge | auth-service/src/main/java/com/pennycontrol/authservice/repository/RefreshTokenRepository.java:24-48 | a bulk delete keeps exactly the unmatched rows, untouched, and returns the number of matched rows |
| Ledger.DeleteExpiredTokens | auth-service/src/main/java/com/pennycontrol/authservice/repository/RefreshTokenRepository.java:24-26 | exactly the rows expiring strictly before `now` go, and their number is returned |
| Ledger.DeleteOldRevokedTokens | auth-service/src/main/java/com/pennycontrol/authservice/repository/RefreshTokenRepository.java:32-34 | exactly the revoked rows with a known revocation time before the cutoff go |
| Ledger.DeleteByTokenHash | auth-service/src/main/java/com/pennycontrol/authservice/repository/RefreshTokenRepository.java:39-41 | at most the one row under the hash goes; the count says whether it did |
| Ledger.DeleteByUserId | auth-service/src/main/java/com/pennycontrol/authservice/repository/RefreshTokenRepository.java:46-48 | exactly the user's rows go |
| Ledger.Delete | auth-service/src/main/java/com/pennycontrol/authservice/service/impl/RefreshTokenServiceImpl.java:114 | exactly the loaded row goes |
| RefreshTokens.Refusal | auth-service/src/main/java/com/pennycontrol/authservice/service/impl/RefreshTokenServiceImpl.java:60-73 | every refusal is `INVALID_TOKEN` with its message |
| RefreshTokens.ExpiryFor | auth-service/src/main/java/com/pennycontrol/authservice/service/impl/RefreshTokenServiceImpl.java:34-35 | a row never outlives the configured validity and falls short of it by less than a second |
| RefreshTokens.CreateRefreshToken | auth-service/src/main/java/com/pennycontrol/authservice/service/impl/RefreshTokenServiceImpl.java:32-51 | fails exactly on a known digest or an over-long address; otherwise one fresh, unrevoked, unused row under the digest |
| RefreshTokens.ValidateRefreshToken | auth-service/src/main/java/com/pennycontrol/authservice/service/impl/RefreshTokenServiceImpl.java:55-77 | accepts exactly a known, unrevoked, unexpired digest; the refusals come in the order unknown, revoked, expired |
| RefreshTokens.RevokeRefreshToken | auth-service/src/main/java/com/pennycontrol/authservice/service/impl/RefreshTokenServiceImpl.java:81-92 | fails exactly on an unknown token; otherwise only the revocation flag and time of that row change |
| RefreshTokens.DeleteRefreshToken | auth-service/src/main/java/com/pennycontrol/authservice/service/impl/RefreshTokenServiceImpl.java:96-116 | succeeds exactly for the owner's own token, removing only that row; another user's token is refused like an unknown one |
| RefreshTokens.DeleteAllUserTokens | auth-service/src/main/java/com/pennycontrol/authservice/service/impl/RefreshTokenServiceImpl.java:120-123 | exactly the other users' rows remain, unchanged |
| RefreshTokens.MarkTokenAsUsed | auth-service/src/main/java/com/pennycontrol/authservice/service/impl/RefreshTokenServiceImpl.java:127-131 | the use is stamped and counted once; no other field or row changes |
| RefreshTokens.CreatedTokenValidates | auth-service/src/main/java/com/pennycontrol/authservice/service/impl/RefreshTokenServiceImpl.java:32-77 | a new row validates up to its expiry and is refused as expired after it |
| RefreshTokens.RevokedTokenRejected | auth-service/src/main/java/com/pennycontrol/authservice/service/impl/RefreshTokenServiceImpl.java:55-92 | once revoked, a token is refused as revoked at every later instant |
| RefreshTokens.DeletedTokenUnknown | auth-service/src/main/java/com/pennycontrol/authservice/service/impl/RefreshTokenServiceImpl.java:55-116 | after a single-device delete the token is unknown |
| RefreshTokens.DeleteAllRevokesEverySession | auth-service/src/main/java/com/pennycontrol/authservice/service/impl/RefreshTokenServiceImpl.java:55-123 | after deleting a user's rows none of their tokens validates, and every other user's outcome is unchanged |
| RefreshTokens.MarkingKeepsValidity | auth-service/src/main/java/com/pennycontrol/authservice/service/impl/RefreshTokenServiceImpl.java:55-131 | marking a row used changes no validation outcome |
| Cleanup.AuditCutoff | auth-service/src/main/java/com/pennycontrol/authservice/scheduler/TokenCleanupScheduler.java:41 | the cutoff lies thirty days before `now` |
| Cleanup.CleanupOldTokens | auth-service/src/main/java/com/pennycontrol/authservice/scheduler/TokenCleanupScheduler.java:33-46 | exactly the unexpired rows not revoked before the cutoff survive, untouched; the logged total is the number of rows removed |
| Cleanup.CleanupIdempotent | auth-service/src/main/java/com/pennycontrol/authservice/scheduler/TokenCleanupScheduler.java:33-46 | a second run at the same instant deletes nothing |
| Cleanup.ExpiredMeansCollected | auth-service/src/main/java/com/pennycontrol/authservice/scheduler/TokenCleanupScheduler.java:37 | for a known, unrevoked token, validation refuses it as expired exactly when the job deletes its row |
| Cleanup.CleanupKeepsLiveTokens | auth-service/src/main/java/com/pennycontrol/authservice/scheduler/TokenCleanupScheduler.java:33-46 | no token that validates at `now` is affected by a cleanup at `now` |
| Cleanup.RevokedRowsKeptForAudit | auth-service/src/main/java/com/pennycontrol/authservice/scheduler/TokenCleanupScheduler.java:41-42 | an unexpired row revoked within the last thirty days is kept |
| Cleanup.CleanupRuns | auth-service/src/main/java/com/pennycontrol/authservice/scheduler/TokenCleanupScheduler.java:33-46 | repeated runs only remove rows, never alter a kept one, and keep the ledger valid |
| Cleanup.RevokedRowsKeptAcrossRuns | auth-service/src/main/java/com/pennycontrol/authservice/scheduler/TokenCleanupScheduler.java:41-42 | over any number of runs at instants in order, a revoked row stays untouched while the last run is before its expiry and within thirty days of its revocation |
| Auth.ExtractIpAddress | auth-service/src/main/java/com/pennycontrol/authservice/service/impl/AuthServiceImpl.java:231-240 | the first usable of `X-Forwarded-For`, `X-Real-IP` and the peer address |
| Auth.ExtractIpAddressPriority | auth-service/src/main/java/com/pennycontrol/authservice/service/impl/AuthServiceImpl.java:231-240 | the chosen address is one of the three candidates, and is missing only when the peer address is |
| Auth.CreateUserPrincipal | auth-service/src/main/java/com/pennycontrol/authservice/service/impl/AuthServiceImpl.java:215-226 | the principal carries the user's id, address, roles and hash, with every account flag set |
| Auth.Respond | auth-service/src/main/java/com/pennycontrol/authservice/service/impl/AuthServiceImpl.java:130-147 | the response describes the user; it gives a `Bearer` type and the access validity in whole seconds |
| Auth.NewUser | auth-service/src/main/java/com/pennycontrol/authservice/service/impl/AuthServiceImpl.java:68-81 | the stored row: normalised address, encoded password, trimmed name and phone, upper-cased currency or `USD`, `ROLE_USER`, enabled, unverified |
| Auth.SignupProbing | auth-service/src/main/java/com/pennycontrol/authservice/service/impl/AuthServiceImpl.java:47-91 | each refusal in source order (address, phone, missing role); success appends exactly the new row and touches no token |
| Auth.Signup | auth-service/src/main/java/com/pennycontrol/authservice/service/impl/AuthServiceImpl.java:47-91 | as written: the duplicate check probes the address as submitted, yet the row stores its normal form |
| Auth.SignupNormalized | auth-service/src/main/java/com/pennycontrol/authservice/service/impl/AuthServiceImpl.java:47-91 | corrected: the check probes the address that will be stored (finding 3) |
| Auth.SignupPreservesInvariants | auth-service/src/main/java/com/pennycontrol/authservice/service/impl/AuthServiceImpl.java:47-91 | a signup keeps ids consecutive and the ledger valid, and changes no existing user and no token |
| Auth.SignupKeepsPhonesUnique | auth-service/src/main/java/com/pennycontrol/authservice/service/impl/AuthServiceImpl.java:57-61 | on a request that passed bean validation, a signup never gives two users one number |
| Auth.SignupNormalizedKeepsEmailsUnique | auth-service/src/main/java/com/pennycontrol/authservice/service/impl/AuthServiceImpl.java:51-54 | the corrected signup never gives two users one address |
| Auth.LoginWith | auth-service/src/main/java/com/pennycontrol/authservice/service/impl/AuthServiceImpl.java:95-148 | each refusal in source order (an address two users hold is the persistence error; unknown address or wrong password alike; disabled; locked); success hands out the one matching user's tokens and changes no user |
| Auth.Login | auth-service/src/main/java/com/pennycontrol/authservice/service/impl/AuthServiceImpl.java:95-148 | as written: the refresh token handed out is the JWT of the user found |
| Auth.LoginRefusalsIndistinguishable | auth-service/src/main/java/com/pennycontrol/authservice/service/impl/AuthServiceImpl.java:99-109 | an unknown address, and a wrong password on an address one user holds, give the same refusal |
| Auth.LoginAddsOneSession | auth-service/src/main/java/com/pennycontrol/authservice/service/impl/AuthServiceImpl.java:127-138 | a login files exactly one new row; the row is unrevoked, unused, owned by the user, validates at once, and leaves the other rows alone |
| Auth.LoginWithSteps | auth-service/src/main/java/com/pennycontrol/authservice/service/impl/AuthServiceImpl.java:122-147 | for an eligible account a login is the insert of the new row |
| Auth.Retire | auth-service/src/main/java/com/pennycontrol/authservice/service/impl/AuthServiceImpl.java:159-163 | the presented row is stamped, counted and revoked; nothing else changes |
| Auth.RefreshWith | auth-service/src/main/java/com/pennycontrol/authservice/service/impl/AuthServiceImpl.java:152-188 | a validation refusal is passed on unchanged; success answers for the presented token's owner and changes no user |
| Auth.RefreshWithSteps | auth-service/src/main/java/com/pennycontrol/authservice/service/impl/AuthServiceImpl.java:155-187 | for a valid token with its owner on file, a refresh retires the old row and inserts the new one |
| Auth.Refresh | auth-service/src/main/java/com/pennycontrol/authservice/service/impl/AuthServiceImpl.java:152-188 | as written: only a token that validates is exchanged |
| Auth.RefreshOutcome | auth-service/src/main/java/com/pennycontrol/authservice/service/impl/AuthServiceImpl.java:152-188 | a refresh files one new, live, valid row for the same owner over the retired table |
| Auth.RefreshRetiresPresented | auth-service/src/main/java/com/pennycontrol/authservice/service/impl/AuthServiceImpl.java:159-163 | the presented row is kept, counted, stamped and revoked; no other existing row changes |
| Auth.RefreshIssuesNew | auth-service/src/main/java/com/pennycontrol/authservice/service/impl/AuthServiceImpl.java:168-178 | the new token has a new digest for the same owner and validates at once |
| Auth.RefreshSingleUse | auth-service/src/main/java/com/pennycontrol/authservice/service/impl/AuthServiceImpl.java:152-175 | an exchanged refresh token is refused as revoked ever after |
| Auth.Logout | auth-service/src/main/java/com/pennycontrol/authservice/service/impl/AuthServiceImpl.java:192-199 | exactly the current user's rows go; without a current user it fails |
| Auth.LogoutSingleDevice | auth-service/src/main/java/com/pennycontrol/authservice/service/impl/AuthServiceImpl.java:203-210 | the presented token's row goes exactly when it belongs to the current user |
| Auth.LogoutEndsEverySession | auth-service/src/main/java/com/pennycontrol/authservice/service/impl/AuthServiceImpl.java:192-199 | after logging out everywhere no refresh succeeds for that user; their tokens are unknown |
| Auth.LoginAccessTokenIdentifiesUser | auth-service/src/main/java/com/pennycontrol/authservice/service/impl/AuthServiceImpl.java:125-147 | the access token from a login yields the user's id, address and roles until it expires |
| Auth.SameSecondSameToken | auth-service/src/main/java/com/pennycontrol/authservice/service/impl/AuthServiceImpl.java:128 | two instants in one second mint the same refresh JWT |
| Auth.SameSecondLoginFails | auth-service/src/main/java/com/pennycontrol/authservice/service/impl/AuthServiceImpl.java:127-138 | as written, a second login of one account in the same second fails on the unique hash (finding 1) |
| Auth.SameSecondRefreshFails | auth-service/src/main/java/com/pennycontrol/authservice/service/impl/AuthServiceImpl.java:168-178 | as written, a refresh in the second of the login fails on the unique hash (finding 1) |
| Auth.LoginFresh | auth-service/src/main/java/com/pennycontrol/authservice/service/impl/AuthServiceImpl.java:95-148 | corrected: the refresh token is the fresh value, and an eligible login with an unused value succeeds |
| Auth.RefreshFresh | auth-service/src/main/java/com/pennycontrol/authservice/service/impl/AuthServiceImpl.java:152-188 | corrected: the refresh token is the fresh value |
| Auth.FreshLoginFiles | auth-service/src/main/java/com/pennycontrol/authservice/service/impl/AuthServiceImpl.java:127-138 | corrected: a login files one row, for the user, under the fresh value's digest |
| Auth.FreshRefreshSucceeds | auth-service/src/main/java/com/pennycontrol/authservice/service/impl/AuthServiceImpl.java:155-178 | corrected: a valid token whose owner is on file is always exchanged |
| Auth.FreshTokensNeverCollide | auth-service/src/main/java/com/pennycontrol/authservice/service/impl/AuthServiceImpl.java:95-188 | corrected: a login followed, even in the same instant, by a refresh and a second login all succeed |
| Auth.SignupAdmitsCaseVariant | auth-service/src/main/java/com/pennycontrol/authservice/service/impl/AuthServiceImpl.java:51-71 | as written, an address differing from a stored one only in case is admitted and duplicates it; the corrected signup refuses it (finding 3) |
| Auth.CaseVariantBlocksLogin | auth-service/src/main/java/com/pennycontrol/authservice/service/impl/AuthServiceImpl.java:51-104 | as written, after a case-variant signup the earlier user's login with the stored address fails with the persistence error (a 500), whatever the password (finding 3) |
| Auth.CaseVariantExample | auth-service/src/main/java/com/pennycontrol/authservice/service/impl/AuthServiceImpl.java:71 | `Ann@x.io` normalises to `ann@x.io` |
| Auth.SignupStoresOnlyNormalized | auth-service/src/main/java/com/pennycontrol/authservice/service/impl/AuthServiceImpl.java:71 | after a signup as written, an address that is not its own normal form finds no user |
| Auth.AppendedAddressAbsent | auth-service/src/main/java/com/pennycontrol/authservice/service/impl/AuthServiceImpl.java:71-83 | appending a user with a different address does not make an absent address findable |
| Auth.LoginUnknownAddress | auth-service/src/main/java/com/pennycontrol/authservice/service/impl/AuthServiceImpl.java:99-104 | an address not on file is refused with the same error as a wrong password |
| Auth.SignupThenLoginWithSameAddressFails | auth-service/src/main/java/com/pennycontrol/authservice/service/impl/AuthServiceImpl.java:47-104 | as written, a user who signed up with capitals cannot log in with the address they signed up with (finding 3) |
| Auth.LoginNormalized | auth-service/src/main/java/com/pennycontrol/authservice/service/impl/AuthServiceImpl.java:95-148 | corrected: an address whose normal form is not on file is refused, and a success answers for the normal form |
| Auth.SignupNormalizedFindsNewUser | auth-service/src/main/java/com/pennycontrol/authservice/service/impl/AuthServiceImpl.java:47-91 | after the corrected signup the normalised address finds the new, enabled, unlocked user with the encoded password |
| Auth.SignupThenLoginSucceeds | auth-service/src/main/java/com/pennycontrol/authservice/service/impl/AuthServiceImpl.java:47-148 | corrected: whoever signs up can log in with the same address and password |
| Profiles.ToResponse | user-service/src/main/java/com/pennycontrol/userservice/service/impl/UserServiceImpl.java:40-53 | the response carries the row's id, address, name, phone, avatar, currency, roles and verification flag |
| Profiles.NotFound | user-service/src/main/java/com/pennycontrol/userservice/service/impl/UserServiceImpl.java:34-37 | a missing user is `RESOURCE_NOT_FOUND` |
| Profiles.LoadCurrentUser | user-service/src/main/java/com/pennycontrol/userservice/service/impl/UserServiceImpl.java:29-37 | an authentication failure passes through; otherwise found exactly when a row has the current id, else not found |
| Profiles.GetCurrentUserProfile | user-service/src/main/java/com/pennycontrol/userservice/service/impl/UserServiceImpl.java:27-54 | under consecutive ids, succeeds exactly for an id on file and describes that row |
| Profiles.CheckPhone | user-service/src/main/java/com/pennycontrol/userservice/service/impl/UserServiceImpl.java:70-77 | refuses exactly a changed number that another user holds |
| Profiles.ApplyUpdate | user-service/src/main/java/com/pennycontrol/userservice/service/impl/UserServiceImpl.java:79-91 | each present field overwrites; nothing else changes |
| Profiles.UpdateUserProfile | user-service/src/main/java/com/pennycontrol/userservice/service/impl/UserServiceImpl.java:58-113 | fails exactly on a changed number another user holds; success replaces only the current row with the update and describes it |
| Profiles.DeleteUserAccount | user-service/src/main/java/com/pennycontrol/userservice/service/impl/UserServiceImpl.java:117-135 | a soft delete: only the current row changes, to disabled and locked |
| Profiles.UpdateKeepsPhonesUnique | user-service/src/main/java/com/pennycontrol/userservice/service/impl/UserServiceImpl.java:70-94 | an update never gives two users one number |
| Profiles.EmptyUpdateChangesNothing | user-service/src/main/java/com/pennycontrol/userservice/service/impl/UserServiceImpl.java:79-94 | an all-null update changes nothing and describes the current row |
| Profiles.UpdateIdempotent | user-service/src/main/java/com/pennycontrol/userservice/service/impl/UserServiceImpl.java:58-113 | repeating a successful update changes nothing more and gives the same answer |
| Profiles.UpdateKeepsAccountFields | user-service/src/main/java/com/pennycontrol/userservice/service/impl/UserServiceImpl.java:79-91 | an update never changes id, address, hash, roles, verification or flags |
| Profiles.DeleteIdempotent | user-service/src/main/java/com/pennycontrol/userservice/service/impl/UserServiceImpl.java:117-135 | deleting twice is deleting once |
| Profiles.DeletedAccountCannotLogIn | user-service/src/main/java/com/pennycontrol/userservice/service/impl/UserServiceImpl.java:129-132 | after the soft delete no login as that user succeeds |
| Profiles.RefreshIgnoresAccountFlags | auth-service/src/main/java/com/pennycontrol/authservice/service/impl/AuthServiceImpl.java:152-188 | over two user tables that differ only in the enabled and locked flags, a refresh gives the same answer and the same ledger |
| Profiles.DeletedAccountKeepsRefreshing | user-service/src/main/java/com/pennycontrol/userservice/service/impl/UserServiceImpl.java:129-132 | the soft delete leaves the account's refresh tokens working exactly as before |

## Left out

- I/O:
  - logging;
  - the servlet plumbing: the filter chain, response writing and JSON serialisation;
  - Spring's dispatch of an exception to its handler;
  - the `@Scheduled` trigger;
  - the database itself.
- Timestamps:
  - the `timestamp` field of both envelopes;
  - `createdAt`/`updatedAt` of `UserResponse`, which come from the clock or the database.
- Clock:
  - Every `LocalDateTime.now()` and `new Date()` inside one request is the one `now`.
  - A `LocalDateTime` is treated as epoch milliseconds: no time zone, no daylight saving.
- Integer width: the `long` and `int` arithmetic of the code is unbounded here. Java
  overflow is not modelled.
- Cryptography (SHA-256, HS512 signing, BCrypt) is a parameter. Its soundness is a
  lemma precondition, never an axiom.
- Case mapping: `toLowerCase`/`toUpperCase`/`equalsIgnoreCase` are modelled for
  ASCII letters only.
- The three Spring MVC overrides of the `exception.handler` handler are left out:
  - `HttpRequestMethodNotSupported`, `HttpMediaTypeNotSupported` and
    `MissingServletRequestParameter`;
  - `NoHandlerFound`.

  They use `ErrorCode` constants the enum does not declare. Only the
  `MethodArgumentNotValid` override (`FieldErrorList`) and `extractPath` are modelled.
- Requests.CheckSignup: `@Email` on the signup address is not decided; only its `@NotBlank` is.
- `ValidationUtils.validateRange` compares doubles and is left out.
- Issuer: the parser does not check the issuer, and neither does the model.
- `UserPrincipal.create` and `getAuthorities` are not part of this model. The
  principal is built with the fields `createUserPrincipal` passes, and its
  authorities are its role names.
- The user service's `UserRepository` declares no `findByPhoneNumber`. It is modelled
  as the first row with that number.
- `AuthServiceImpl.java:207` calls `deleteRefreshToken` with one argument, which
  does not match the service's two-argument method. The model passes the current
  user's id as the second argument.
- An `X-Forwarded-For` value longer than 45 characters is stored in the 45-character
  `ip_address` column, so login and refresh fail on the insert. The model
  reproduces this (`Ledger.Insert`) rather than truncating.
- Auth.Signup: requires the address and password to be present, as the controller's
  `@Valid` with `@NotBlank` guarantees before the service runs.
- Handlers.EntryList: a `HashMap`'s iteration order is unspecified, so the order is a
  parameter and only its relation to the map is stated.
- Errors.NewResourceNotFound: states only that the message starts with the
  resource name, not the whole `String.format` text.
- Validation.ValidateLength: states the error code but not the text of the message.
- Users.IdsAreIdentity: the `IDENTITY` column is taken to hand out ids consecutively
  from 1 in insertion order, so the user at position `i` has id `i + 1`. Gaps left by
  rolled-back inserts or sequence caching are not modelled; `Users.FindById`,
  `Profiles.GetCurrentUserProfile` and the lemmas built on them state their results
  under this assumption.
- Users.Insert: the `User` entity and the `users` table schema are not part of this
  model, so no unique constraint on the address is assumed; an insert never fails.
- Users.FindOneByEmail: addresses are compared exactly and case-sensitively, as the
  derived query does on a column with a case-sensitive collation; a case-insensitive
  collation is not modelled.
- Auth.SignupThenLoginWithSameAddressFails: holds under that case-sensitive
  comparison only.
- Auth.SignupAdmitsCaseVariant: the duplicate row it shows exists only if the address
  column has no unique constraint; with one, the insert fails instead.
- Jwt.IsTokenExpired: states only when it answers. Its value is pinned down by
  `IsTokenExpiredNeverTrue`.

## Findings

| source | as written | input that shows it | evidently intended | confidence | as-written member | corrected member |
|---|---|---|---|---|---|---|
| auth-service/src/main/java/com/pennycontrol/authservice/service/impl/AuthServiceImpl.java:128 | the refresh token is a JWT whose only varying claims are `iat`/`exp` in whole seconds; HMAC is deterministic, so two mintings for one user in one second give the same token, hence the same digest, and the unique `token_hash` column refuses the second insert (a 500) | a login followed by a second login, or by a refresh, of the same account within the same second | every issued refresh token is unique (for example a random `jti`) | not executed | Auth.SameSecondLoginFails, Auth.SameSecondRefreshFails | Auth.LoginFresh, Auth.RefreshFresh, Auth.FreshTokensNeverCollide |
| common-library/src/main/java/com/pennycontrol/common/security/jwt/JwtTokenProvider.java:159-162 | `isTokenExpired` reads the expiry through the verifying parser, which throws `ExpiredJwtException` on an expired token, so the method never returns true | any token whose `exp` is in the past | true for an expired token, false for a live one | not executed | Jwt.IsTokenExpired, Jwt.IsTokenExpiredNeverTrue | Jwt.IsTokenExpiredCorrected, Jwt.IsTokenExpiredCorrectedAgreesWithParser |
| auth-service/src/main/java/com/pennycontrol/authservice/service/impl/AuthServiceImpl.java:51 | the duplicate check (and login's lookup, line 99) uses the address as submitted, while line 71 stores it lower-cased and trimmed | with addresses compared case-sensitively: sign up as `Ann@x.io` and log in as `Ann@x.io` (refused); or sign up as `Ann@x.io` when `ann@x.io` is on file (admitted; without a unique constraint on the column a second `ann@x.io` row is stored and every later login as `ann@x.io` is a 500, with one the insert itself fails) | the check and the lookup use the stored normal form | not executed | Auth.Signup, Auth.SignupAdmitsCaseVariant, Auth.CaseVariantBlocksLogin, Auth.SignupThenLoginWithSameAddressFails | Auth.SignupNormalized, Auth.LoginNormalized, Auth.SignupThenLoginSucceeds |

Soft delete (`UserServiceImpl.java:129-132`) disables and locks the account. Login
refuses it (`Profiles.DeletedAccountCannotLogIn`). Refresh never reads the account
flags, so every refresh token issued before the delete keeps working
(`Profiles.DeletedAccountKeepsRefreshing`). This may be deliberate, so it is stated
as a property rather than as a finding.

=== FILE: auth.dfy ===
/** `AuthServiceImpl`: signup, login, refresh-token rotation and logout over the
    users table and the refresh-token ledger. Each operation runs in one
    transaction: it either returns the new state or fails and leaves the old one. */
module Auth {
  import opened Wrappers
  import opened JavaStrings
  import opened JavaTime
  import opened Errors
  import opened Crypto
  import opened Jwt
  import opened SecurityContext
  import opened Requests
  import opened Users
  import opened Ledger
  import opened RefreshTokens

  /** The two tables the service writes. */
  datatype State = State(users: Directory, tokens: Store)

  /** The invariants the database keeps for both tables. */
  predicate Consistent(st: State) {
    IdsAreIdentity(st.users) && Valid(st.tokens)
  }

  datatype RegistrationResponse = RegistrationResponse(email: string, emailVerificationRequired: bool)

  datatype AuthResponse = AuthResponse(
    userId: int,
    email: string,
    name: Option<string>,
    roles: set<string>,
    accessToken: string,
    refreshToken: string,
    tokenType: string,
    expiresIn: int)

  /** What the service reads from the HTTP request: the `X-Forwarded-For`,
      `X-Real-IP` and `User-Agent` headers and the peer address. */
  datatype ClientInfo = ClientInfo(
    forwardedFor: Option<string>,
    realIp: Option<string>,
    remoteAddr: string,
    userAgent: Option<string>)

  const DefaultRole := "ROLE_USER"
  const DefaultCurrency := "USD"
  const TokenType := "Bearer"
  const EmailTakenMessage := "Email already registered"
  const PhoneTakenMessage := "Phone number already registered"
  const RoleMissingMessage := "Default role ROLE_USER not found"
  const BadCredentialsMessage := "Invalid email or password"
  const DisabledMessage := "Account is disabled"
  const LockedMessage := "Account is locked"

  /** A lazily loaded owner whose row is gone. */
  const MissingOwner := UnexpectedException("EntityNotFoundException")

  const BadCredentials := UnauthorizedException(InvalidCredentials, BadCredentialsMessage)

  // ---------------------------------------------------------------- request data

  /** A header value that counts as absent: null, empty, or "unknown" in any case. */
  predicate IpMissing(ip: Option<string>) {
    ip.None? || ip.value == [] || EqualsIgnoreCase("unknown", ip.value)
  }

  /** `extractIpAddress`: the first usable of `X-Forwarded-For`, `X-Real-IP` and the
      peer address. */
  function ExtractIpAddress(client: ClientInfo): (ip: string)
    ensures !IpMissing(client.forwardedFor) ==> ip == client.forwardedFor.value
    ensures IpMissing(client.forwardedFor) && !IpMissing(client.realIp) ==> ip == client.realIp.value
    ensures IpMissing(client.forwardedFor) && IpMissing(client.realIp) ==> ip == client.remoteAddr
  {
    if !IpMissing(client.forwardedFor) then client.forwardedFor.value
    else if !IpMissing(client.realIp) then client.realIp.value
    else client.remoteAddr
  }

  /** The chosen address is "unknown" only when the peer address itself is, and the
      answer is either the peer address or the value of one of the two headers. */
  lemma ExtractIpAddressPriority(client: ClientInfo)
    ensures !IpMissing(Some(client.remoteAddr)) ==> !IpMissing(Some(ExtractIpAddress(client)))
    ensures var ip := ExtractIpAddress(client);
            ip == client.remoteAddr || Some(ip) == client.forwardedFor || Some(ip) == client.realIp
  {
  }

  // ---------------------------------------------------------------- principal

  /** `createUserPrincipal` through `UserPrincipal.create`: the principal carries the
      user's id, address, password hash and role names, with every account flag
      set. */
  function CreateUserPrincipal(user: User): (p: Principal)
    ensures p.id == user.id && p.email == user.email && p.roles == user.roles
    ensures p.password == Some(user.passwordHash) && p.FullyEnabled()
  {
    Principal(user.id, user.email, user.roles, Some(user.passwordHash), true, true, true, true)
  }

  /** The response both login and refresh build. */
  function Respond(props: JwtProperties, user: User, access: string, refresh: string): (resp: AuthResponse)
    ensures resp.userId == user.id && resp.email == user.email && resp.name == user.name
    ensures resp.roles == CreateUserPrincipal(user).roles
    ensures resp.accessToken == access && resp.refreshToken == refresh
    ensures resp.tokenType == TokenType && resp.expiresIn == JavaDiv(props.accessTokenExpiration, MillisPerSecond)
  {
    AuthResponse(user.id, user.email, user.name, CreateUserPrincipal(user).roles, access, refresh,
                 TokenType, JavaDiv(props.accessTokenExpiration, MillisPerSecond))
  }

  // ---------------------------------------------------------------- signup

  /** How a signup stores the address: lower-cased, then trimmed. */
  function NormalizeEmail(email: string): string {
    Trim(ToLower(email))
  }

  /** The user a signup request describes, before the identity column assigns its
      id. */
  function NewUser(crypto: Primitives, req: UserSignupRequest): (u: User)
    requires req.email.Some? && req.password.Some?
    ensures u.email == NormalizeEmail(req.email.value)
    ensures u.passwordHash == crypto.passwordEncode(req.password.value)
    ensures u.name == (if req.name.Some? then Some(Trim(req.name.value)) else None)
    ensures u.phoneNumber == (if req.phoneNumber.Some? then Some(Trim(req.phoneNumber.value)) else None)
    ensures u.currency == Some(if req.currency.Some? then ToUpper(req.currency.value) else DefaultCurrency)
    ensures u.avatar.None? && u.roles == {DefaultRole}
    ensures !u.emailVerified && !u.accountLocked && u.enabled
  {
    User(0, NormalizeEmail(req.email.value), crypto.passwordEncode(req.password.value),
         if req.name.Some? then Some(Trim(req.name.value)) else None,
         if req.phoneNumber.Some? then Some(Trim(req.phoneNumber.value)) else None,
         None,
         Some(if req.currency.Some? then ToUpper(req.currency.value) else DefaultCurrency),
         {DefaultRole}, false, false, true)
  }

  /** A phone number the duplicate check looks at: present and not blank. */
  predicate PhoneGiven(phone: Option<string>) {
    phone.Some? && Trim(phone.value) != []
  }

  /** The body of `signup`, with the address the duplicate check probes as a
      parameter. `roleNames` is the roles table. */
  function SignupProbing(st: State, roleNames: set<string>, crypto: Primitives, req: UserSignupRequest, probe: string)
    : (r: Result<(State, RegistrationResponse), AppException>)
    requires req.email.Some? && req.password.Some?
    ensures ExistsByEmail(st.users, probe) ==> r == Failure(NewValidation(EmailTakenMessage))
    ensures !ExistsByEmail(st.users, probe) && PhoneGiven(req.phoneNumber)
            && ExistsByPhoneNumber(st.users, req.phoneNumber.value) ==>
              r == Failure(NewValidation(PhoneTakenMessage))
    ensures r.Success? <==>
              && !ExistsByEmail(st.users, probe)
              && !(PhoneGiven(req.phoneNumber) && ExistsByPhoneNumber(st.users, req.phoneNumber.value))
              && DefaultRole in roleNames
    ensures r.Failure? && DefaultRole !in roleNames && !ExistsByEmail(st.users, probe)
            && !(PhoneGiven(req.phoneNumber) && ExistsByPhoneNumber(st.users, req.phoneNumber.value)) ==>
              r.error == NewValidation(RoleMissingMessage)
    ensures r.Success? ==>
              && r.value.0.tokens == st.tokens
              && r.value.0.users == st.users + [NewUser(crypto, req).(id := |st.users| + 1)]
              && r.value.1 == RegistrationResponse(NewUser(crypto, req).email, false)
  {
    if ExistsByEmail(st.users, probe) then Failure(NewValidation(EmailTakenMessage))
    else if PhoneGiven(req.phoneNumber) && ExistsByPhoneNumber(st.users, req.phoneNumber.value) then
      Failure(NewValidation(PhoneTakenMessage))
    else if DefaultRole !in roleNames then Failure(NewValidation(RoleMissingMessage))
    else
      var (users', saved) := Users.Insert(st.users, NewUser(crypto, req));
      Success((st.(users := users'), RegistrationResponse(saved.email, false)))
  }

  /** `signup` as written: the duplicate check probes the address as submitted,
      while the stored address is the normalised one. */
  function Signup(st: State, roleNames: set<string>, crypto: Primitives, req: UserSignupRequest)
    : (r: Result<(State, RegistrationResponse), AppException>)
    requires req.email.Some? && req.password.Some?
    ensures r.Success? <==>
              && !ExistsByEmail(st.users, req.email.value)
              && !(PhoneGiven(req.phoneNumber) && ExistsByPhoneNumber(st.users, req.phoneNumber.value))
              && DefaultRole in roleNames
    ensures r.Success? ==>
              && |r.value.0.users| == |st.users| + 1 && r.value.0.users[..|st.users|] == st.users
              && r.value.0.users[|st.users|].email == NormalizeEmail(req.email.value)
  {
    SignupProbing(st, roleNames, crypto, req, req.email.value)
  }

  /** `signup` with the duplicate check probing the address it will store. */
  function SignupNormalized(st: State, roleNames: set<string>, crypto: Primitives, req: UserSignupRequest)
    : (r: Result<(State, RegistrationResponse), AppException>)
    requires req.email.Some? && req.password.Some?
    ensures r.Success? <==>
              && !ExistsByEmail(st.users, NormalizeEmail(req.email.value))
              && !(PhoneGiven(req.phoneNumber) && ExistsByPhoneNumber(st.users, req.phoneNumber.value))
              && DefaultRole in roleNames
    ensures r.Success? ==>
              && |r.value.0.users| == |st.users| + 1 && r.value.0.users[..|st.users|] == st.users
              && r.value.0.users[|st.users|].email == NormalizeEmail(req.email.value)
  {
    SignupProbing(st, roleNames, crypto, req, NormalizeEmail(req.email.value))
  }

  /** No two users share an address. */
  predicate EmailsUnique(d: Directory) {
    forall i, j :: 0 <= i < |d| && 0 <= j < |d| && i != j ==> d[i].email != d[j].email
  }

  /** A signup keeps ids consecutive and touches no existing user and no ledger
      row. */
  lemma SignupPreservesInvariants(st: State, roleNames: set<string>, crypto: Primitives, req: UserSignupRequest, probe: string)
    requires req.email.Some? && req.password.Some?
    requires SignupProbing(st, roleNames, crypto, req, probe).Success?
    ensures var st' := SignupProbing(st, roleNames, crypto, req, probe).value.0;
            && (Consistent(st) ==> Consistent(st'))
            && st'.users[..|st.users|] == st.users && st'.tokens == st.tokens
  {
  }

  /** On a request that passed bean validation a signup also keeps phone numbers
      unique: such a phone is already its own trim, so the duplicate check looks
      for the very value that is stored. */
  lemma SignupKeepsPhonesUnique(st: State, roleNames: set<string>, crypto: Primitives, req: UserSignupRequest, probe: string)
    requires req.email.Some? && req.password.Some?
    requires PhonesUnique(st.users) && PhoneConstraint(req.phoneNumber)
    requires SignupProbing(st, roleNames, crypto, req, probe).Success?
    ensures PhonesUnique(SignupProbing(st, roleNames, crypto, req, probe).value.0.users)
  {
    var u := NewUser(crypto, req).(id := |st.users| + 1);
    if req.phoneNumber.Some? {
      PhonePatternShape(req.phoneNumber.value);
      assert PhoneGiven(req.phoneNumber);
    }
    AppendKeepsPhonesUnique(st.users, u);
  }

  /** The corrected signup also keeps addresses unique. */
  lemma SignupNormalizedKeepsEmailsUnique(st: State, roleNames: set<string>, crypto: Primitives, req: UserSignupRequest)
    requires req.email.Some? && req.password.Some?
    requires EmailsUnique(st.users)
    requires SignupNormalized(st, roleNames, crypto, req).Success?
    ensures EmailsUnique(SignupNormalized(st, roleNames, crypto, req).value.0.users)
  {
    var users' := SignupNormalized(st, roleNames, crypto, req).value.0.users;
    assert forall i :: 0 <= i < |st.users| ==> users'[i] == st.users[i];
  }

  // ---------------------------------------------------------------- login

  /** The body of `login`, with the minting of the refresh token as a parameter. The
      lookup compares the address exactly, and an address held by two users is the
      repository's persistence error; an unknown address and a wrong password are
      one and the same refusal, and the account flags are looked at only once the
      password has matched. */
  function LoginWith(props: JwtProperties, crypto: Primitives, st: State, email: string, password: string,
                     client: ClientInfo, now: int, mint: Principal -> string)
    : (r: Result<(State, AuthResponse), AppException>)
    ensures var u := FindByEmail(st.users, email);
            var one := !EmailAmbiguous(st.users, email);
            && (!one ==> r == Failure(NonUniqueResult))
            && (u.None? ==> r == Failure(BadCredentials))
            && (one && u.Some? && !crypto.passwordMatches(password, u.value.passwordHash) ==> r == Failure(BadCredentials))
            && (one && u.Some? && crypto.passwordMatches(password, u.value.passwordHash) && !u.value.enabled ==>
                  r == Failure(UnauthorizedException(AccessDenied, DisabledMessage)))
            && (one && u.Some? && crypto.passwordMatches(password, u.value.passwordHash) && u.value.enabled
                && u.value.accountLocked ==>
                  r == Failure(UnauthorizedException(AccessDenied, LockedMessage)))
            && (r.Success? ==>
                  && one && u.Some? && crypto.passwordMatches(password, u.value.passwordHash)
                  && u.value.enabled && !u.value.accountLocked
                  && r.value.0.users == st.users
                  && r.value.1 == Respond(props, u.value,
                                          GenerateAccessToken(props, crypto, CreateUserPrincipal(u.value), now),
                                          mint(CreateUserPrincipal(u.value))))
  {
    var found :- FindOneByEmail(st.users, email);
    var user :- found.ToResult(BadCredentials);
    if !crypto.passwordMatches(password, user.passwordHash) then Failure(BadCredentials)
    else if !user.enabled then Failure(UnauthorizedException(AccessDenied, DisabledMessage))
    else if user.accountLocked then Failure(UnauthorizedException(AccessDenied, LockedMessage))
    else
      var principal := CreateUserPrincipal(user);
      var access := GenerateAccessToken(props, crypto, principal, now);
      var refresh := mint(principal);
      var created :- CreateRefreshToken(props, crypto, st.tokens, user.id, refresh,
                                        Some(ExtractIpAddress(client)), client.userAgent, now);
      Success((st.(tokens := created.0), Respond(props, user, access, refresh)))
  }

  /** How the code as written mints a refresh token: a JWT signed over the
      principal and the current second. */
  function JwtMint(props: JwtProperties, crypto: Primitives, now: int): (mint: Principal -> string)
  {
    (p: Principal) => GenerateRefreshToken(props, crypto, p, now)
  }

  /** `login` as written. */
  function Login(props: JwtProperties, crypto: Primitives, st: State, email: string, password: string,
                 client: ClientInfo, now: int)
    : (r: Result<(State, AuthResponse), AppException>)
    ensures r.Success? ==>
              FindByEmail(st.users, email).Some? &&
              r.value.1.refreshToken == GenerateRefreshToken(props, crypto, CreateUserPrincipal(FindByEmail(st.users, email).value), now)
  {
    LoginWith(props, crypto, st, email, password, client, now, JwtMint(props, crypto, now))
  }

  /** An eligible account: known under exactly one row, password matches, enabled,
      not locked. */
  predicate Eligible(crypto: Primitives, st: State, email: string, password: string) {
    var u := FindByEmail(st.users, email);
    !EmailAmbiguous(st.users, email) && u.Some? && crypto.passwordMatches(password, u.value.passwordHash) && u.value.enabled && !u.value.accountLocked
  }

  /** Whoever asks, an unknown address and a wrong password give the same answer,
      and so does a wrong password on a disabled or locked account. (An address two
      users hold fails before any password is compared.) */
  lemma LoginRefusalsIndistinguishable(props: JwtProperties, crypto: Primitives, st: State, email: string, password: string,
                                       client: ClientInfo, now: int, mint: Principal -> string)
    requires FindByEmail(st.users, email).None?
             || (!EmailAmbiguous(st.users, email)
                 && !crypto.passwordMatches(password, FindByEmail(st.users, email).value.passwordHash))
    ensures LoginWith(props, crypto, st, email, password, client, now, mint) == Failure(BadCredentials)
  {
  }

  /** A successful login adds exactly one row, unrevoked and unused, owned by the
      user, under the digest of the refresh token it returns, and that token then
      validates; nothing else changes. */
  lemma LoginAddsOneSession(props: JwtProperties, crypto: Primitives, st: State, email: string, password: string,
                            client: ClientInfo, now: int, mint: Principal -> string)
    requires props.refreshTokenExpiration >= 0
    requires LoginWith(props, crypto, st, email, password, client, now, mint).Success?
    ensures var (st', resp) := LoginWith(props, crypto, st, email, password, client, now, mint).value;
            var h := crypto.digest(resp.refreshToken);
            && h !in st.tokens
            && st'.tokens.Keys == st.tokens.Keys + {h} && |st'.tokens| == |st.tokens| + 1
            && (forall g :: g in st.tokens ==> st'.tokens[g] == st.tokens[g])
            && st'.tokens[h].userId == resp.userId && !st'.tokens[h].isRevoked && st'.tokens[h].usageCount == 0
            && ValidateRefreshToken(crypto, st'.tokens, resp.refreshToken, now) == Success(st'.tokens[h])
            && resp.tokenType == TokenType
            && resp.roles == FindByEmail(st.users, email).value.roles
            && (Valid(st.tokens) ==> Valid(st'.tokens))
  {
  }

  /** For an eligible account, a login is the insert of the new row. */
  lemma LoginWithSteps(props: JwtProperties, crypto: Primitives, st: State, email: string, password: string,
                       client: ClientInfo, now: int, mint: Principal -> string)
    requires Eligible(crypto, st, email, password)
    ensures var user := FindByEmail(st.users, email).value;
            var p := CreateUserPrincipal(user);
            var c := CreateRefreshToken(props, crypto, st.tokens, user.id, mint(p),
                                        Some(ExtractIpAddress(client)), client.userAgent, now);
            LoginWith(props, crypto, st, email, password, client, now, mint)
              == if c.Failure? then Failure(c.error)
                 else Success((st.(tokens := c.value.0),
                               Respond(props, user, GenerateAccessToken(props, crypto, p, now), mint(p))))
  {
  }

  // ---------------------------------------------------------------- refresh

  /** The presented row after `markTokenAsUsed` and `revokeRefreshToken`, which act
      on the same managed row: counted, stamped and revoked, but kept. */
  function Retire(crypto: Primitives, s: Store, token: string, now: int): (r: Store)
    requires crypto.digest(token) in s
    ensures Valid(s) ==>
              var h := crypto.digest(token);
              && r.Keys == s.Keys
              && r[h] == s[h].(isRevoked := true, revokedAt := Some(now),
                               lastUsedAt := Some(now), usageCount := s[h].usageCount + 1)
              && (forall g :: g in s && g != h ==> r[g] == s[g])
              && Valid(r)
  {
    var h := crypto.digest(token);
    var (marked, _) := MarkTokenAsUsed(s, s[h], now);
    RevokeRefreshToken(crypto, marked, token, now).value
  }

  /** The body of `refreshToken`, with the minting of the new refresh token as a
      parameter: validate, retire the presented row, issue a new pair and file the
      new refresh token. */
  function RefreshWith(props: JwtProperties, crypto: Primitives, st: State, token: string,
                       client: ClientInfo, now: int, mint: Principal -> string)
    : (r: Result<(State, AuthResponse), AppException>)
    ensures ValidateRefreshToken(crypto, st.tokens, token, now).Failure? ==>
              r == Failure(ValidateRefreshToken(crypto, st.tokens, token, now).error)
    ensures r.Success? ==>
              && ValidateRefreshToken(crypto, st.tokens, token, now).Success?
              && r.value.0.users == st.users
              && r.value.1.userId == ValidateRefreshToken(crypto, st.tokens, token, now).value.userId
  {
    var stored :- ValidateRefreshToken(crypto, st.tokens, token, now);
    var user :- FindById(st.users, stored.userId).ToResult(MissingOwner);
    var retired := Retire(crypto, st.tokens, token, now);
    var principal := CreateUserPrincipal(user);
    var access := GenerateAccessToken(props, crypto, principal, now);
    var refresh := mint(principal);
    var created :- CreateRefreshToken(props, crypto, retired, user.id, refresh,
                                      Some(ExtractIpAddress(client)), client.userAgent, now);
    Success((st.(tokens := created.0), Respond(props, user, access, refresh)))
  }

  /** For a token that validates and whose owner is on file, a refresh is the
      retirement of the old row and the insert of the new one. */
  lemma RefreshWithSteps(props: JwtProperties, crypto: Primitives, st: State, token: string,
                         client: ClientInfo, now: int, mint: Principal -> string)
    requires ValidateRefreshToken(crypto, st.tokens, token, now).Success?
    requires FindById(st.users, ValidateRefreshToken(crypto, st.tokens, token, now).value.userId).Some?
    ensures var stored := ValidateRefreshToken(crypto, st.tokens, token, now).value;
            var user := FindById(st.users, stored.userId).value;
            var p := CreateUserPrincipal(user);
            var retired := Retire(crypto, st.tokens, token, now);
            var c := CreateRefreshToken(props, crypto, retired, user.id, mint(p),
                                        Some(ExtractIpAddress(client)), client.userAgent, now);
            RefreshWith(props, crypto, st, token, client, now, mint)
              == if c.Failure? then Failure(c.error)
                 else Success((st.(tokens := c.value.0),
                               Respond(props, user, GenerateAccessToken(props, crypto, p, now), mint(p))))
  {
  }

  /** `refreshToken` as written. */
  function Refresh(props: JwtProperties, crypto: Primitives, st: State, token: string, client: ClientInfo, now: int)
    : (r: Result<(State, AuthResponse), AppException>)
    ensures r.Success? ==> ValidateRefreshToken(crypto, st.tokens, token, now).Success?
  {
    RefreshWith(props, crypto, st, token, client, now, JwtMint(props, crypto, now))
  }

  /** A successful refresh files one new row, for the presented token's owner, over
      the retired ledger. */
  lemma RefreshOutcome(props: JwtProperties, crypto: Primitives, st: State, token: string,
                       client: ClientInfo, now: int, mint: Principal -> string)
    requires Valid(st.tokens) && props.refreshTokenExpiration >= 0
    requires RefreshWith(props, crypto, st, token, client, now, mint).Success?
    ensures crypto.digest(token) in st.tokens
    ensures var r := RefreshWith(props, crypto, st, token, client, now, mint).value;
            var retired := Retire(crypto, st.tokens, token, now);
            var h' := crypto.digest(r.1.refreshToken);
            && h' !in retired && h' in r.0.tokens
            && r.0.tokens == retired[h' := r.0.tokens[h']]
            && r.0.tokens[h'].tokenHash == h' && !r.0.tokens[h'].isRevoked
            && r.0.tokens[h'].expiresAt >= now && IpFits(r.0.tokens[h'].ipAddress)
            && r.0.tokens[h'].userId == r.1.userId == st.tokens[crypto.digest(token)].userId
  {
    var stored := ValidateRefreshToken(crypto, st.tokens, token, now).value;
    assert FindById(st.users, stored.userId).Some?;
    var user := FindById(st.users, stored.userId).value;
    var p := CreateUserPrincipal(user);
    var retired := Retire(crypto, st.tokens, token, now);
    var c := CreateRefreshToken(props, crypto, retired, user.id, mint(p),
                                Some(ExtractIpAddress(client)), client.userAgent, now);
    RefreshWithSteps(props, crypto, st, token, client, now, mint);
    assert c.Success?;
    assert RefreshWith(props, crypto, st, token, client, now, mint).value.0.tokens == c.value.0;
    assert RefreshWith(props, crypto, st, token, client, now, mint).value.1.refreshToken == mint(p);
  }

  /** Rotation, the presented row: counted, stamped and revoked but kept, and no
      other row that was on file changes. */
  lemma RefreshRetiresPresented(props: JwtProperties, crypto: Primitives, st: State, token: string,
                                client: ClientInfo, now: int, mint: Principal -> string)
    requires Valid(st.tokens) && props.refreshTokenExpiration >= 0
    requires RefreshWith(props, crypto, st, token, client, now, mint).Success?
    ensures var st' := RefreshWith(props, crypto, st, token, client, now, mint).value.0;
            var h := crypto.digest(token);
            && h in st.tokens && h in st'.tokens
            && st'.tokens[h] == st.tokens[h].(isRevoked := true, revokedAt := Some(now),
                                              lastUsedAt := Some(now), usageCount := st.tokens[h].usageCount + 1)
            && (forall g :: g in st.tokens && g != h ==> st'.tokens[g] == st.tokens[g])
  {
    RefreshOutcome(props, crypto, st, token, client, now, mint);
  }

  /** Rotation, the new row: filed under the digest of the token handed out, which
      is not the presented one and was not on file; it belongs to the same user and
      validates at once, and the ledger stays valid. */
  lemma RefreshIssuesNew(props: JwtProperties, crypto: Primitives, st: State, token: string,
                         client: ClientInfo, now: int, mint: Principal -> string)
    requires Valid(st.tokens) && props.refreshTokenExpiration >= 0
    requires RefreshWith(props, crypto, st, token, client, now, mint).Success?
    ensures var st' := RefreshWith(props, crypto, st, token, client, now, mint).value.0;
            var resp := RefreshWith(props, crypto, st, token, client, now, mint).value.1;
            var h := crypto.digest(token);
            var h' := crypto.digest(resp.refreshToken);
            && h in st.tokens && h' != h && h' !in st.tokens
            && st'.tokens.Keys == st.tokens.Keys + {h'}
            && st'.tokens[h'].userId == st.tokens[h].userId == resp.userId
            && ValidateRefreshToken(crypto, st'.tokens, resp.refreshToken, now) == Success(st'.tokens[h'])
            && Valid(st'.tokens)
  {
    RefreshOutcome(props, crypto, st, token, client, now, mint);
  }

  /** A refresh token is single-use: once it has been exchanged, presenting it again
      is refused as revoked, at any later instant. */
  lemma {:induction false} RefreshSingleUse(props: JwtProperties, crypto: Primitives, st: State, token: string,
                                            client: ClientInfo, now: int, mint: Principal -> string,
                                            client2: ClientInfo, later: int, mint2: Principal -> string)
    requires Valid(st.tokens) && props.refreshTokenExpiration >= 0
    requires RefreshWith(props, crypto, st, token, client, now, mint).Success?
    ensures var st' := RefreshWith(props, crypto, st, token, client, now, mint).value.0;
            RefreshWith(props, crypto, st', token, client2, later, mint2) == Failure(Refusal(RevokedMessage))
  {
    RefreshRetiresPresented(props, crypto, st, token, client, now, mint);
  }

  // ---------------------------------------------------------------- logout

  /** `logout`: every row of the current user goes. */
  function Logout(st: State, ctx: Context): (r: Result<State, AppException>)
    ensures r.Success? <==> CurrentUserId(ctx).Success?
    ensures r.Failure? ==> r.error == CurrentUserId(ctx).error
    ensures r.Success? ==>
              && r.value.users == st.users
              && (forall h :: h in r.value.tokens <==> h in st.tokens && st.tokens[h].userId != CurrentUserId(ctx).value)
              && (forall h :: h in r.value.tokens ==> r.value.tokens[h] == st.tokens[h])
  {
    var userId :- CurrentUserId(ctx);
    Success(st.(tokens := DeleteAllUserTokens(st.tokens, userId)))
  }

  /** `logoutSingleDevice`: the presented token goes if it is the current user's;
      any other token is refused as invalid and nothing changes. */
  function LogoutSingleDevice(crypto: Primitives, st: State, ctx: Context, token: string): (r: Result<State, AppException>)
    ensures r.Success? <==>
              && CurrentUserId(ctx).Success?
              && crypto.digest(token) in st.tokens
              && st.tokens[crypto.digest(token)].userId == CurrentUserId(ctx).value
    ensures r.Failure? && CurrentUserId(ctx).Success? ==> r.error == Refusal(InvalidMessage)
    ensures r.Success? ==> r.value == st.(tokens := st.tokens - {crypto.digest(token)})
  {
    var userId :- CurrentUserId(ctx);
    var tokens' :- DeleteRefreshToken(crypto, st.tokens, token, userId);
    Success(st.(tokens := tokens'))
  }

  /** After logging out everywhere, no refresh succeeds for the user who logged
      out, whatever token is presented; other users' refreshes are unaffected. */
  lemma LogoutEndsEverySession(props: JwtProperties, crypto: Primitives, st: State, ctx: Context, token: string,
                               client: ClientInfo, now: int, mint: Principal -> string)
    requires Valid(st.tokens)
    requires Logout(st, ctx).Success?
    ensures var st' := Logout(st, ctx).value;
            var r := RefreshWith(props, crypto, st', token, client, now, mint);
            && (r.Success? ==> r.value.1.userId != CurrentUserId(ctx).value)
            && (crypto.digest(token) in st.tokens && st.tokens[crypto.digest(token)].userId == CurrentUserId(ctx).value ==>
                  r == Failure(Refusal(InvalidMessage)))
  {
  }

  // ---------------------------------------------------------------- access token

  /** The access token a login returns identifies the user to the request gate for
      the configured lifetime, given a signer whose tokens parse back. */
  lemma LoginAccessTokenIdentifiesUser(props: JwtProperties, crypto: Primitives, st: State, email: string, password: string,
                                       client: ClientInfo, now: int, mint: Principal -> string, later: int)
    requires SignerSound(crypto)
    requires 0 <= now <= later && later + MillisPerSecond <= now + props.accessTokenExpiration
    requires LoginWith(props, crypto, st, email, password, client, now, mint).Success?
    ensures var resp := LoginWith(props, crypto, st, email, password, client, now, mint).value.1;
            && GetUserIdFromToken(crypto, resp.accessToken, later) == Success(resp.userId)
            && GetEmailFromToken(crypto, resp.accessToken, later) == Success(resp.email)
            && GetRolesFromToken(crypto, resp.accessToken, later) == Success(resp.roles)
  {
    var user := FindByEmail(st.users, email).value;
    var c := ClaimsFor(props, CreateUserPrincipal(user), props.accessTokenExpiration, now);
    assert crypto.decode(crypto.sign(c)) == Parsed(c) && HasText(crypto.sign(c));
  }

  // ---------------------------------------------------------------- findings

  /** A JWT refresh token is a function of the second it is minted in: two instants
      of one second give the very same token. */
  lemma SameSecondSameToken(props: JwtProperties, crypto: Primitives, p: Principal, now: int, now2: int)
    requires 0 <= now && 0 <= now2 && ToEpochSeconds(now) == ToEpochSeconds(now2)
    requires props.refreshTokenExpiration >= 0 && props.refreshTokenExpiration % MillisPerSecond == 0
    ensures GenerateRefreshToken(props, crypto, p, now) == GenerateRefreshToken(props, crypto, p, now2)
  {
    var seconds := props.refreshTokenExpiration / MillisPerSecond;
    assert props.refreshTokenExpiration == seconds * MillisPerSecond;
    EpochSecondsShift(now, seconds);
    EpochSecondsShift(now2, seconds);
    assert ClaimsFor(props, p, props.refreshTokenExpiration, now) == ClaimsFor(props, p, props.refreshTokenExpiration, now2);
  }

  /** Two logins of one account within the same second mint the same refresh
      token, because a JWT is a function of its claims and the claims have
      one-second resolution. The second login's insert then hits the unique hash,
      so it fails with a database error, which the handlers answer with 500. */
  lemma {:induction false} SameSecondLoginFails(props: JwtProperties, crypto: Primitives, st: State, email: string,
                                                password: string, client: ClientInfo, now: int,
                                                client2: ClientInfo, now2: int)
    requires 0 <= now && 0 <= now2 && ToEpochSeconds(now) == ToEpochSeconds(now2)
    requires props.refreshTokenExpiration >= 0 && props.refreshTokenExpiration % MillisPerSecond == 0
    requires Login(props, crypto, st, email, password, client, now).Success?
    ensures var st' := Login(props, crypto, st, email, password, client, now).value.0;
            Login(props, crypto, st', email, password, client2, now2) == Failure(ConstraintViolation)
  {
    var user := FindByEmail(st.users, email).value;
    var p := CreateUserPrincipal(user);
    var token := GenerateRefreshToken(props, crypto, p, now);
    SameSecondSameToken(props, crypto, p, now, now2);
    var mint := JwtMint(props, crypto, now);
    var mint2 := JwtMint(props, crypto, now2);
    assert mint(p) == token && mint2(p) == token;
    LoginWithSteps(props, crypto, st, email, password, client, now, mint);
    var st' := Login(props, crypto, st, email, password, client, now).value.0;
    assert st'.users == st.users;
    assert crypto.digest(token) in st'.tokens;
    LoginWithSteps(props, crypto, st', email, password, client2, now2, mint2);
    var c := CreateRefreshToken(props, crypto, st'.tokens, user.id, token,
                                Some(ExtractIpAddress(client2)), client2.userAgent, now2);
    assert c == Failure(ConstraintViolation);
  }

  /** The same collision breaks rotation: a refresh within the second the token
      was issued mints that very token again, finds its digest on file (revoked
      a moment earlier) and fails; the transaction rolls back, so the client
      keeps its old token and gets a 500. */
  lemma {:induction false} SameSecondRefreshFails(props: JwtProperties, crypto: Primitives, st: State, email: string,
                                                  password: string, client: ClientInfo, now: int,
                                                  client2: ClientInfo, now2: int)
    requires Consistent(st)
    requires 0 <= now <= now2 && ToEpochSeconds(now) == ToEpochSeconds(now2)
    requires props.refreshTokenExpiration >= MillisPerSecond && props.refreshTokenExpiration % MillisPerSecond == 0
    requires Login(props, crypto, st, email, password, client, now).Success?
    ensures var st' := Login(props, crypto, st, email, password, client, now).value.0;
            var token := Login(props, crypto, st, email, password, client, now).value.1.refreshToken;
            Refresh(props, crypto, st', token, client2, now2) == Failure(ConstraintViolation)
  {
    var user := FindByEmail(st.users, email).value;
    var p := CreateUserPrincipal(user);
    var token := GenerateRefreshToken(props, crypto, p, now);
    SameSecondSameToken(props, crypto, p, now, now2);
    var mint := JwtMint(props, crypto, now);
    var mint2 := JwtMint(props, crypto, now2);
    assert mint(p) == token && mint2(p) == token;
    LoginAddsOneSession(props, crypto, st, email, password, client, now, mint);
    var st' := Login(props, crypto, st, email, password, client, now).value.0;
    var h := crypto.digest(token);
    assert now2 < ToEpochSeconds(now) * MillisPerSecond + MillisPerSecond;
    assert ValidateRefreshToken(crypto, st'.tokens, token, now2).Success?;
    FindByOwnId(st'.users, user);
    RefreshWithSteps(props, crypto, st', token, client2, now2, mint2);
    var retired := Retire(crypto, st'.tokens, token, now2);
    assert h in retired;
  }

  /** Minting that hands out a given fresh value, whoever the principal. */
  function FreshMint(unique: string): (mint: Principal -> string)
  {
    (_: Principal) => unique
  }

  /** Corrected login: the refresh token is a fresh value (a JWT with a random `jti`
      claim, say) whose digest is not yet on file. */
  function LoginFresh(props: JwtProperties, crypto: Primitives, st: State, email: string, password: string,
                      client: ClientInfo, now: int, unique: string)
    : (r: Result<(State, AuthResponse), AppException>)
    ensures r.Success? ==> r.value.1.refreshToken == unique
    ensures (Eligible(crypto, st, email, password) && crypto.digest(unique) !in st.tokens
             && IpFits(Some(ExtractIpAddress(client)))) ==> r.Success?
  {
    LoginWith(props, crypto, st, email, password, client, now, FreshMint(unique))
  }

  /** Corrected refresh, with the same kind of fresh value. */
  function RefreshFresh(props: JwtProperties, crypto: Primitives, st: State, token: string,
                        client: ClientInfo, now: int, unique: string)
    : (r: Result<(State, AuthResponse), AppException>)
    ensures r.Success? ==> r.value.1.refreshToken == unique
  {
    RefreshWith(props, crypto, st, token, client, now, FreshMint(unique))
  }

  /** With fresh refresh tokens, a login followed by a refresh succeeds even within
      the same millisecond, and repeated logins each open their own session. */
  lemma {:induction false} FreshTokensNeverCollide(props: JwtProperties, crypto: Primitives, st: State, email: string,
                                                   password: string, client: ClientInfo, now: int, later: int,
                                                   fresh1: string, fresh2: string)
    requires Consistent(st)
    requires Eligible(crypto, st, email, password) && IpFits(Some(ExtractIpAddress(client)))
    requires props.refreshTokenExpiration >= 0 && now <= later <= now + JavaDiv(props.refreshTokenExpiration, MillisPerSecond) * MillisPerSecond
    requires crypto.digest(fresh1) !in st.tokens && crypto.digest(fresh2) !in st.tokens
    requires crypto.digest(fresh1) != crypto.digest(fresh2)
    ensures LoginFresh(props, crypto, st, email, password, client, now, fresh1).Success?
    ensures var st1 := LoginFresh(props, crypto, st, email, password, client, now, fresh1).value.0;
            && RefreshFresh(props, crypto, st1, fresh1, client, later, fresh2).Success?
            && LoginFresh(props, crypto, st1, email, password, client, later, fresh2).Success?
  {
    var user := FindByEmail(st.users, email).value;
    FreshLoginFiles(props, crypto, st, email, password, client, now, fresh1);
    var st1 := LoginFresh(props, crypto, st, email, password, client, now, fresh1).value.0;
    FreshLoginFiles(props, crypto, st1, email, password, client, later, fresh2);
    FindByOwnId(st1.users, user);
    FreshRefreshSucceeds(props, crypto, st1, fresh1, client, later, fresh2);
  }

  /** A corrected login of an eligible account files one row under the fresh value. */
  lemma FreshLoginFiles(props: JwtProperties, crypto: Primitives, st: State, email: string, password: string,
                        client: ClientInfo, now: int, unique: string)
    requires Valid(st.tokens) && props.refreshTokenExpiration >= 0
    requires Eligible(crypto, st, email, password) && IpFits(Some(ExtractIpAddress(client)))
    requires crypto.digest(unique) !in st.tokens
    ensures LoginFresh(props, crypto, st, email, password, client, now, unique).Success?
    ensures var st1 := LoginFresh(props, crypto, st, email, password, client, now, unique).value.0;
            var h := crypto.digest(unique);
            && st1.users == st.users && h in st1.tokens
            && st1.tokens == st.tokens[h := st1.tokens[h]] && Valid(st1.tokens)
            && st1.tokens[h].userId == FindByEmail(st.users, email).value.id
            && !st1.tokens[h].isRevoked && st1.tokens[h].expiresAt == ExpiryFor(props, now)
  {
    LoginWithSteps(props, crypto, st, email, password, client, now, FreshMint(unique));
  }

  /** A corrected refresh of a token that validates, whose owner is on file, succeeds
      whenever the fresh value is not on file. */
  lemma FreshRefreshSucceeds(props: JwtProperties, crypto: Primitives, st: State, token: string,
                             client: ClientInfo, now: int, unique: string)
    requires Valid(st.tokens) && IpFits(Some(ExtractIpAddress(client)))
    requires ValidateRefreshToken(crypto, st.tokens, token, now).Success?
    requires FindById(st.users, ValidateRefreshToken(crypto, st.tokens, token, now).value.userId).Some?
    requires crypto.digest(unique) !in st.tokens
    ensures RefreshFresh(props, crypto, st, token, client, now, unique).Success?
  {
    RefreshWithSteps(props, crypto, st, token, client, now, FreshMint(unique));
  }

  /** As written, an address that differs from a stored one only in case passes the
      duplicate check (the stored addresses are lower-case, the probe is not), and
      the new user is stored under the very same address. */
  lemma SignupAdmitsCaseVariant(st: State, roleNames: set<string>, crypto: Primitives, req: UserSignupRequest)
    requires req.email.Some? && req.password.Some?
    requires !ExistsByEmail(st.users, req.email.value)
    requires ExistsByEmail(st.users, NormalizeEmail(req.email.value))
    requires !(PhoneGiven(req.phoneNumber) && ExistsByPhoneNumber(st.users, req.phoneNumber.value))
    requires DefaultRole in roleNames
    ensures Signup(st, roleNames, crypto, req).Success?
    ensures !EmailsUnique(Signup(st, roleNames, crypto, req).value.0.users)
    ensures SignupNormalized(st, roleNames, crypto, req) == Failure(NewValidation(EmailTakenMessage))
  {
    var users' := Signup(st, roleNames, crypto, req).value.0.users;
    var i :| 0 <= i < |st.users| && st.users[i].email == NormalizeEmail(req.email.value);
    assert users'[i].email == users'[|st.users|].email;
  }

  /** After such a signup the address on file is held twice, so the earlier user
      can no longer log in with it: the lookup fails with the persistence error
      (a 500), whatever the password. */
  lemma CaseVariantBlocksLogin(props: JwtProperties, crypto: Primitives, st: State, roleNames: set<string>,
                               req: UserSignupRequest, password: string, client: ClientInfo, now: int)
    requires req.email.Some? && req.password.Some?
    requires !ExistsByEmail(st.users, req.email.value)
    requires ExistsByEmail(st.users, NormalizeEmail(req.email.value))
    requires !(PhoneGiven(req.phoneNumber) && ExistsByPhoneNumber(st.users, req.phoneNumber.value))
    requires DefaultRole in roleNames
    ensures var st' := Signup(st, roleNames, crypto, req).value.0;
            Login(props, crypto, st', NormalizeEmail(req.email.value), password, client, now) == Failure(NonUniqueResult)
  {
    SignupAdmitsCaseVariant(st, roleNames, crypto, req);
    var users' := Signup(st, roleNames, crypto, req).value.0.users;
    var i :| 0 <= i < |st.users| && st.users[i].email == NormalizeEmail(req.email.value);
    assert users'[i].email == users'[|st.users|].email == NormalizeEmail(req.email.value);
  }

  /** Such an address exists: "Ann@x.io" is not on file where "ann@x.io" is. */
  lemma CaseVariantExample()
    ensures NormalizeEmail("Ann@x.io") == "ann@x.io" != "Ann@x.io"
  {
    assert ToLower("Ann@x.io") == "ann@x.io";
    TrimIdentity("ann@x.io");
  }

  /** As written, a user who signed up with capitals cannot log in with the address
      they signed up with: login looks the raw address up, signup stored the
      normalised one. */
  lemma SignupThenLoginWithSameAddressFails(props: JwtProperties, crypto: Primitives, st: State, roleNames: set<string>,
                                            req: UserSignupRequest, client: ClientInfo, now: int)
    requires req.email.Some? && req.password.Some?
    requires NormalizeEmail(req.email.value) != req.email.value
    requires Signup(st, roleNames, crypto, req).Success?
    ensures var st' := Signup(st, roleNames, crypto, req).value.0;
            Login(props, crypto, st', req.email.value, req.password.value, client, now) == Failure(BadCredentials)
  {
    SignupStoresOnlyNormalized(st, roleNames, crypto, req);
    LoginUnknownAddress(props, crypto, Signup(st, roleNames, crypto, req).value.0, req.email.value, req.password.value, client, now);
  }

  /** After a signup as written, an address that is not its own normal form is not
      on file. */
  lemma SignupStoresOnlyNormalized(st: State, roleNames: set<string>, crypto: Primitives, req: UserSignupRequest)
    requires req.email.Some? && req.password.Some?
    requires NormalizeEmail(req.email.value) != req.email.value
    requires Signup(st, roleNames, crypto, req).Success?
    ensures FindByEmail(Signup(st, roleNames, crypto, req).value.0.users, req.email.value).None?
  {
    AppendedAddressAbsent(st.users, Signup(st, roleNames, crypto, req).value.0.users, req.email.value);
  }

  /** A directory grown by one user whose address differs from `email` finds
      `email` only if it did before. */
  lemma AppendedAddressAbsent(before: Directory, after: Directory, email: string)
    requires |after| == |before| + 1 && after[..|before|] == before
    requires after[|before|].email != email && !ExistsByEmail(before, email)
    ensures FindByEmail(after, email).None?
  {
    forall i | 0 <= i < |after| ensures after[i].email != email {
      if i < |before| {
        assert after[i] == after[..|before|][i] == before[i];
      }
    }
  }

  /** `login` as written refuses an address that is not on file exactly. */
  lemma LoginUnknownAddress(props: JwtProperties, crypto: Primitives, st: State, email: string, password: string,
                            client: ClientInfo, now: int)
    requires FindByEmail(st.users, email).None?
    ensures Login(props, crypto, st, email, password, client, now) == Failure(BadCredentials)
  {
    LoginRefusalsIndistinguishable(props, crypto, st, email, password, client, now, JwtMint(props, crypto, now));
  }

  /** Corrected login: the address is normalised before the lookup, as signup
      normalised it before storing. */
  function LoginNormalized(props: JwtProperties, crypto: Primitives, st: State, email: string, password: string,
                           client: ClientInfo, now: int, mint: Principal -> string)
    : (r: Result<(State, AuthResponse), AppException>)
    ensures FindByEmail(st.users, NormalizeEmail(email)).None? ==> r == Failure(BadCredentials)
    ensures r.Success? ==> r.value.1.email == NormalizeEmail(email)
  {
    LoginWith(props, crypto, st, NormalizeEmail(email), password, client, now, mint)
  }

  /** With both corrections, whoever signs up can log in with the address and
      password they signed up with. */
  lemma {:induction false} SignupThenLoginSucceeds(props: JwtProperties, crypto: Primitives, st: State, roleNames: set<string>,
                                                   req: UserSignupRequest, client: ClientInfo, now: int, unique: string)
    requires EncoderSound(crypto)
    requires req.email.Some? && req.password.Some?
    requires SignupNormalized(st, roleNames, crypto, req).Success?
    requires crypto.digest(unique) !in st.tokens && IpFits(Some(ExtractIpAddress(client)))
    ensures var st' := SignupNormalized(st, roleNames, crypto, req).value.0;
            var r := LoginNormalized(props, crypto, st', req.email.value, req.password.value, client, now,
                                     FreshMint(unique));
            && r.Success?
            && r.value.1.userId == |st.users| + 1
  {
    var st' := SignupNormalized(st, roleNames, crypto, req).value.0;
    SignupNormalizedFindsNewUser(st, roleNames, crypto, req);
    var u := FindByEmail(st'.users, NormalizeEmail(req.email.value)).value;
    assert crypto.passwordMatches(req.password.value, u.passwordHash);
    LoginWithSteps(props, crypto, st', NormalizeEmail(req.email.value), req.password.value, client, now,
                   FreshMint(unique));
  }

  /** After the corrected signup the normalised address finds the new user, who is
      enabled, unlocked and holds the encoded password; the ledger is untouched. */
  lemma SignupNormalizedFindsNewUser(st: State, roleNames: set<string>, crypto: Primitives, req: UserSignupRequest)
    requires req.email.Some? && req.password.Some?
    requires SignupNormalized(st, roleNames, crypto, req).Success?
    ensures var st' := SignupNormalized(st, roleNames, crypto, req).value.0;
            var u := FindByEmail(st'.users, NormalizeEmail(req.email.value));
            && st'.tokens == st.tokens
            && !EmailAmbiguous(st'.users, NormalizeEmail(req.email.value))
            && u.Some? && u.value.id == |st.users| + 1
            && u.value.passwordHash == crypto.passwordEncode(req.password.value)
            && u.value.enabled && !u.value.accountLocked
  {
    var st' := SignupNormalized(st, roleNames, crypto, req).value.0;
    var e := NormalizeEmail(req.email.value);
    assert forall i :: 0 <= i < |st.users| ==> st'.users[i] == st.users[i];
    assert FindByEmail(st'.users, e) == Some(st'.users[|st.users|]);
  }
}

=== FILE: cleanup.dfy ===
/** `TokenCleanupScheduler`: the nightly job that removes expired rows and rows
    revoked more than thirty days ago. Both of its clock reads are the one `now`. */
module Cleanup {
  import opened Wrappers
  import opened JavaTime
  import opened Crypto
  import opened Ledger
  import opened RefreshTokens

  /** How long a revoked row is kept for audit. */
  const AuditDays := 30

  /** `now.minusDays(30)`. */
  function AuditCutoff(now: int): (cutoff: int)
    ensures now - cutoff == AuditDays * MillisPerDay
  {
    now - AuditDays * MillisPerDay
  }

  /** What the job leaves behind and the two counts it logs. */
  datatype Report = Report(store: Store, expiredDeleted: int, revokedDeleted: int) {
    function Total(): int {
      expiredDeleted + revokedDeleted
    }
  }

  /** The rows the job keeps. */
  predicate Survives(t: RefreshToken, now: int) {
    t.expiresAt >= now && !(t.isRevoked && t.revokedAt.Some? && t.revokedAt.value < AuditCutoff(now))
  }

  /** `cleanupOldTokens`: the expired rows go first, then the old revoked rows that
      remain. Exactly the surviving rows stay, untouched, and the logged total is the
      number of rows that went. */
  function CleanupOldTokens(s: Store, now: int): (r: Report)
    ensures forall h :: h in r.store <==> h in s && Survives(s[h], now)
    ensures forall h :: h in r.store ==> r.store[h] == s[h]
    ensures r.expiredDeleted == |set h | h in s && s[h].expiresAt < now|
    ensures 0 <= r.expiredDeleted && 0 <= r.revokedDeleted
    ensures r.Total() == |s| - |r.store|
    ensures Valid(s) ==> Valid(r.store)
  {
    var (s1, expired) := DeleteExpiredTokens(s, now);
    var (s2, revoked) := DeleteOldRevokedTokens(s1, AuditCutoff(now));
    Report(s2, expired, revoked)
  }

  /** A second run at the same instant deletes nothing. */
  lemma CleanupIdempotent(s: Store, now: int)
    ensures var first := CleanupOldTokens(s, now);
            var second := CleanupOldTokens(first.store, now);
            second.store == first.store && second.Total() == 0
  {
    var first := CleanupOldTokens(s, now);
    var second := CleanupOldTokens(first.store, now);
    assert second.store.Keys == first.store.Keys;
  }

  /** Cleanup and validation agree on expiry: at the same instant a known, unrevoked
      token is refused as expired exactly when the job deletes its row. */
  lemma ExpiredMeansCollected(crypto: Primitives, s: Store, token: string, now: int)
    requires crypto.digest(token) in s && !s[crypto.digest(token)].isRevoked
    ensures ValidateRefreshToken(crypto, s, token, now) == Failure(Refusal(ExpiredMessage))
            <==> crypto.digest(token) !in CleanupOldTokens(s, now).store
  {
  }

  /** No token that validates at `now` loses its row to a cleanup at `now`. */
  lemma CleanupKeepsLiveTokens(crypto: Primitives, s: Store, token: string, now: int)
    requires ValidateRefreshToken(crypto, s, token, now).Success?
    ensures ValidateRefreshToken(crypto, CleanupOldTokens(s, now).store, token, now)
            == ValidateRefreshToken(crypto, s, token, now)
  {
  }

  /** A revoked, unexpired row is kept by a run within the audit period after its
      revocation. */
  lemma RevokedRowsKeptForAudit(s: Store, h: string, now: int)
    requires h in s && s[h].isRevoked && s[h].revokedAt.Some?
    requires s[h].expiresAt >= now && s[h].revokedAt.value >= AuditCutoff(now)
    ensures h in CleanupOldTokens(s, now).store
  {
  }

  /** The job run at each of `times` in turn. Rows only ever go, and a row that
      stays is untouched. */
  function CleanupRuns(s: Store, times: seq<int>): (r: Store)
    ensures forall h :: h in r ==> h in s && r[h] == s[h]
    ensures Valid(s) ==> Valid(r)
  {
    if times == [] then s else CleanupRuns(CleanupOldTokens(s, times[0]).store, times[1..])
  }

  /** However many times the job runs, at instants in order, a revoked row is kept
      untouched as long as the last run falls before its expiry and within the
      audit period after its revocation. */
  lemma {:induction false} RevokedRowsKeptAcrossRuns(s: Store, h: string, times: seq<int>)
    requires h in s && s[h].isRevoked && s[h].revokedAt.Some?
    requires forall i, j :: 0 <= i <= j < |times| ==> times[i] <= times[j]
    requires times != [] ==>
               s[h].expiresAt >= times[|times| - 1] && s[h].revokedAt.value >= AuditCutoff(times[|times| - 1])
    ensures h in CleanupRuns(s, times) && CleanupRuns(s, times)[h] == s[h]
  {
    if times != [] {
      var last := times[|times| - 1];
      assert times[0] <= last;
      var s1 := CleanupOldTokens(s, times[0]).store;
      assert h in s1 && s1[h] == s[h];
      var rest := times[1..];
      assert rest != [] ==> rest[|rest| - 1] == last;
      RevokedRowsKeptAcrossRuns(s1, h, rest);
    }
  }
}

=== FILE: crypto.dfy ===
/** The foreign primitives the services call: HS512 signing and parsing of a JWS
    (jjwt), the SHA-256 hex digest of a refresh token, and BCrypt. They are fields of
    one record, so every operation that needs them takes them as a parameter and
    nothing is assumed about them except where a lemma says so. */
module Crypto {
  import opened JavaStrings

  /** The claim set the token provider writes: `sub`, `iss`, `iat` and `exp`
      (section 4.1 of RFC 7519), plus the private claims `userId` and `roles`.
      `issuedAt` and `expiration` are NumericDates in seconds. */
  datatype Claims = Claims(
    subject: string,
    userId: int,
    roles: set<string>,
    issuer: string,
    issuedAt: int,
    expiration: int)

  /** Why jjwt refuses a compact token: the five exception classes the provider
      catches, and any other `JwtException`. */
  datatype JwtFailure =
    | SignatureInvalid | Malformed | Expired | Unsupported | EmptyClaims | OtherJwtFailure
  {
    /** The class a refusal is thrown as. */
    function ExceptionName(): string {
      match this
      case SignatureInvalid => "SignatureException"
      case Malformed => "MalformedJwtException"
      case Expired => "ExpiredJwtException"
      case Unsupported => "UnsupportedJwtException"
      case EmptyClaims => "IllegalArgumentException"
      case OtherJwtFailure => "JwtException"
    }
  }

  /** The outcome of verifying the signature and reading the payload, before the
      expiry check. */
  datatype Decoded = Parsed(claims: Claims) | Rejected(failure: JwtFailure)

  datatype Primitives = Primitives(
    /** HS512 signing with the configured secret, to the compact serialisation. */
    sign: Claims -> string,
    /** Signature verification and payload decoding with the same secret. */
    decode: string -> Decoded,
    /** `HexFormat.of().formatHex(SHA-256(token))`. */
    digest: string -> string,
    /** `passwordEncoder.matches(raw, hash)`. */
    passwordMatches: (string, string) -> bool,
    /** `passwordEncoder.encode(raw)`. */
    passwordEncode: string -> string)

  /** The signer and the parser belong together: parsing what was signed yields the
      signed claims, and a compact token is never blank (it holds two dots). */
  ghost predicate SignerSound(p: Primitives) {
    forall c :: p.decode(p.sign(c)) == Parsed(c) && HasText(p.sign(c))
  }

  /** The password encoder accepts what it encoded. */
  ghost predicate EncoderSound(p: Primitives) {
    forall raw :: p.passwordMatches(raw, p.passwordEncode(raw))
  }
}

=== FILE: envelopes.dfy ===
/** The two response envelopes: `ErrorResponse`, the flat error body, and
    `ApiResponse`, the unified wrapper whose error case holds `ErrorDetails`.
    Both serialise with `@JsonInclude(NON_NULL)`, so a `None` field is absent from
    the JSON; `Keys()` lists the keys a body serialises to. The `timestamp` every
    factory stamps from the clock is not modelled. */
module Envelopes {
  import opened Wrappers
  import opened Errors

  datatype ErrorResponse = ErrorResponse(
    status: int,
    error: Option<string>,
    errorCode: Option<string>,
    message: Option<string>,
    path: Option<string>,
    validationErrors: Option<map<string, string>>,
    details: Option<seq<string>>)
  {
    /** The JSON keys written for this body; `status` is a primitive and always present. */
    function Keys(): set<string> {
      {"status"}
      + (if error.Some? then {"error"} else {})
      + (if errorCode.Some? then {"errorCode"} else {})
      + (if message.Some? then {"message"} else {})
      + (if path.Some? then {"path"} else {})
      + (if validationErrors.Some? then {"validationErrors"} else {})
      + (if details.Some? then {"details"} else {})
    }
  }

  /** `ErrorResponse.of(status, error, message, path)`: a free-form body without a code. */
  function ErrorResponseOf(status: int, error: string, message: string, path: string): (r: ErrorResponse)
    ensures r.status == status && r.errorCode.None?
    ensures r.Keys() == {"status", "error", "message", "path"}
  {
    ErrorResponse(status, Some(error), None, Some(message), Some(path), None, None)
  }

  /** `ErrorResponse.of(status, code, message, path)`: the constant's name and code,
      with a caller-chosen message. */
  function ErrorResponseOfCodeMessage(status: int, code: ErrorCode, message: string, path: string): (r: ErrorResponse)
    ensures r.status == status && r.message == Some(message) && r.path == Some(path)
    ensures r.errorCode.Some? && FromCode(r.errorCode.value) == Some(code)
    ensures r.error == Some(code.Name())
    ensures r.Keys() == {"status", "error", "errorCode", "message", "path"}
  {
    FromCodeRoundTrip(code);
    ErrorResponse(status, Some(code.Name()), Some(code.Code()), Some(message), Some(path), None, None)
  }

  /** `ErrorResponse.of(status, code, path)`: the constant's own default message. */
  function ErrorResponseOfCode(status: int, code: ErrorCode, path: string): (r: ErrorResponse)
    ensures r.errorCode.Some? && FromCode(r.errorCode.value) == Some(code)
    ensures r.message == Some(code.Message())
  {
    ErrorResponseOfCodeMessage(status, code, code.Message(), path)
  }

  /** The three-argument factory is the four-argument one with the default message,
      and the free-form factory is the code-carrying one minus the code. */
  lemma ErrorResponseFactoriesAgree(status: int, code: ErrorCode, path: string)
    ensures ErrorResponseOfCode(status, code, path)
         == ErrorResponseOfCodeMessage(status, code, code.Message(), path)
    ensures ErrorResponseOfCodeMessage(status, code, code.Message(), path).(errorCode := None)
         == ErrorResponseOf(status, code.Name(), code.Message(), path)
  {
  }

  /** `ApiResponse.ValidationError`: one rejected field. */
  datatype ApiValidationError = ApiValidationError(field: string, message: string)

  /** `ApiResponse.ErrorDetails`; `errorType` is the JSON key `type`. */
  datatype ErrorDetails = ErrorDetails(
    code: Option<string>,
    errorType: Option<string>,
    message: Option<string>,
    detail: Option<string>,
    path: Option<string>,
    errors: Option<seq<ApiValidationError>>)
  {
    function Keys(): set<string> {
      (if code.Some? then {"code"} else {})
      + (if errorType.Some? then {"type"} else {})
      + (if message.Some? then {"message"} else {})
      + (if detail.Some? then {"detail"} else {})
      + (if path.Some? then {"path"} else {})
      + (if errors.Some? then {"errors"} else {})
    }
  }

  /** `ErrorDetails.of(code, type, message, detail, path, errors)`. */
  function DetailsOf6(code: string, errorType: string, message: string, detail: string, path: string,
                      errors: Option<seq<ApiValidationError>>): (d: ErrorDetails)
    ensures d.code == Some(code) && d.errorType == Some(errorType) && d.message == Some(message)
    ensures d.detail == Some(detail) && d.path == Some(path) && d.errors == errors
    ensures d.Keys() == {"code", "type", "message", "detail", "path"} + (if errors.Some? then {"errors"} else {})
  {
    ErrorDetails(Some(code), Some(errorType), Some(message), Some(detail), Some(path), errors)
  }

  /** `ErrorDetails.of(code, type, message, detail, path)`. */
  function DetailsOf5(code: string, errorType: string, message: string, detail: string, path: string): (d: ErrorDetails)
    ensures d.Keys() == {"code", "type", "message", "detail", "path"}
    ensures d.errors.None?
  {
    ErrorDetails(Some(code), Some(errorType), Some(message), Some(detail), Some(path), None)
  }

  /** `ErrorDetails.of(code, type, message, path)`. */
  function DetailsOf4(code: string, errorType: string, message: string, path: string): (d: ErrorDetails)
    ensures d.Keys() == {"code", "type", "message", "path"}
    ensures d.detail.None? && d.errors.None?
  {
    ErrorDetails(Some(code), Some(errorType), Some(message), None, Some(path), None)
  }

  /** The shorter overloads leave out exactly the trailing fields. */
  lemma DetailsOverloadsAgree(code: string, errorType: string, message: string, detail: string, path: string)
    ensures DetailsOf5(code, errorType, message, detail, path)
         == DetailsOf6(code, errorType, message, detail, path, None)
    ensures DetailsOf4(code, errorType, message, path)
         == DetailsOf6(code, errorType, message, detail, path, None).(detail := None)
  {
  }

  /** A JSON value held as its rendering; `metadata` is a `Map<String, Object>`. */
  type JsonValue = string

  /** `ApiResponse<T>`; `data` is `None` for a null payload. */
  datatype ApiResponse<T> = ApiResponse(
    success: bool,
    message: Option<string>,
    data: Option<T>,
    metadata: Option<map<string, JsonValue>>,
    error: Option<ErrorDetails>)
  {
    /** Success and error are exclusive: a successful body carries no error part,
        a failed one no payload, message or metadata. */
    predicate WellFormed() {
      (success ==> error.None?) && (!success ==> data.None? && message.None? && metadata.None?)
    }

    function Keys(): set<string> {
      {"success"}
      + (if message.Some? then {"message"} else {})
      + (if data.Some? then {"data"} else {})
      + (if metadata.Some? then {"metadata"} else {})
      + (if error.Some? then {"error"} else {})
    }
  }

  /** `ApiResponse.success(message, data, metadata)`, the most general success factory. */
  function SuccessWithMetadata<T>(message: Option<string>, data: Option<T>, metadata: Option<map<string, JsonValue>>): (r: ApiResponse<T>)
    ensures r.success && r.WellFormed()
    ensures r.message == message && r.data == data && r.metadata == metadata
    ensures "error" !in r.Keys()
  {
    ApiResponse(true, message, data, metadata, None)
  }

  /** `ApiResponse.success(message, data)`. */
  function SuccessMessageData<T>(message: Option<string>, data: Option<T>): (r: ApiResponse<T>)
    ensures r.success && r.WellFormed() && r.metadata.None?
    ensures r.message == message && r.data == data
  {
    ApiResponse(true, message, data, None, None)
  }

  /** `ApiResponse.success(data)`. */
  function SuccessData<T>(data: Option<T>): (r: ApiResponse<T>)
    ensures r.success && r.WellFormed()
    ensures r.Keys() == {"success"} + (if data.Some? then {"data"} else {})
  {
    ApiResponse(true, None, data, None, None)
  }

  /** `ApiResponse.success(message)`. */
  function SuccessMessage<T>(message: Option<string>): (r: ApiResponse<T>)
    ensures r.success && r.WellFormed() && r.data.None?
    ensures r.Keys() == {"success"} + (if message.Some? then {"message"} else {})
  {
    ApiResponse(true, message, None, None, None)
  }

  /** `ApiResponse.error(details)`. */
  function ApiError<T>(details: Option<ErrorDetails>): (r: ApiResponse<T>)
    ensures !r.success && r.WellFormed() && r.error == details
    ensures r.Keys() == {"success"} + (if details.Some? then {"error"} else {})
  {
    ApiResponse(false, None, None, None, details)
  }

  /** Every success overload is the general one with the omitted arguments null. */
  lemma SuccessOverloadsAgree<T>(message: Option<string>, data: Option<T>)
    ensures SuccessMessageData(message, data) == SuccessWithMetadata(message, data, None)
    ensures SuccessData(data) == SuccessWithMetadata(None, data, None)
    ensures SuccessMessage<T>(message) == SuccessWithMetadata(message, None, None)
  {
  }

  /** `ApiResponse.ValidationError.of(field, message)`. */
  function ValidationErrorOf(field: string, message: string): (v: ApiValidationError)
    ensures v.field == field && v.message == message
  {
    ApiValidationError(field, message)
  }
}

=== FILE: errors.dfy ===
/** The error taxonomy shared by every service: the `ErrorCode` enum with its fixed
    (code, message) pairs, the HTTP status each code maps to, and the exceptions the
    services throw, as one datatype. */
module Errors {
  import opened Wrappers

  /** One constructor per enum constant, in declaration order. */
  datatype ErrorCode =
    // Authentication & Authorization
    | Unauthorized | InvalidToken | AccessDenied | InvalidCredentials
    // Resource
    | ResourceNotFound | ResourceAlreadyExists
    // Validation
    | ValidationError | InvalidInput
    // Business Logic
    | BusinessRuleViolation | OperationNotAllowed
    // System
    | InternalServerError | ServiceUnavailable | DatabaseError | MethodNotAllowed
  {
    /** `getCode()`: the stable machine-readable code. */
    function Code(): string {
      match this
      case Unauthorized => "AUTH_001"
      case InvalidToken => "AUTH_002"
      case AccessDenied => "AUTH_003"
      case InvalidCredentials => "AUTH_004"
      case ResourceNotFound => "RES_001"
      case ResourceAlreadyExists => "RES_002"
      case ValidationError => "VAL_001"
      case InvalidInput => "VAL_002"
      case BusinessRuleViolation => "BUS_001"
      case OperationNotAllowed => "BUS_002"
      case InternalServerError => "SYS_001"
      case ServiceUnavailable => "SYS_002"
      case DatabaseError => "SYS_003"
      case MethodNotAllowed => "SYS_004"
    }

    /** `getMessage()`: the default human-readable message. */
    function Message(): string {
      match this
      case Unauthorized => "Authentication failed"
      case InvalidToken => "Invalid or expired token"
      case AccessDenied => "Access denied"
      case InvalidCredentials => "Invalid username or password"
      case ResourceNotFound => "Resource not found"
      case ResourceAlreadyExists => "Resource already exists"
      case ValidationError => "Validation failed"
      case InvalidInput => "Invalid input provided"
      case BusinessRuleViolation => "Business rule violation"
      case OperationNotAllowed => "Operation not allowed"
      case InternalServerError => "Internal server error"
      case ServiceUnavailable => "Service temporarily unavailable"
      case DatabaseError => "Database error occurred"
      case MethodNotAllowed => "HTTP method not allowed for this endpoint"
    }

    /** `name()`: the constant's identifier. */
    function Name(): string {
      match this
      case Unauthorized => "UNAUTHORIZED"
      case InvalidToken => "INVALID_TOKEN"
      case AccessDenied => "ACCESS_DENIED"
      case InvalidCredentials => "INVALID_CREDENTIALS"
      case ResourceNotFound => "RESOURCE_NOT_FOUND"
      case ResourceAlreadyExists => "RESOURCE_ALREADY_EXISTS"
      case ValidationError => "VALIDATION_ERROR"
      case InvalidInput => "INVALID_INPUT"
      case BusinessRuleViolation => "BUSINESS_RULE_VIOLATION"
      case OperationNotAllowed => "OPERATION_NOT_ALLOWED"
      case InternalServerError => "INTERNAL_SERVER_ERROR"
      case ServiceUnavailable => "SERVICE_UNAVAILABLE"
      case DatabaseError => "DATABASE_ERROR"
      case MethodNotAllowed => "METHOD_NOT_ALLOWED"
    }

    /** The commented group the constant is declared under. */
    function Group(): CodeGroup {
      if this in {Unauthorized, InvalidToken, AccessDenied, InvalidCredentials} then AuthGroup
      else if this in {ResourceNotFound, ResourceAlreadyExists} then ResourceGroup
      else if this in {ValidationError, InvalidInput} then ValidationGroup
      else if this in {BusinessRuleViolation, OperationNotAllowed} then BusinessGroup
      else SystemGroup
    }
  }

  datatype CodeGroup = AuthGroup | ResourceGroup | ValidationGroup | BusinessGroup | SystemGroup

  /** The prefix every code of a group starts with. */
  function GroupPrefix(g: CodeGroup): string {
    match g
    case AuthGroup => "AUTH_"
    case ResourceGroup => "RES_"
    case ValidationGroup => "VAL_"
    case BusinessGroup => "BUS_"
    case SystemGroup => "SYS_"
  }

  /** Reverse lookup from a code string to its constant. */
  function FromCode(code: string): (r: Option<ErrorCode>)
    ensures r.Some? ==> r.value.Code() == code
  {
    if code == "AUTH_001" then Some(Unauthorized)
    else if code == "AUTH_002" then Some(InvalidToken)
    else if code == "AUTH_003" then Some(AccessDenied)
    else if code == "AUTH_004" then Some(InvalidCredentials)
    else if code == "RES_001" then Some(ResourceNotFound)
    else if code == "RES_002" then Some(ResourceAlreadyExists)
    else if code == "VAL_001" then Some(ValidationError)
    else if code == "VAL_002" then Some(InvalidInput)
    else if code == "BUS_001" then Some(BusinessRuleViolation)
    else if code == "BUS_002" then Some(OperationNotAllowed)
    else if code == "SYS_001" then Some(InternalServerError)
    else if code == "SYS_002" then Some(ServiceUnavailable)
    else if code == "SYS_003" then Some(DatabaseError)
    else if code == "SYS_004" then Some(MethodNotAllowed)
    else None
  }

  /** Every constant is recovered from its own code, so no two constants share a code. */
  lemma FromCodeRoundTrip(c: ErrorCode)
    ensures FromCode(c.Code()) == Some(c)
  {
  }

  lemma CodesDistinct(a: ErrorCode, b: ErrorCode)
    ensures a.Code() == b.Code() ==> a == b
  {
    FromCodeRoundTrip(a);
    FromCodeRoundTrip(b);
  }

  /** Codes carry the prefix of the group their constant is declared under. */
  lemma CodePrefixMatchesGroup(c: ErrorCode)
    ensures GroupPrefix(c.Group()) <= c.Code()
    ensures |c.Code()| == |GroupPrefix(c.Group())| + 3
  {
  }

  /** `determineHttpStatus`, identical in both global exception handlers. */
  function HttpStatusOf(c: ErrorCode): (status: int)
    ensures status == 401 <==> c in {Unauthorized, InvalidToken, InvalidCredentials}
    ensures status == 403 <==> c == AccessDenied
    ensures status == 404 <==> c == ResourceNotFound
    ensures status == 400 <==> c in {ValidationError, InvalidInput, ResourceAlreadyExists}
    ensures status == 409 <==> c in {BusinessRuleViolation, OperationNotAllowed}
    ensures status == 503 <==> c == ServiceUnavailable
    ensures status == 500 <==> c in {InternalServerError, DatabaseError, MethodNotAllowed}
  {
    match c
    case Unauthorized | InvalidToken | InvalidCredentials => 401
    case AccessDenied => 403
    case ResourceNotFound => 404
    case ValidationError | InvalidInput | ResourceAlreadyExists => 400
    case BusinessRuleViolation | OperationNotAllowed => 409
    case ServiceUnavailable => 503
    case _ => 500
  }

  /** A Spring `FieldError`: the rejected field and its default message. */
  datatype FieldError = FieldError(field: string, message: string)

  /** The exceptions that reach the boundary. The first four are the
      `BusinessException` family, which carries an `ErrorCode`; the rest are Spring,
      persistence or arbitrary runtime exceptions. */
  datatype AppException =
    | UnauthorizedException(code: ErrorCode, message: string)
    | ResourceNotFoundException(message: string)
    | ValidationException(message: string, validationErrors: Option<map<string, string>>)
    | BusinessException(code: ErrorCode, message: string)
    | AuthenticationException(badCredentials: bool, message: string)
    | AccessDeniedException(message: string)
    | TypeMismatchException(value: string, name: string, requiredType: Option<string>)
    | ArgumentNotValidException(fieldErrors: seq<FieldError>)
    | PersistenceException(message: string)
    | UnexpectedException(message: string)
  {
    /** `getErrorCode()` of the `BusinessException` family. */
    function ErrorCodeOf(): Option<ErrorCode> {
      match this
      case UnauthorizedException(c, _) => Some(c)
      case ResourceNotFoundException(_) => Some(ResourceNotFound)
      case ValidationException(_, _) => Some(ValidationError)
      case BusinessException(c, _) => Some(c)
      case _ => None
    }
  }

  /** `new UnauthorizedException()`: the default code with its default message. */
  function NewUnauthorized(): (e: AppException)
    ensures e.UnauthorizedException? && e.ErrorCodeOf() == Some(Unauthorized)
    ensures e.message == Unauthorized.Message()
  {
    UnauthorizedException(Unauthorized, Unauthorized.Message())
  }

  /** `new UnauthorizedException(message)`: the default code `UNAUTHORIZED`. */
  function NewUnauthorizedMessage(message: string): (e: AppException)
    ensures e.UnauthorizedException? && e.ErrorCodeOf() == Some(Unauthorized)
    ensures e.message == message
  {
    UnauthorizedException(Unauthorized, message)
  }

  /** `new ResourceNotFoundException(resource, field, value)`: the formatted message. */
  function NewResourceNotFound(resourceName: string, fieldName: string, fieldValue: string): (e: AppException)
    ensures e.ErrorCodeOf() == Some(ResourceNotFound)
    ensures resourceName <= e.message
  {
    ResourceNotFoundException(resourceName + " not found with " + fieldName + ": '" + fieldValue + "'")
  }

  /** `new ValidationException(message)`: no field map. */
  function NewValidation(message: string): (e: AppException)
    ensures e.ErrorCodeOf() == Some(ValidationError)
    ensures e.ValidationException? && e.message == message && e.validationErrors.None?
  {
    ValidationException(message, None)
  }

  const FieldsFailedMessage := "Validation failed for one or more fields"

  /** `new ValidationException(map)`: the fixed summary message. */
  function NewValidationFields(validationErrors: Option<map<string, string>>): (e: AppException)
    ensures e.ErrorCodeOf() == Some(ValidationError)
    ensures e.ValidationException? && e.message == FieldsFailedMessage
    ensures e.validationErrors == validationErrors
  {
    ValidationException(FieldsFailedMessage, validationErrors)
  }

  /** `new ValidationException(message, map)`: both stored unchanged. */
  function NewValidationWith(message: string, validationErrors: Option<map<string, string>>): (e: AppException)
    ensures e.ErrorCodeOf() == Some(ValidationError)
    ensures e.ValidationException? && e.message == message && e.validationErrors == validationErrors
  {
    ValidationException(message, validationErrors)
  }

  /** The three constructors differ only in which fields they fill. */
  lemma ValidationConstructorsAgree(message: string, m: map<string, string>)
    ensures NewValidation(message) == NewValidationWith(message, None)
    ensures NewValidationFields(Some(m)) == NewValidationWith(FieldsFailedMessage, Some(m))
  {
  }
}

=== FILE: gate.dfy ===
/** The request gate: `JwtAuthenticationFilter` reads a bearer token and, when it is
    valid, puts an authenticated principal into the context; `ExceptionHandlerFilter`
    wraps it and turns what it throws into an `ErrorResponse`. */
module Gate {
  import opened Wrappers
  import opened JavaStrings
  import opened JavaTime
  import opened Errors
  import opened Crypto
  import opened Jwt
  import opened Envelopes
  import opened SecurityContext

  /** `extractJwtFromRequest` (the header form of section 2.1 of RFC 6750): the
      header with the configured prefix cut off once, or null. */
  function ExtractBearer(props: JwtProperties, header: Option<string>): (jwt: Option<string>)
    ensures jwt.Some? <==> header.Some? && HasText(header.value) && props.tokenPrefix <= header.value
    ensures jwt.Some? ==> header.value == props.tokenPrefix + jwt.value
  {
    if header.Some? && HasText(header.value) && props.tokenPrefix <= header.value then
      Some(header.value[|props.tokenPrefix|..])
    else None
  }

  /** A header built from the prefix and a token yields the token back. */
  lemma ExtractBearerRoundTrip(props: JwtProperties, token: string)
    requires HasText(token)
    ensures ExtractBearer(props, Some(props.tokenPrefix + token)) == Some(token)
  {
    var h := props.tokenPrefix + token;
    var i :| 0 <= i < |token| && !IsWhitespace(token[i]);
    assert h[|props.tokenPrefix| + i] == token[i];
    assert h[|props.tokenPrefix|..] == token;
  }

  /** What the filter decides: continue the chain with a context, or throw. */
  datatype GateOutcome = Proceed(context: Context) | Abort(ex: AppException)

  /** `doFilterInternal` of `JwtAuthenticationFilter`. A token with text is validated
      (a refusal is rethrown and the chain is not invoked); a valid one installs an
      authenticated token whose authorities are the principal's roles. Without a
      usable token the context is left as it was. */
  function Authenticate(props: JwtProperties, crypto: Primitives, header: Option<string>, now: int, ctx: Context): (o: GateOutcome)
    ensures var jwt := ExtractBearer(props, header);
            && (!(jwt.Some? && HasText(jwt.value)) ==> o == Proceed(ctx))
            && (jwt.Some? && HasText(jwt.value) ==>
                  && (o.Abort? <==> ValidateToken(crypto, jwt.value, now).Failure?)
                  && (o.Abort? ==> o.ex == ValidateToken(crypto, jwt.value, now).error)
                  && (o.Proceed? ==>
                        var p := GetUserPrincipalFromToken(crypto, jwt.value, now);
                        p.Success? && o.context == Some(AuthenticatedToken(UserPrincipal(p.value), jwt.value, p.value.roles))))
  {
    var jwt := ExtractBearer(props, header);
    if jwt.Some? && HasText(jwt.value) then
      match ValidateToken(crypto, jwt.value, now)
      case Failure(e) => Abort(e)
      case Success(_) =>
        match GetUserPrincipalFromToken(crypto, jwt.value, now)
        case Failure(e) => Abort(e)
        case Success(p) => Proceed(Some(AuthenticatedToken(UserPrincipal(p), jwt.value, p.roles)))
    else Proceed(ctx)
  }

  const FilterFailureMessage := "An error occurred during authentication"

  /** `ExceptionHandlerFilter`: the status written and the body, or nothing when the
      chain completed. */
  function FilterResponse(o: GateOutcome, requestUri: string): (r: Option<(int, ErrorResponse)>)
    ensures r.None? <==> o.Proceed?
    ensures r.Some? ==> r.value.1.status == r.value.0 && r.value.1.path == Some(requestUri)
    ensures r.Some? && o.ex.UnauthorizedException? ==>
              r.value.0 == 401 && r.value.1 == ErrorResponseOfCodeMessage(401, o.ex.code, o.ex.message, requestUri)
    ensures r.Some? && !o.ex.UnauthorizedException? ==>
              r.value.0 == 500
              && r.value.1 == ErrorResponseOfCodeMessage(500, InternalServerError, FilterFailureMessage, requestUri)
  {
    match o
    case Proceed(_) => None
    case Abort(UnauthorizedException(code, message)) =>
      Some((401, ErrorResponseOfCodeMessage(401, code, message, requestUri)))
    case Abort(_) =>
      Some((500, ErrorResponseOfCodeMessage(500, InternalServerError, FilterFailureMessage, requestUri)))
  }

  /** The filter pair in sequence: every 401 the gate writes carries
      `INVALID_TOKEN`, and every `UnauthorizedException` it throws is written as 401. */
  lemma RejectedTokenGives401(props: JwtProperties, crypto: Primitives, header: Option<string>, now: int, ctx: Context, requestUri: string)
    ensures var o := Authenticate(props, crypto, header, now, ctx);
            var r := FilterResponse(o, requestUri);
            && (r.Some? && r.value.0 == 401 ==> r.value.1.errorCode == Some(InvalidToken.Code()))
            && (o.Abort? && o.ex.UnauthorizedException? ==> r.value.0 == 401)
  {
  }

  /** Without a header, or without the prefix, the request passes through unchanged
      and nothing is written. */
  lemma NoBearerPassesThrough(props: JwtProperties, crypto: Primitives, header: Option<string>, now: int, ctx: Context, requestUri: string)
    requires header.None? || !(props.tokenPrefix <= header.value)
    ensures Authenticate(props, crypto, header, now, ctx) == Proceed(ctx)
    ensures FilterResponse(Authenticate(props, crypto, header, now, ctx), requestUri).None?
  {
  }

  /** An access token the provider issued, presented before its `exp`, authenticates
      its principal: the current user id, e-mail and roles are the principal's. */
  lemma IssuedTokenAuthenticates(props: JwtProperties, crypto: Primitives, principal: Principal, issued: int, now: int, ctx: Context)
    requires SignerSound(crypto)
    requires now <= ToEpochSeconds(issued + props.accessTokenExpiration) * MillisPerSecond
    ensures var token := GenerateAccessToken(props, crypto, principal, issued);
            var o := Authenticate(props, crypto, Some(props.tokenPrefix + token), now, ctx);
            && o.Proceed?
            && CurrentUserId(o.context) == Success(principal.id)
            && CurrentUserEmail(o.context) == Success(principal.email)
            && (forall role :: HasRole(o.context, role) == Success(role in principal.roles))
  {
    var token := GenerateAccessToken(props, crypto, principal, issued);
    var c := ClaimsFor(props, principal, props.accessTokenExpiration, issued);
    assert crypto.decode(crypto.sign(c)) == Parsed(c) && HasText(crypto.sign(c));
    ExtractBearerRoundTrip(props, token);
  }
}

=== FILE: handlers.dfy ===
/** The two `@RestControllerAdvice` handlers. Spring dispatches an exception to the
    handler declared for its most specific class, so `UnauthorizedException`,
    `ResourceNotFoundException` and `ValidationException` reach their own handlers
    although all three extend `BusinessException`. `Legacy` is the handler of the
    `exception` package (flat `ErrorResponse`), `Api` the one of the
    `exception.handler` package (`ApiResponse` with `ErrorDetails`). */
module Handlers {
  import opened Wrappers
  import opened Errors
  import opened Envelopes

  const UnexpectedMessage := "An unexpected error occurred. Please try again later."
  const ForbiddenMessage := "You don't have permission to access this resource"
  const CheckErrorsDetail := "Please check the errors field for specific validation issues"

  /** `String.format("Invalid value '%s' for parameter '%s'. Expected type: %s", ...)`;
      a missing required type is rendered as "unknown". */
  function TypeMismatchMessage(value: string, name: string, requiredType: Option<string>): string {
    "Invalid value '" + value + "' for parameter '" + name + "'. Expected type: "
      + requiredType.GetOr("unknown")
  }

  /** The code the body reports for an exception, whichever handler writes it. */
  function ReportedCode(ex: AppException): (c: ErrorCode)
    ensures ex.ErrorCodeOf().Some? ==> c == ex.ErrorCodeOf().value
  {
    match ex
    case UnauthorizedException(code, _) => code
    case ResourceNotFoundException(_) => ResourceNotFound
    case ValidationException(_, _) => ValidationError
    case BusinessException(code, _) => code
    case AuthenticationException(bad, _) => if bad then InvalidCredentials else Unauthorized
    case AccessDeniedException(_) => AccessDenied
    case TypeMismatchException(_, _, _) => InvalidInput
    case ArgumentNotValidException(_) => ValidationError
    case PersistenceException(_) => InternalServerError
    case UnexpectedException(_) => InternalServerError
  }

  /** The HTTP status both handlers answer with. */
  function ReportedStatus(ex: AppException): (status: int)
    ensures ex.UnauthorizedException? ==> status == 401
    ensures !ex.UnauthorizedException? ==> status == HttpStatusOf(ReportedCode(ex))
  {
    match ex
    case UnauthorizedException(_, _) => 401
    case ResourceNotFoundException(_) => 404
    case ValidationException(_, _) => 400
    case BusinessException(code, _) => HttpStatusOf(code)
    case AuthenticationException(_, _) => 401
    case AccessDeniedException(_) => 403
    case TypeMismatchException(_, _, _) => 400
    case ArgumentNotValidException(_) => 400
    case PersistenceException(_) | UnexpectedException(_) => 500
  }

  /** The status agrees with `determineHttpStatus` of the reported code, except for an
      `UnauthorizedException` built with a code outside the 401 group: that handler
      answers 401 whatever the code (a disabled account reports `ACCESS_DENIED`
      with 401, not 403). */
  lemma StatusFollowsCodeTable(ex: AppException)
    ensures ReportedStatus(ex) == HttpStatusOf(ReportedCode(ex))
        <==> !(ex.UnauthorizedException? && ex.code !in {Unauthorized, InvalidToken, InvalidCredentials})
  {
  }

  /** The map the `exception`-package handler builds by `put`ting every field error
      in turn: a field rejected twice keeps its last message. */
  function FieldErrorMap(errors: seq<FieldError>): (m: map<string, string>)
    ensures forall e :: e in errors ==> e.field in m
    ensures forall f :: f in m ==> exists e :: e in errors && e.field == f && m[f] == e.message
  {
    if errors == [] then map[]
    else
      var last := errors[|errors| - 1];
      FieldErrorMap(errors[..|errors| - 1])[last.field := last.message]
  }

  /** The message kept for a field is the one of its last occurrence. */
  lemma {:induction false} FieldErrorMapLastWins(errors: seq<FieldError>, i: int)
    requires 0 <= i < |errors|
    requires forall j :: i < j < |errors| ==> errors[j].field != errors[i].field
    ensures FieldErrorMap(errors)[errors[i].field] == errors[i].message
  {
    if i < |errors| - 1 {
      var init := errors[..|errors| - 1];
      assert init[i] == errors[i];
      forall j | i < j < |init| ensures init[j].field != init[i].field {
        assert init[j] == errors[j];
      }
      FieldErrorMapLastWins(init, i);
    }
  }

  /** `errors.stream().map(ValidationError::of).toList()` in binding-result order. */
  function FieldErrorList(errors: seq<FieldError>): (r: seq<ApiValidationError>)
    ensures |r| == |errors|
    ensures forall i :: 0 <= i < |errors| ==> r[i] == ValidationErrorOf(errors[i].field, errors[i].message)
  {
    seq(|errors|, i requires 0 <= i < |errors| => ValidationErrorOf(errors[i].field, errors[i].message))
  }

  /** `order` is an enumeration of the keys of `m`, each exactly once. */
  predicate Enumerates(order: seq<string>, m: map<string, string>) {
    && (forall i, j :: 0 <= i < j < |order| ==> order[i] != order[j])
    && (forall i :: 0 <= i < |order| ==> order[i] in m)
    && (forall k :: k in m ==> k in order)
  }

  /** `map.entrySet().stream().map(...).toList()`: the entries in the map's iteration
      order, which `HashMap` does not fix and which is therefore a parameter. Keys in
      `order` that are not in the map are skipped. */
  function EntryList(m: map<string, string>, order: seq<string>): (r: seq<ApiValidationError>)
    ensures |r| <= |order|
    ensures forall v :: v in r ==> v.field in m && m[v.field] == v.message
  {
    if order == [] then []
    else
      var rest := EntryList(m, order[1..]);
      if order[0] in m then [ValidationErrorOf(order[0], m[order[0]])] + rest else rest
  }

  /** When every key of `order` is in the map, each contributes one entry. */
  lemma {:induction false} EntryListLength(m: map<string, string>, order: seq<string>)
    requires forall i :: 0 <= i < |order| ==> order[i] in m
    ensures |EntryList(m, order)| == |order|
  {
    if order != [] {
      EntryListLength(m, order[1..]);
    }
  }

  /** Every key of `order` that is in the map contributes its entry. */
  lemma {:induction false} EntryListContains(m: map<string, string>, order: seq<string>, k: string)
    requires k in m && k in order
    ensures ValidationErrorOf(k, m[k]) in EntryList(m, order)
  {
    if order[0] != k {
      EntryListContains(m, order[1..], k);
    }
  }

  /** Under a genuine enumeration every entry appears, exactly once. */
  lemma EntryListComplete(m: map<string, string>, order: seq<string>)
    requires Enumerates(order, m)
    ensures |EntryList(m, order)| == |order| == |m|
    ensures forall k :: k in m ==> ValidationErrorOf(k, m[k]) in EntryList(m, order)
  {
    EntryListLength(m, order);
    forall k | k in m ensures ValidationErrorOf(k, m[k]) in EntryList(m, order) {
      EntryListContains(m, order, k);
    }
    assert (set i | 0 <= i < |order| :: order[i]) == m.Keys;
    DistinctCount(order);
  }

  /** `ServletWebRequest.getDescription(false)`: the request URI behind `uri=`. */
  function Describe(requestUri: string): string {
    "uri=" + requestUri
  }

  /** `extractPath`: drops one leading `uri=`; any other description is kept whole. */
  function ExtractPath(description: string): (path: string)
    ensures "uri=" <= description ==> description == "uri=" + path
    ensures !("uri=" <= description) ==> path == description
  {
    if "uri=" <= description then description[4..] else description
  }

  /** The path the Spring MVC override reports is the request URI. */
  lemma ExtractPathRoundTrip(requestUri: string)
    ensures ExtractPath(Describe(requestUri)) == requestUri
  {
    assert Describe(requestUri)[4..] == requestUri;
  }

  /** The message the `exception`-package handler writes: the exception's own for
      the business and authentication exceptions, a fixed text otherwise. */
  function LegacyMessage(ex: AppException): string {
    match ex
    case BusinessException(_, message) => message
    case ResourceNotFoundException(message) => message
    case UnauthorizedException(_, message) => message
    case ValidationException(message, _) => message
    case ArgumentNotValidException(_) => FieldsFailedMessage
    case TypeMismatchException(value, name, requiredType) => TypeMismatchMessage(value, name, requiredType)
    case AuthenticationException(_, message) => message
    case AccessDeniedException(_) => ForbiddenMessage
    case PersistenceException(_) | UnexpectedException(_) => UnexpectedMessage
  }

  /** The field map the `exception`-package handler attaches, if any. */
  function LegacyFieldMap(ex: AppException): Option<map<string, string>> {
    match ex
    case ValidationException(_, errors) => errors
    case ArgumentNotValidException(fieldErrors) => Some(FieldErrorMap(fieldErrors))
    case _ => None
  }

  /** The `exception`-package handler. */
  function HandleLegacy(ex: AppException, requestUri: string): (r: ErrorResponse)
    ensures r.status == ReportedStatus(ex)
    ensures r.errorCode.Some? && FromCode(r.errorCode.value) == Some(ReportedCode(ex))
    ensures r.path == Some(requestUri)
    ensures r.message == Some(LegacyMessage(ex))
    ensures r.validationErrors.Some? <==>
              ex.ArgumentNotValidException? || (ex.ValidationException? && ex.validationErrors.Some?)
    ensures ex.ValidationException? ==> r.validationErrors == ex.validationErrors
    ensures ex.ArgumentNotValidException? ==> r.validationErrors == Some(FieldErrorMap(ex.fieldErrors))
  {
    ErrorResponseOfCodeMessage(ReportedStatus(ex), ReportedCode(ex), LegacyMessage(ex), requestUri)
      .(validationErrors := LegacyFieldMap(ex))
  }

  /** The `exception.handler`-package handler: the status and the `ApiResponse` body.
      `order` is the iteration order of a `ValidationException`'s field map. */
  function HandleApi(ex: AppException, requestUri: string, order: seq<string>): (r: (int, ApiResponse<()>))
    ensures r.0 == ReportedStatus(ex)
    ensures !r.1.success && r.1.WellFormed() && r.1.error.Some?
    ensures r.1.error.value.code.Some? && FromCode(r.1.error.value.code.value) == Some(ReportedCode(ex))
    ensures r.1.error.value.errorType == Some(ReportedCode(ex).Name())
    ensures r.1.error.value.path == Some(requestUri)
    ensures ex.ValidationException? ==>
              (r.1.error.value.errors.None? <==> ex.validationErrors.None? || ex.validationErrors.value == map[])
    ensures ex.ArgumentNotValidException? ==> r.1.error.value.errors == Some(FieldErrorList(ex.fieldErrors))
    ensures !ex.ValidationException? && !ex.ArgumentNotValidException? ==> r.1.error.value.errors.None?
  {
    FromCodeRoundTrip(ReportedCode(ex));
    ExtractPathRoundTrip(requestUri);
    var code := ReportedCode(ex);
    var details := match ex
      case BusinessException(_, message) =>
        DetailsOf5(code.Code(), code.Name(), message, code.Message(), requestUri)
      case ResourceNotFoundException(message) =>
        DetailsOf5(code.Code(), code.Name(), message, code.Message(), requestUri)
      case UnauthorizedException(_, message) =>
        DetailsOf5(code.Code(), code.Name(), message, code.Message(), requestUri)
      case ValidationException(message, errors) =>
        var list := if errors.Some? && errors.value != map[] then Some(EntryList(errors.value, order)) else None;
        DetailsOf6(code.Code(), code.Name(), message, CheckErrorsDetail, requestUri, list)
      case TypeMismatchException(value, name, requiredType) =>
        DetailsOf5(code.Code(), code.Name(), TypeMismatchMessage(value, name, requiredType), code.Message(), requestUri)
      case AuthenticationException(_, message) =>
        DetailsOf5(code.Code(), code.Name(), message, code.Message(), requestUri)
      case AccessDeniedException(_) =>
        DetailsOf5(code.Code(), code.Name(), ForbiddenMessage, code.Message(), requestUri)
      case ArgumentNotValidException(fieldErrors) =>
        DetailsOf6(code.Code(), code.Name(), FieldsFailedMessage, CheckErrorsDetail,
                   ExtractPath(Describe(requestUri)), Some(FieldErrorList(fieldErrors)))
      case PersistenceException(_) | UnexpectedException(_) =>
        DetailsOf5(code.Code(), code.Name(), UnexpectedMessage, code.Message(), requestUri);
    (ReportedStatus(ex), ApiError(Some(details)))
  }

  /** Both handlers answer every exception with the same status, the same code and
      the same message. */
  lemma HandlersAgree(ex: AppException, requestUri: string, order: seq<string>)
    ensures HandleLegacy(ex, requestUri).status == HandleApi(ex, requestUri, order).0
    ensures HandleLegacy(ex, requestUri).errorCode == HandleApi(ex, requestUri, order).1.error.value.code
    ensures HandleLegacy(ex, requestUri).message == HandleApi(ex, requestUri, order).1.error.value.message
  {
  }

  /** An unexpected failure never leaks its own message: both bodies carry the fixed
      text, under `INTERNAL_SERVER_ERROR`, with 500. */
  lemma UnexpectedIsOpaque(message: string, requestUri: string, order: seq<string>)
    ensures HandleLegacy(UnexpectedException(message), requestUri)
         == ErrorResponseOfCodeMessage(500, InternalServerError, UnexpectedMessage, requestUri)
    ensures HandleApi(PersistenceException(message), requestUri, order).1.error.value.message == Some(UnexpectedMessage)
  {
  }

  /** A `ValidationException` with a non-empty field map reports every entry of the
      map when the list follows the map's iteration order; an empty map reports none. */
  lemma ValidationEntriesReported(message: string, errors: map<string, string>, requestUri: string, order: seq<string>)
    requires Enumerates(order, errors)
    ensures var d := HandleApi(ValidationException(message, Some(errors)), requestUri, order).1.error.value;
            && (errors == map[] <==> d.errors.None?)
            && (d.errors.Some? ==>
                  && |d.errors.value| == |errors|
                  && forall k :: k in errors ==> ValidationErrorOf(k, errors[k]) in d.errors.value)
  {
    EntryListComplete(errors, order);
  }

  /** A duplicate-free sequence has as many elements as the set of its elements. */
  lemma {:induction false} DistinctCount(s: seq<string>)
    requires forall i, j :: 0 <= i < j < |s| ==> s[i] != s[j]
    ensures |set i | 0 <= i < |s| :: s[i]| == |s|
  {
    if s != [] {
      var t := s[1..];
      forall i, j | 0 <= i < j < |t| ensures t[i] != t[j] {
        assert t[i] == s[i + 1] && t[j] == s[j + 1];
      }
      DistinctCount(t);
      var st := set i | 0 <= i < |t| :: t[i];
      var ss := set i | 0 <= i < |s| :: s[i];
      assert ss == st + {s[0]} by {
        forall x | x in ss ensures x in st + {s[0]} {
          var i :| 0 <= i < |s| && s[i] == x;
          if i > 0 { assert t[i - 1] == x; }
        }
        forall x | x in st ensures x in ss {
          var i :| 0 <= i < |t| && t[i] == x;
          assert s[i + 1] == x;
        }
      }
      assert s[0] !in st by {
        forall i | 0 <= i < |t| ensures t[i] != s[0] {
          assert t[i] == s[i + 1];
        }
      }
    }
  }
}

=== FILE: java_strings.dfy ===
/** The few `java.lang.String` and Spring `StringUtils` operations the services rely
    on, over Dafny strings. Case mapping covers ASCII letters only. */
module JavaStrings {

  /** `String.trim` strips every character at or below U+0020 from both ends. */
  predicate IsTrimmed(c: char) {
    c <= ' '
  }

  /** Leading trimmed characters removed. */
  function TrimLeft(s: string): (r: string)
    ensures |r| <= |s| && r == s[|s| - |r|..]
    ensures forall i :: 0 <= i < |s| - |r| ==> IsTrimmed(s[i])
    ensures r != [] ==> !IsTrimmed(r[0])
  {
    if s != [] && IsTrimmed(s[0]) then TrimLeft(s[1..]) else s
  }

  /** Trailing trimmed characters removed. */
  function TrimRight(s: string): (r: string)
    ensures |r| <= |s| && r == s[..|r|]
    ensures forall i :: |r| <= i < |s| ==> IsTrimmed(s[i])
    ensures r != [] ==> !IsTrimmed(r[|r| - 1])
  {
    if s != [] && IsTrimmed(s[|s| - 1]) then TrimRight(s[..|s| - 1]) else s
  }

  /** `String.trim`. */
  function Trim(s: string): string {
    TrimRight(TrimLeft(s))
  }

  /** `value.trim().isEmpty()` holds exactly when every character is a trimmed one. */
  lemma {:induction false} TrimEmptyIff(s: string)
    ensures Trim(s) == [] <==> forall i :: 0 <= i < |s| ==> IsTrimmed(s[i])
  {
    var l := TrimLeft(s);
    if Trim(s) == [] && l != [] {
      // the first character TrimLeft kept is not trimmed, yet TrimRight strips it
      assert false;
    }
    if forall i :: 0 <= i < |s| ==> IsTrimmed(s[i]) {
      if l != [] {
        assert l[0] == s[|s| - |l|];
      }
    }
  }

  /** A string without trimmed characters is its own trim. */
  lemma TrimIdentity(s: string)
    requires forall i :: 0 <= i < |s| ==> !IsTrimmed(s[i])
    ensures Trim(s) == s
  {
  }

  /** `Character.isWhitespace`: the Unicode space separators other than the
      non-breaking ones, plus the listed control characters. */
  predicate IsWhitespace(c: char) {
    var n := c as int;
    (9 <= n <= 13) || (28 <= n <= 32) || n == 0x1680
    || (0x2000 <= n <= 0x2006) || (0x2008 <= n <= 0x200A)
    || n == 0x2028 || n == 0x2029 || n == 0x205F || n == 0x3000
  }

  /** Spring `StringUtils.hasText`: non-null, and some character is not whitespace. */
  predicate HasText(s: string) {
    exists i :: 0 <= i < |s| && !IsWhitespace(s[i])
  }

  /** A character outside the Basic Multilingual Plane, which a Java string holds
      as a surrogate pair. */
  predicate IsSupplementary(c: char) {
    c as int > 0xFFFF
  }

  /** `String.length()`: UTF-16 code units, two for a supplementary character. */
  function Utf16Length(s: string): (n: nat)
    ensures |s| <= n <= 2 * |s|
  {
    if s == [] then 0 else (if IsSupplementary(s[0]) then 2 else 1) + Utf16Length(s[1..])
  }

  /** Java's length is the number of characters exactly when none is supplementary. */
  lemma {:induction false} Utf16LengthIsCount(s: string)
    ensures Utf16Length(s) == |s| <==> forall i :: 0 <= i < |s| ==> !IsSupplementary(s[i])
  {
    if s != [] {
      Utf16LengthIsCount(s[1..]);
      if !IsSupplementary(s[0]) {
        forall i | 0 < i < |s| ensures s[i] == s[1..][i - 1] { }
      }
    }
  }

  /** A string of supplementary characters only is twice as long in Java. */
  lemma {:induction false} Utf16LengthAllSupplementary(s: string)
    requires forall i :: 0 <= i < |s| ==> IsSupplementary(s[i])
    ensures Utf16Length(s) == 2 * |s|
  {
    if s != [] {
      assert forall i :: 0 <= i < |s[1..]| ==> s[1..][i] == s[i + 1];
      Utf16LengthAllSupplementary(s[1..]);
    }
  }

  predicate IsAsciiUpper(c: char) { 'A' <= c <= 'Z' }
  predicate IsAsciiLower(c: char) { 'a' <= c <= 'z' }
  predicate IsAsciiLetter(c: char) { IsAsciiUpper(c) || IsAsciiLower(c) }
  predicate IsAsciiDigit(c: char) { '0' <= c <= '9' }

  function LowerChar(c: char): char {
    if IsAsciiUpper(c) then (c as int + 32) as char else c
  }

  function UpperChar(c: char): char {
    if IsAsciiLower(c) then (c as int - 32) as char else c
  }

  /** `toLowerCase()` on ASCII letters. */
  function ToLower(s: string): (r: string)
    ensures |r| == |s|
    ensures forall i :: 0 <= i < |s| ==> r[i] == LowerChar(s[i])
  {
    seq(|s|, i requires 0 <= i < |s| => LowerChar(s[i]))
  }

  /** `toUpperCase()` on ASCII letters. */
  function ToUpper(s: string): (r: string)
    ensures |r| == |s|
    ensures forall i :: 0 <= i < |s| ==> r[i] == UpperChar(s[i])
  {
    seq(|s|, i requires 0 <= i < |s| => UpperChar(s[i]))
  }

  /** `equalsIgnoreCase` on ASCII letters. */
  predicate EqualsIgnoreCase(a: string, b: string) {
    ToLower(a) == ToLower(b)
  }

  /** The decimal rendering `%d` gives an integer. */
  function IntToString(n: int): string {
    if n < 0 then "-" + NatToString(-n) else NatToString(n)
  }

  function NatToString(n: nat): string
    decreases n
  {
    if n < 10 then [DigitChar(n)] else NatToString(n / 10) + [DigitChar(n % 10)]
  }

  function DigitChar(d: nat): char
    requires d < 10
  {
    ('0' as int + d) as char
  }
}

=== FILE: java_time.dfy ===
/** Instants and durations. Every instant is a count of milliseconds since the epoch
    (the `Date` and `LocalDateTime` values of the services, read from one clock); the
    clock itself is a parameter of every operation that reads it. */
module JavaTime {

  const MillisPerSecond := 1000
  const MillisPerDay := 86400000

  /** Java's `/` on `long`: the quotient is truncated toward zero, so the remainder
      takes the sign of the dividend. */
  function JavaDiv(a: int, b: int): (q: int)
    requires b > 0
    ensures a >= 0 ==> 0 <= a - q * b < b
    ensures a < 0 ==> -b < a - q * b <= 0
  {
    if a >= 0 then a / b else -((-a) / b)
  }

  /** NumericDate (section 2 of RFC 7519): whole seconds, as `Date` is written into
      a JWT. */
  function ToEpochSeconds(millis: int): (s: int)
    ensures millis >= 0 ==> s * MillisPerSecond <= millis < s * MillisPerSecond + MillisPerSecond
  {
    JavaDiv(millis, MillisPerSecond)
  }

  /** Adding whole seconds to a non-negative instant adds them to its NumericDate. */
  lemma {:induction false} EpochSecondsShift(millis: int, seconds: int)
    requires millis >= 0 && seconds >= 0
    ensures ToEpochSeconds(millis + seconds * MillisPerSecond) == ToEpochSeconds(millis) + seconds
  {
    var q := ToEpochSeconds(millis);
    var q' := ToEpochSeconds(millis + seconds * MillisPerSecond);
    assert q * 1000 <= millis < q * 1000 + 1000;
    assert q' * 1000 <= millis + seconds * 1000 < q' * 1000 + 1000;
    assert (q + seconds) * 1000 == q * 1000 + seconds * 1000;
    assert q' * 1000 < (q + seconds + 1) * 1000;
    assert (q + seconds) * 1000 < (q' + 1) * 1000;
  }
}

=== FILE: jwt.dfy ===
/** `JwtProperties` and `JwtTokenProvider`: what goes into an access or refresh
    token, how a presented token is checked, and what is read back from it. */
module Jwt {
  import opened Wrappers
  import opened JavaStrings
  import opened JavaTime
  import opened Errors
  import opened Crypto

  /** The `jwt.*` configuration properties; durations in milliseconds. */
  datatype JwtProperties = JwtProperties(
    secret: string,
    accessTokenExpiration: int,
    refreshTokenExpiration: int,
    issuer: string,
    tokenPrefix: string,
    headerName: string)

  /** The field initialisers; the secret has no default and must be configured. */
  function DefaultProperties(secret: string): (props: JwtProperties)
    ensures props.secret == secret
    ensures props.accessTokenExpiration == 3600000 && props.refreshTokenExpiration == 2592000000
    ensures props.issuer == "penny-control"
    ensures props.tokenPrefix == "Bearer " && props.headerName == "Authorization"
  {
    JwtProperties(secret, 3600000, 2592000000, "penny-control", "Bearer ", "Authorization")
  }

  /** The defaults are one hour and thirty days, both whole seconds. */
  lemma DefaultDurations(secret: string)
    ensures var props := DefaultProperties(secret);
            && JavaDiv(props.accessTokenExpiration, MillisPerSecond) == 3600
            && props.refreshTokenExpiration == 30 * MillisPerDay
            && props.accessTokenExpiration % MillisPerSecond == 0
            && props.refreshTokenExpiration % MillisPerSecond == 0
  {
  }

  /** `UserPrincipal`, as far as tokens and the security context use it. */
  datatype Principal = Principal(
    id: int,
    email: string,
    roles: set<string>,
    password: Option<string>,
    enabled: bool,
    accountNonExpired: bool,
    accountNonLocked: bool,
    credentialsNonExpired: bool)
  {
    /** All four account flags are set. */
    predicate FullyEnabled() {
      enabled && accountNonExpired && accountNonLocked && credentialsNonExpired
    }
  }

  /** The claims `generateToken` builds at `now` for a validity of `duration` ms. */
  function ClaimsFor(props: JwtProperties, principal: Principal, duration: int, now: int): (c: Claims)
    ensures c.subject == principal.email && c.userId == principal.id && c.roles == principal.roles
    ensures c.issuer == props.issuer
    ensures c.issuedAt == ToEpochSeconds(now) && c.expiration == ToEpochSeconds(now + duration)
  {
    Claims(principal.email, principal.id, principal.roles, props.issuer,
           ToEpochSeconds(now), ToEpochSeconds(now + duration))
  }

  /** `generateToken`: the signed claims. */
  function GenerateToken(props: JwtProperties, crypto: Primitives, principal: Principal, duration: int, now: int): (token: string)
    ensures SignerSound(crypto) ==> crypto.decode(token) == Parsed(ClaimsFor(props, principal, duration, now))
  {
    crypto.sign(ClaimsFor(props, principal, duration, now))
  }

  function GenerateAccessToken(props: JwtProperties, crypto: Primitives, principal: Principal, now: int): (token: string)
    ensures SignerSound(crypto) ==>
              && crypto.decode(token).Parsed?
              && crypto.decode(token).claims.expiration == ToEpochSeconds(now + props.accessTokenExpiration)
  {
    GenerateToken(props, crypto, principal, props.accessTokenExpiration, now)
  }

  function GenerateRefreshToken(props: JwtProperties, crypto: Primitives, principal: Principal, now: int): (token: string)
    ensures SignerSound(crypto) ==>
              && crypto.decode(token).Parsed?
              && crypto.decode(token).claims.expiration == ToEpochSeconds(now + props.refreshTokenExpiration)
  {
    GenerateToken(props, crypto, principal, props.refreshTokenExpiration, now)
  }

  /** For a whole-second duration issued at a non-negative instant, `exp` is `iat`
      plus the duration, and the token lives between `duration - 999` and
      `duration` ms. */
  lemma ExpirationFollowsIssue(props: JwtProperties, principal: Principal, duration: int, now: int)
    requires now >= 0 && duration >= 0 && duration % MillisPerSecond == 0
    ensures var c := ClaimsFor(props, principal, duration, now);
            && c.expiration == c.issuedAt + duration / MillisPerSecond
            && now + duration - 999 <= c.expiration * MillisPerSecond <= now + duration
  {
    EpochSecondsShift(now, duration / MillisPerSecond);
  }

  /** `getClaimsFromToken`: jjwt refuses a blank string first, then verifies and
      decodes, then rejects a token whose `exp` lies strictly before `now`. */
  function ParseClaims(crypto: Primitives, token: string, now: int): (r: Result<Claims, JwtFailure>)
    ensures r.Success? <==>
              HasText(token) && crypto.decode(token).Parsed?
              && now <= crypto.decode(token).claims.expiration * MillisPerSecond
    ensures r.Success? ==> r.value == crypto.decode(token).claims
    ensures r == Failure(EmptyClaims) <==> !HasText(token) || crypto.decode(token) == Rejected(EmptyClaims)
  {
    if !HasText(token) then Failure(EmptyClaims)
    else match crypto.decode(token)
      case Rejected(f) => Failure(f)
      case Parsed(c) =>
        if now > c.expiration * MillisPerSecond then Failure(Expired) else Success(c)
  }

  /** The message `validateToken` logs and throws for each refusal it catches. */
  function FailureMessage(f: JwtFailure): string {
    match f
    case SignatureInvalid => "Invalid JWT signature"
    case Malformed => "Invalid JWT token"
    case Expired => "Expired JWT token"
    case Unsupported => "Unsupported JWT token"
    case EmptyClaims => "JWT claims string is empty"
    case OtherJwtFailure => ""
  }

  /** A jjwt exception that escapes uncaught: it is neither a `BusinessException` nor
      an authentication exception, so every handler treats it as unexpected. */
  function RawJwtException(f: JwtFailure): (e: AppException)
    ensures e.UnexpectedException? && e.ErrorCodeOf().None?
  {
    UnexpectedException(f.ExceptionName())
  }

  /** `validateToken`: true, or an `UnauthorizedException(INVALID_TOKEN)` whose
      message names the refusal; a refusal of another kind escapes as it is. */
  function ValidateToken(crypto: Primitives, token: string, now: int): (r: Result<bool, AppException>)
    ensures r.Success? <==> ParseClaims(crypto, token, now).Success?
    ensures r.Success? ==> r.value
    ensures r.Failure? && ParseClaims(crypto, token, now).error != OtherJwtFailure ==>
              r.error == UnauthorizedException(InvalidToken, FailureMessage(ParseClaims(crypto, token, now).error))
    ensures r.Failure? && ParseClaims(crypto, token, now).error == OtherJwtFailure ==>
              r.error == RawJwtException(OtherJwtFailure)
  {
    match ParseClaims(crypto, token, now)
    case Success(_) => Success(true)
    case Failure(OtherJwtFailure) => Failure(RawJwtException(OtherJwtFailure))
    case Failure(f) => Failure(UnauthorizedException(InvalidToken, FailureMessage(f)))
  }

  /** The five caught refusals carry five different messages. */
  lemma FailureMessagesDistinct(f: JwtFailure, g: JwtFailure)
    requires f != OtherJwtFailure && g != OtherJwtFailure
    ensures FailureMessage(f) == FailureMessage(g) <==> f == g
  {
  }

  /** `getClaimsFromToken` as the getters call it: refusals escape uncaught. */
  function ClaimsFromToken(crypto: Primitives, token: string, now: int): (r: Result<Claims, AppException>)
    ensures r.Success? <==> ParseClaims(crypto, token, now).Success?
    ensures r.Success? ==> r.value == ParseClaims(crypto, token, now).value
    ensures r.Failure? ==> r.error.UnexpectedException?
  {
    match ParseClaims(crypto, token, now)
    case Success(c) => Success(c)
    case Failure(f) => Failure(RawJwtException(f))
  }

  /** `getUserPrincipalFromToken`: id, subject and roles from the claims, every
      account flag set, no password. */
  function GetUserPrincipalFromToken(crypto: Primitives, token: string, now: int): (r: Result<Principal, AppException>)
    ensures r.Success? <==> ParseClaims(crypto, token, now).Success?
    ensures r.Success? ==> r.value.FullyEnabled() && r.value.password.None?
    ensures r.Success? ==> var c := ParseClaims(crypto, token, now).value;
              r.value.id == c.userId && r.value.email == c.subject && r.value.roles == c.roles
  {
    var c :- ClaimsFromToken(crypto, token, now);
    Success(Principal(c.userId, c.subject, c.roles, None, true, true, true, true))
  }

  function GetUserIdFromToken(crypto: Primitives, token: string, now: int): (r: Result<int, AppException>)
    ensures r.Success? <==> ParseClaims(crypto, token, now).Success?
    ensures r.Success? ==> r.value == ParseClaims(crypto, token, now).value.userId
  {
    var c :- ClaimsFromToken(crypto, token, now);
    Success(c.userId)
  }

  function GetEmailFromToken(crypto: Primitives, token: string, now: int): (r: Result<string, AppException>)
    ensures r.Success? <==> ParseClaims(crypto, token, now).Success?
    ensures r.Success? ==> r.value == ParseClaims(crypto, token, now).value.subject
  {
    var c :- ClaimsFromToken(crypto, token, now);
    Success(c.subject)
  }

  function GetEmailFromTokenSubject(crypto: Primitives, token: string, now: int): (r: Result<string, AppException>)
    ensures r.Success? <==> ParseClaims(crypto, token, now).Success?
    ensures r.Success? ==> r.value == ParseClaims(crypto, token, now).value.subject
  {
    var c :- ClaimsFromToken(crypto, token, now);
    Success(c.subject)
  }

  /** The two e-mail getters are the same query. */
  lemma EmailGettersAgree(crypto: Primitives, token: string, now: int)
    ensures GetEmailFromToken(crypto, token, now) == GetEmailFromTokenSubject(crypto, token, now)
  {
  }

  function GetRolesFromToken(crypto: Primitives, token: string, now: int): (r: Result<set<string>, AppException>)
    ensures r.Success? <==> ParseClaims(crypto, token, now).Success?
    ensures r.Success? ==> r.value == ParseClaims(crypto, token, now).value.roles
  {
    var c :- ClaimsFromToken(crypto, token, now);
    Success(c.roles)
  }

  /** `getExpirationDateFromToken`, as an instant in milliseconds. */
  function GetExpirationDateFromToken(crypto: Primitives, token: string, now: int): (r: Result<int, AppException>)
    ensures r.Success? <==> ParseClaims(crypto, token, now).Success?
    ensures r.Success? ==> r.value == ParseClaims(crypto, token, now).value.expiration * MillisPerSecond
    ensures r.Success? ==> now <= r.value
  {
    var c :- ClaimsFromToken(crypto, token, now);
    Success(c.expiration * MillisPerSecond)
  }

  /** `isTokenExpired` as written: the expiration is read through the same parser,
      which has already refused an expired token. */
  function IsTokenExpired(crypto: Primitives, token: string, now: int): (r: Result<bool, AppException>)
    ensures r.Success? <==> ParseClaims(crypto, token, now).Success?
  {
    var expiration :- GetExpirationDateFromToken(crypto, token, now);
    Success(expiration < now)
  }

  /** So it never answers true: an expired token makes it throw instead. */
  lemma IsTokenExpiredNeverTrue(crypto: Primitives, token: string, now: int)
    ensures IsTokenExpired(crypto, token, now) != Success(true)
    ensures ParseClaims(crypto, token, now) == Failure(Expired) ==> IsTokenExpired(crypto, token, now).Failure?
  {
  }

  /** `isTokenExpired` as evidently intended: the expiration is read from the
      verified claims without the parser's own expiry check (as
      `ExpiredJwtException.getClaims()` offers it). */
  function IsTokenExpiredCorrected(crypto: Primitives, token: string, now: int): (r: Result<bool, AppException>)
    ensures r.Success? <==> HasText(token) && crypto.decode(token).Parsed?
    ensures r.Success? ==> (r.value <==> crypto.decode(token).claims.expiration * MillisPerSecond < now)
  {
    if !HasText(token) then Failure(RawJwtException(EmptyClaims))
    else match crypto.decode(token)
      case Rejected(f) => Failure(RawJwtException(f))
      case Parsed(c) => Success(c.expiration * MillisPerSecond < now)
  }

  /** The corrected check answers true exactly when the parser refuses the token as
      expired, and false exactly when the parser accepts it. */
  lemma IsTokenExpiredCorrectedAgreesWithParser(crypto: Primitives, token: string, now: int)
    ensures IsTokenExpiredCorrected(crypto, token, now) == Success(true)
        <==> ParseClaims(crypto, token, now) == Failure(Expired) && crypto.decode(token).Parsed?
    ensures IsTokenExpiredCorrected(crypto, token, now) == Success(false)
        <==> ParseClaims(crypto, token, now).Success?
  {
  }

  /** A token the provider generated reads back as the principal it was generated
      for (with the password dropped and every flag set) until its `exp` passes,
      and is refused as expired afterwards. */
  lemma TokenRoundTrip(props: JwtProperties, crypto: Primitives, principal: Principal, duration: int, issued: int, now: int)
    requires SignerSound(crypto)
    ensures var token := GenerateToken(props, crypto, principal, duration, issued);
            var expiry := ToEpochSeconds(issued + duration) * MillisPerSecond;
            && (now <= expiry ==>
                  GetUserPrincipalFromToken(crypto, token, now)
                    == Success(principal.(password := None, enabled := true, accountNonExpired := true,
                                          accountNonLocked := true, credentialsNonExpired := true)))
            && (now > expiry ==>
                  ValidateToken(crypto, token, now) == Failure(UnauthorizedException(InvalidToken, "Expired JWT token")))
  {
    var c := ClaimsFor(props, principal, duration, issued);
    assert crypto.decode(crypto.sign(c)) == Parsed(c) && HasText(crypto.sign(c));
  }
}

=== FILE: ledger.dfy ===
/** The `refresh_tokens` table and the repository over it. A row is keyed by the
    SHA-256 hex of the token (the column is unique); the raw token is never stored.
    Times are epoch milliseconds. */
module Ledger {
  import opened Wrappers
  import opened Errors

  datatype RefreshToken = RefreshToken(
    userId: int,
    tokenHash: string,
    issuedAt: int,
    expiresAt: int,
    revokedAt: Option<int>,
    isRevoked: bool,
    ipAddress: Option<string>,
    userAgent: Option<string>,
    lastUsedAt: Option<int>,
    usageCount: int)

  type Store = map<string, RefreshToken>

  /** Width of the `ip_address` column. */
  const IpColumnLength := 45

  predicate IpFits(ip: Option<string>) {
    ip.None? || |ip.value| <= IpColumnLength
  }

  /** Rows are filed under their own hash, fit their columns, and a revoked row
      records when it was revoked. */
  predicate Valid(s: Store) {
    forall h :: h in s ==>
      && s[h].tokenHash == h
      && IpFits(s[h].ipAddress)
      && (s[h].isRevoked ==> s[h].revokedAt.Some?)
  }

  /** The exception the database raises when an insert breaks a constraint. */
  const ConstraintViolation := PersistenceException("DataIntegrityViolationException")

  /** `save` of a new row: refused by the unique `token_hash` constraint and by the
      `ip_address` column width. */
  function Insert(s: Store, row: RefreshToken): (r: Result<Store, AppException>)
    ensures r.Failure? <==> row.tokenHash in s || !IpFits(row.ipAddress)
    ensures r.Failure? ==> r.error == ConstraintViolation
    ensures r.Success? ==> r.value.Keys == s.Keys + {row.tokenHash} && |r.value| == |s| + 1
    ensures r.Success? ==> r.value[row.tokenHash] == row && forall h :: h in s ==> r.value[h] == s[h]
    ensures r.Success? && Valid(s) && (row.isRevoked ==> row.revokedAt.Some?) ==> Valid(r.value)
  {
    if row.tokenHash in s || !IpFits(row.ipAddress) then Failure(ConstraintViolation)
    else Success(s[row.tokenHash := row])
  }

  /** `save` of the row loaded from `key` earlier in the transaction: it is written
      back in place. */
  function Save(s: Store, key: string, row: RefreshToken): (r: Store)
    requires key in s
    ensures r.Keys == s.Keys && |r| == |s|
    ensures r[key] == row && forall h :: h in s && h != key ==> r[h] == s[h]
  {
    s[key := row]
  }

  /** `findByTokenHash`. */
  function FindByTokenHash(s: Store, hash: string): (r: Option<RefreshToken>)
    ensures r.Some? <==> hash in s
    ensures r.Some? ==> r.value == s[hash]
    ensures Valid(s) && r.Some? ==> r.value.tokenHash == hash
  {
    if hash in s then Some(s[hash]) else None
  }

  /** The hashes of the rows a bulk `DELETE ... WHERE` matches. */
  function Matching(s: Store, doomed: RefreshToken -> bool): set<string> {
    set h | h in s && doomed(s[h])
  }

  /** A bulk `DELETE ... WHERE doomed`: the surviving rows and the update count the
      statement returns. */
  function Purge(s: Store, doomed: RefreshToken -> bool): (r: (Store, int))
    ensures forall h :: h in r.0 <==> h in s && !doomed(s[h])
    ensures forall h :: h in r.0 ==> r.0[h] == s[h]
    ensures 0 <= r.1 == |s| - |r.0| && r.1 == |Matching(s, doomed)|
    ensures Valid(s) ==> Valid(r.0)
  {
    var kept := map h | h in s && !doomed(s[h]) :: s[h];
    var removed := Matching(s, doomed);
    assert s.Keys == kept.Keys + removed;
    assert kept.Keys * removed == {};
    (kept, |removed|)
  }

  /** `deleteExpiredTokens(now)`: rows with `expiresAt < now`. */
  function DeleteExpiredTokens(s: Store, now: int): (r: (Store, int))
    ensures forall h :: h in r.0 <==> h in s && s[h].expiresAt >= now
    ensures forall h :: h in r.0 ==> r.0[h] == s[h]
    ensures r.1 == |s| - |r.0| && r.1 == |set h | h in s && s[h].expiresAt < now|
  {
    var doomed := (t: RefreshToken) => t.expiresAt < now;
    assert Matching(s, doomed) == set h | h in s && s[h].expiresAt < now;
    Purge(s, doomed)
  }

  /** `deleteOldRevokedTokens(cutoff)`: revoked rows whose revocation time is known
      and before the cutoff. A revoked row without a time is kept (a comparison
      with NULL is not true). */
  function DeleteOldRevokedTokens(s: Store, cutoff: int): (r: (Store, int))
    ensures forall h :: h in r.0 <==> h in s && !(s[h].isRevoked && s[h].revokedAt.Some? && s[h].revokedAt.value < cutoff)
    ensures forall h :: h in r.0 ==> r.0[h] == s[h]
    ensures r.1 == |s| - |r.0|
  {
    Purge(s, (t: RefreshToken) => t.isRevoked && t.revokedAt.Some? && t.revokedAt.value < cutoff)
  }

  /** `deleteByTokenHash`: at most one row goes, since the hash is the key. */
  function DeleteByTokenHash(s: Store, hash: string): (r: (Store, int))
    requires Valid(s)
    ensures r.0 == s - {hash}
    ensures r.1 == (if hash in s then 1 else 0)
  {
    var p := Purge(s, (t: RefreshToken) => t.tokenHash == hash);
    assert p.0 == s - {hash};
    p
  }

  /** `deleteByUserId`: every row of the user. */
  function DeleteByUserId(s: Store, userId: int): (r: (Store, int))
    ensures forall h :: h in r.0 <==> h in s && s[h].userId != userId
    ensures forall h :: h in r.0 ==> r.0[h] == s[h]
    ensures r.1 == |s| - |r.0|
  {
    Purge(s, (t: RefreshToken) => t.userId == userId)
  }

  /** `delete(entity)` of the row loaded from `key`. */
  function Delete(s: Store, key: string): (r: Store)
    ensures r.Keys == s.Keys - {key}
    ensures forall h :: h in r ==> r[h] == s[h]
  {
    s - {key}
  }
}

=== FILE: profiles.dfy ===
/** `UserServiceImpl` of the user service: the current user's profile, its partial
    update and the soft delete of the account. Each operation first resolves the
    current user from the security context and loads that user by id. */
module Profiles {
  import opened Wrappers
  import opened JavaStrings
  import opened Errors
  import opened SecurityContext
  import opened Requests
  import opened Users
  import opened Crypto
  import opened Jwt
  import RefreshTokens
  import Auth

  /** `UserResponse` without the two audit timestamps. */
  datatype UserResponse = UserResponse(
    id: int,
    email: string,
    name: Option<string>,
    phoneNumber: Option<string>,
    avatar: Option<string>,
    currency: Option<string>,
    roles: set<string>,
    emailVerified: bool)

  const PhoneInUseMessage := "Phone number already in use"

  /** The response built from a user row: the password hash and the account flags
      stay out of it. */
  function ToResponse(u: User): (resp: UserResponse)
    ensures resp.id == u.id && resp.email == u.email && resp.roles == u.roles
    ensures resp.name == u.name && resp.phoneNumber == u.phoneNumber
    ensures resp.avatar == u.avatar && resp.currency == u.currency && resp.emailVerified == u.emailVerified
  {
    UserResponse(u.id, u.email, u.name, u.phoneNumber, u.avatar, u.currency, u.roles, u.emailVerified)
  }

  /** The `ResourceNotFoundException` for a missing id. */
  function NotFound(id: int): (e: AppException)
    ensures e.ResourceNotFoundException? && e.ErrorCodeOf() == Some(ResourceNotFound)
  {
    ResourceNotFoundException("User not found with ID: " + IntToString(id))
  }

  /** The lookup every operation starts with. */
  function LoadCurrentUser(users: Directory, ctx: Context): (r: Result<User, AppException>)
    ensures CurrentUserId(ctx).Failure? ==> r == Failure(CurrentUserId(ctx).error)
    ensures CurrentUserId(ctx).Success? ==>
              var id := CurrentUserId(ctx).value;
              && (r.Success? <==> exists i :: 0 <= i < |users| && users[i].id == id)
              && (r.Failure? ==> r.error == NotFound(id))
              && (r.Success? ==> r.value in users && r.value.id == id)
    ensures IdsAreIdentity(users) && r.Success? ==> r.value == users[r.value.id - 1]
  {
    var id :- CurrentUserId(ctx);
    FindById(users, id).ToResult(NotFound(id))
  }

  /** `getCurrentUserProfile`: read-only. Under consecutive ids it succeeds exactly
      for an authenticated user whose id is on file, and describes that row. */
  function GetCurrentUserProfile(users: Directory, ctx: Context): (r: Result<UserResponse, AppException>)
    ensures CurrentUserId(ctx).Failure? ==> r == Failure(CurrentUserId(ctx).error)
    ensures IdsAreIdentity(users) && CurrentUserId(ctx).Success? ==>
              var id := CurrentUserId(ctx).value;
              && (r.Success? <==> 1 <= id <= |users|)
              && (r.Failure? ==> r == Failure(NotFound(id)))
              && (r.Success? ==> r.value == ToResponse(users[id - 1]))
  {
    var user :- LoadCurrentUser(users, ctx);
    Success(ToResponse(user))
  }

  /** Some other user holds the phone number. */
  predicate PhoneHeldByOther(users: Directory, id: int, phone: string) {
    exists i :: 0 <= i < |users| && users[i].phoneNumber == Some(phone) && users[i].id != id
  }

  /** The duplicate check as written: only a changed phone is looked up, and the
      first holder found must be the current user. */
  function CheckPhone(users: Directory, user: User, phone: Option<string>): (r: Result<(), AppException>)
    ensures r.Failure? ==> r.error == NewValidation(PhoneInUseMessage)
    ensures IdsAreIdentity(users) && user in users ==>
              (r.Failure? <==> phone.Some? && phone != user.phoneNumber && PhoneHeldByOther(users, user.id, phone.value))
  {
    if phone.Some? && phone != user.phoneNumber then
      match FindByPhoneNumber(users, phone.value)
      case Some(existing) =>
        if existing.id != user.id then Failure(NewValidation(PhoneInUseMessage))
        else
          assert IdsAreIdentity(users) && user in users ==> existing == user;
          Success(())
      case None => Success(())
    else Success(())
  }

  /** The null-skipping setters: each present field overwrites, as given. */
  function ApplyUpdate(user: User, req: UpdateUserProfileRequest): (u: User)
    ensures u.name == (if req.name.Some? then req.name else user.name)
    ensures u.phoneNumber == (if req.phoneNumber.Some? then req.phoneNumber else user.phoneNumber)
    ensures u.currency == (if req.currency.Some? then req.currency else user.currency)
    ensures u.avatar == (if req.avatar.Some? then req.avatar else user.avatar)
    ensures u.(name := user.name, phoneNumber := user.phoneNumber, currency := user.currency, avatar := user.avatar) == user
  {
    user.(name := if req.name.Some? then req.name else user.name,
          phoneNumber := if req.phoneNumber.Some? then req.phoneNumber else user.phoneNumber,
          currency := if req.currency.Some? then req.currency else user.currency,
          avatar := if req.avatar.Some? then req.avatar else user.avatar)
  }

  /** `updateUserProfile`: the current user's row takes the present fields of the
      request, unless the phone number changes to one another user holds. */
  function UpdateUserProfile(users: Directory, ctx: Context, req: UpdateUserProfileRequest)
    : (r: Result<(Directory, UserResponse), AppException>)
    ensures LoadCurrentUser(users, ctx).Failure? ==> r == Failure(LoadCurrentUser(users, ctx).error)
    ensures IdsAreIdentity(users) && LoadCurrentUser(users, ctx).Success? ==>
              var user := LoadCurrentUser(users, ctx).value;
              && (r.Failure? <==> req.phoneNumber.Some? && req.phoneNumber != user.phoneNumber
                                  && PhoneHeldByOther(users, user.id, req.phoneNumber.value))
              && (r.Failure? ==> r.error == NewValidation(PhoneInUseMessage))
              && (r.Success? ==>
                    && |r.value.0| == |users| && IdsAreIdentity(r.value.0)
                    && r.value.0[user.id - 1] == ApplyUpdate(user, req)
                    && (forall i :: 0 <= i < |users| && i != user.id - 1 ==> r.value.0[i] == users[i])
                    && r.value.1 == ToResponse(ApplyUpdate(user, req)))
  {
    var user :- LoadCurrentUser(users, ctx);
    var _ :- CheckPhone(users, user, req.phoneNumber);
    var updated := ApplyUpdate(user, req);
    Success((Users.Save(users, updated), ToResponse(updated)))
  }

  /** `deleteUserAccount`: a soft delete that disables and locks the row and keeps
      it. */
  function DeleteUserAccount(users: Directory, ctx: Context): (r: Result<Directory, AppException>)
    ensures LoadCurrentUser(users, ctx).Failure? ==> r == Failure(LoadCurrentUser(users, ctx).error)
    ensures r.Success? <==> LoadCurrentUser(users, ctx).Success?
    ensures IdsAreIdentity(users) && r.Success? ==>
              var user := LoadCurrentUser(users, ctx).value;
              && |r.value| == |users| && IdsAreIdentity(r.value)
              && r.value[user.id - 1] == user.(enabled := false, accountLocked := true)
              && (forall i :: 0 <= i < |users| && i != user.id - 1 ==> r.value[i] == users[i])
  {
    var user :- LoadCurrentUser(users, ctx);
    Success(Users.Save(users, user.(enabled := false, accountLocked := true)))
  }

  /** A profile update never gives two users one phone number. */
  lemma UpdateKeepsPhonesUnique(users: Directory, ctx: Context, req: UpdateUserProfileRequest)
    requires IdsAreIdentity(users) && PhonesUnique(users)
    requires UpdateUserProfile(users, ctx, req).Success?
    ensures PhonesUnique(UpdateUserProfile(users, ctx, req).value.0)
  {
    var user := LoadCurrentUser(users, ctx).value;
    var users' := UpdateUserProfile(users, ctx, req).value.0;
    var k := user.id - 1;
    forall i, j | 0 <= i < |users'| && 0 <= j < |users'| && i != j && users'[i].phoneNumber.Some?
      ensures users'[i].phoneNumber != users'[j].phoneNumber
    {
      if i == k || j == k {
        var o := if i == k then j else i;
        assert users'[o] == users[o] && users[o].id != user.id;
        if users'[k].phoneNumber != user.phoneNumber {
          assert users'[k].phoneNumber == req.phoneNumber;
        }
      }
    }
  }

  /** An update whose fields are all null changes nothing and describes the current
      row. */
  lemma EmptyUpdateChangesNothing(users: Directory, ctx: Context)
    requires IdsAreIdentity(users) && LoadCurrentUser(users, ctx).Success?
    ensures UpdateUserProfile(users, ctx, UpdateUserProfileRequest(None, None, None, None))
            == Success((users, ToResponse(LoadCurrentUser(users, ctx).value)))
  {
    var req := UpdateUserProfileRequest(None, None, None, None);
    var users' := UpdateUserProfile(users, ctx, req).value.0;
    assert users' == users;
  }

  /** Repeating an update that succeeded succeeds again and changes nothing more. */
  lemma UpdateIdempotent(users: Directory, ctx: Context, req: UpdateUserProfileRequest)
    requires IdsAreIdentity(users)
    requires UpdateUserProfile(users, ctx, req).Success?
    ensures var users' := UpdateUserProfile(users, ctx, req).value.0;
            UpdateUserProfile(users', ctx, req) == UpdateUserProfile(users, ctx, req)
  {
    var user := LoadCurrentUser(users, ctx).value;
    var users' := UpdateUserProfile(users, ctx, req).value.0;
    assert LoadCurrentUser(users', ctx).value == ApplyUpdate(user, req);
    assert ApplyUpdate(ApplyUpdate(user, req), req) == ApplyUpdate(user, req);
    assert Users.Save(users', ApplyUpdate(user, req)) == users';
  }

  /** The account's address, password, roles, verification and flags are out of an
      update's reach. */
  lemma UpdateKeepsAccountFields(users: Directory, ctx: Context, req: UpdateUserProfileRequest)
    requires IdsAreIdentity(users)
    requires UpdateUserProfile(users, ctx, req).Success?
    ensures var user := LoadCurrentUser(users, ctx).value;
            var saved := UpdateUserProfile(users, ctx, req).value.0[user.id - 1];
            && saved.id == user.id && saved.email == user.email && saved.passwordHash == user.passwordHash
            && saved.roles == user.roles && saved.emailVerified == user.emailVerified
            && saved.enabled == user.enabled && saved.accountLocked == user.accountLocked
  {
  }

  /** Deleting an account twice leaves it as deleting it once. */
  lemma DeleteIdempotent(users: Directory, ctx: Context)
    requires IdsAreIdentity(users)
    requires DeleteUserAccount(users, ctx).Success?
    ensures var users' := DeleteUserAccount(users, ctx).value;
            DeleteUserAccount(users', ctx) == Success(users')
  {
    var user := LoadCurrentUser(users, ctx).value;
    var users' := DeleteUserAccount(users, ctx).value;
    assert LoadCurrentUser(users', ctx).value == user.(enabled := false, accountLocked := true);
    assert Users.Save(users', user.(enabled := false, accountLocked := true)) == users';
  }

  /** After the soft delete no login as the deleted user succeeds, whatever the
      address and password. */
  lemma DeletedAccountCannotLogIn(props: JwtProperties, crypto: Primitives, st: Auth.State, ctx: Context,
                                  email: string, password: string, client: Auth.ClientInfo, now: int,
                                  mint: Principal -> string)
    requires IdsAreIdentity(st.users) && DeleteUserAccount(st.users, ctx).Success?
    ensures var st' := st.(users := DeleteUserAccount(st.users, ctx).value);
            var r := Auth.LoginWith(props, crypto, st', email, password, client, now, mint);
            r.Success? ==> r.value.1.userId != CurrentUserId(ctx).value
  {
    var users' := DeleteUserAccount(st.users, ctx).value;
    var st' := st.(users := users');
    var r := Auth.LoginWith(props, crypto, st', email, password, client, now, mint);
    if r.Success? {
      var u := FindByEmail(users', email).value;
      var i :| 0 <= i < |users'| && users'[i] == u;
      assert u.id == i + 1;
    }
  }

  /** Two directories that differ at most in the account flags. */
  predicate SameButFlags(a: Directory, b: Directory) {
    |a| == |b| && forall i :: 0 <= i < |a| ==> b[i] == a[i].(enabled := b[i].enabled, accountLocked := b[i].accountLocked)
  }

  /** A refresh never looks at the account flags: over directories that differ only
      in them it has the same outcome and hands out the same response. */
  lemma RefreshIgnoresAccountFlags(props: JwtProperties, crypto: Primitives, st: Auth.State, users2: Directory,
                                   token: string, client: Auth.ClientInfo, now: int, mint: Principal -> string)
    requires IdsAreIdentity(st.users) && SameButFlags(st.users, users2)
    ensures var before := Auth.RefreshWith(props, crypto, st, token, client, now, mint);
            var after := Auth.RefreshWith(props, crypto, st.(users := users2), token, client, now, mint);
            && (after.Success? <==> before.Success?)
            && (before.Success? ==> after.value.1 == before.value.1 && after.value.0.tokens == before.value.0.tokens)
  {
    var st' := st.(users := users2);
    var v := RefreshTokens.ValidateRefreshToken(crypto, st.tokens, token, now);
    assert IdsAreIdentity(users2);
    if v.Success? {
      var owner := v.value.userId;
      if 1 <= owner <= |st.users| {
        var user := st.users[owner - 1];
        FindByOwnId(st.users, user);
        FindByOwnId(users2, users2[owner - 1]);
        var p := Auth.CreateUserPrincipal(user);
        assert Auth.CreateUserPrincipal(users2[owner - 1]) == p;
        Auth.RefreshWithSteps(props, crypto, st, token, client, now, mint);
        Auth.RefreshWithSteps(props, crypto, st', token, client, now, mint);
      }
    }
  }

  /** The soft delete leaves the account's refresh tokens working: a refresh has the
      same outcome, and hands out the same response, as before the delete. */
  lemma DeletedAccountKeepsRefreshing(props: JwtProperties, crypto: Primitives, st: Auth.State, ctx: Context,
                                      token: string, client: Auth.ClientInfo, now: int, mint: Principal -> string)
    requires IdsAreIdentity(st.users) && DeleteUserAccount(st.users, ctx).Success?
    ensures var st' := st.(users := DeleteUserAccount(st.users, ctx).value);
            var before := Auth.RefreshWith(props, crypto, st, token, client, now, mint);
            var after := Auth.RefreshWith(props, crypto, st', token, client, now, mint);
            && (after.Success? <==> before.Success?)
            && (before.Success? ==> after.value.1 == before.value.1 && after.value.0.tokens == before.value.0.tokens)
  {
    var users' := DeleteUserAccount(st.users, ctx).value;
    assert SameButFlags(st.users, users');
    RefreshIgnoresAccountFlags(props, crypto, st, users', token, client, now, mint);
  }
}

=== FILE: refresh_tokens.dfy ===
/** `RefreshTokenServiceImpl`: issuing, checking, rotating and deleting the ledger
    rows behind refresh tokens. A token is looked up by its digest only. */
module RefreshTokens {
  import opened Wrappers
  import opened Errors
  import opened JavaTime
  import opened Crypto
  import opened Jwt
  import opened Ledger

  const InvalidMessage := "Invalid refresh token"
  const RevokedMessage := "Refresh token has been revoked"
  const ExpiredMessage := "Refresh token has expired"

  /** The three refusals, all `INVALID_TOKEN`. */
  function Refusal(message: string): (e: AppException)
    ensures e.UnauthorizedException? && e.code == InvalidToken && e.message == message
  {
    UnauthorizedException(InvalidToken, message)
  }

  /** The row's expiry: the configured milliseconds are cut to whole seconds before
      they are added, so a row never outlives the configured duration. */
  function ExpiryFor(props: JwtProperties, now: int): (t: int)
    ensures props.refreshTokenExpiration >= 0 ==>
              now <= t && now + props.refreshTokenExpiration - 999 <= t <= now + props.refreshTokenExpiration
    ensures props.refreshTokenExpiration % MillisPerSecond == 0 ==> t == now + props.refreshTokenExpiration
  {
    now + JavaDiv(props.refreshTokenExpiration, MillisPerSecond) * MillisPerSecond
  }

  /** `createRefreshToken`: a fresh, unrevoked, unused row under the token's digest.
      The insert is refused when the digest is already on file. */
  function CreateRefreshToken(props: JwtProperties, crypto: Primitives, s: Store, userId: int,
                              token: string, ip: Option<string>, userAgent: Option<string>, now: int)
    : (r: Result<(Store, RefreshToken), AppException>)
    ensures r.Failure? <==> crypto.digest(token) in s || !IpFits(ip)
    ensures r.Failure? ==> r.error == ConstraintViolation
    ensures r.Success? ==>
              var row := r.value.1;
              && row.tokenHash == crypto.digest(token) && row.userId == userId
              && row.issuedAt == now && row.expiresAt == ExpiryFor(props, now)
              && !row.isRevoked && row.revokedAt.None?
              && row.lastUsedAt.None? && row.usageCount == 0
              && row.ipAddress == ip && row.userAgent == userAgent
              && r.value.0 == s[row.tokenHash := row]
    ensures r.Success? && Valid(s) ==> Valid(r.value.0)
  {
    var row := RefreshToken(userId, crypto.digest(token), now, ExpiryFor(props, now),
                            None, false, ip, userAgent, None, 0);
    var s' :- Insert(s, row);
    Success((s', row))
  }

  /** `validateRefreshToken`: unknown, then revoked, then expired (strictly before
      `now`) are refused, in that order. */
  function ValidateRefreshToken(crypto: Primitives, s: Store, token: string, now: int): (r: Result<RefreshToken, AppException>)
    ensures var h := crypto.digest(token);
            && (r.Success? <==> h in s && !s[h].isRevoked && s[h].expiresAt >= now)
            && (r.Success? ==> r.value == s[h])
            && (h !in s ==> r == Failure(Refusal(InvalidMessage)))
            && (h in s && s[h].isRevoked ==> r == Failure(Refusal(RevokedMessage)))
            && (h in s && !s[h].isRevoked && s[h].expiresAt < now ==> r == Failure(Refusal(ExpiredMessage)))
  {
    var row :- FindByTokenHash(s, crypto.digest(token)).ToResult(Refusal(InvalidMessage));
    if row.isRevoked then Failure(Refusal(RevokedMessage))
    else if row.expiresAt < now then Failure(Refusal(ExpiredMessage))
    else Success(row)
  }

  /** `revokeRefreshToken`: the row stays on file, flagged, with the revocation time
      overwritten even when it was already revoked. */
  function RevokeRefreshToken(crypto: Primitives, s: Store, token: string, now: int): (r: Result<Store, AppException>)
    ensures var h := crypto.digest(token);
            && (r.Failure? <==> h !in s)
            && (r.Failure? ==> r.error == Refusal(InvalidMessage))
            && (r.Success? ==>
                  && r.value.Keys == s.Keys
                  && r.value[h].isRevoked && r.value[h].revokedAt == Some(now)
                  && r.value[h].(isRevoked := s[h].isRevoked, revokedAt := s[h].revokedAt) == s[h]
                  && (forall g :: g in s && g != h ==> r.value[g] == s[g]))
    ensures r.Success? && Valid(s) ==> Valid(r.value)
  {
    var h := crypto.digest(token);
    var row :- FindByTokenHash(s, h).ToResult(Refusal(InvalidMessage));
    Success(Save(s, h, row.(isRevoked := true, revokedAt := Some(now))))
  }

  /** `deleteRefreshToken(token, userId)`: another user's token is refused exactly
      like an unknown one. */
  function DeleteRefreshToken(crypto: Primitives, s: Store, token: string, userId: int): (r: Result<Store, AppException>)
    ensures var h := crypto.digest(token);
            && (r.Success? <==> h in s && s[h].userId == userId)
            && (r.Failure? ==> r.error == Refusal(InvalidMessage))
            && (r.Success? ==> r.value == s - {h})
  {
    var h := crypto.digest(token);
    var row :- FindByTokenHash(s, h).ToResult(Refusal(InvalidMessage));
    if row.userId != userId then Failure(Refusal(InvalidMessage))
    else Success(Delete(s, h))
  }

  /** `deleteAllUserTokens`: the bulk delete by user; its count is only logged. */
  function DeleteAllUserTokens(s: Store, userId: int): (r: Store)
    ensures forall h :: h in r <==> h in s && s[h].userId != userId
    ensures forall h :: h in r ==> r[h] == s[h]
    ensures Valid(s) ==> Valid(r)
  {
    DeleteByUserId(s, userId).0
  }

  /** `markTokenAsUsed`: the use is stamped and counted on the loaded row, which is
      written back under its hash. */
  function MarkTokenAsUsed(s: Store, row: RefreshToken, now: int): (r: (Store, RefreshToken))
    ensures r.1.lastUsedAt == Some(now) && r.1.usageCount == row.usageCount + 1
    ensures r.1.(lastUsedAt := row.lastUsedAt, usageCount := row.usageCount) == row
    ensures r.0.Keys == s.Keys + {row.tokenHash} && r.0[row.tokenHash] == r.1
    ensures forall h :: h in s && h != row.tokenHash ==> r.0[h] == s[h]
    ensures Valid(s) && row.tokenHash in s && s[row.tokenHash] == row ==> Valid(r.0)
  {
    var used := row.(lastUsedAt := Some(now), usageCount := row.usageCount + 1);
    (s[row.tokenHash := used], used)
  }

  /** A freshly created row validates until its expiry, and only then. */
  lemma CreatedTokenValidates(props: JwtProperties, crypto: Primitives, s: Store, userId: int,
                              token: string, ip: Option<string>, userAgent: Option<string>, now: int, later: int)
    requires CreateRefreshToken(props, crypto, s, userId, token, ip, userAgent, now).Success?
    ensures var c := CreateRefreshToken(props, crypto, s, userId, token, ip, userAgent, now).value;
            var v := ValidateRefreshToken(crypto, c.0, token, later);
            && (later <= c.1.expiresAt ==> v == Success(c.1))
            && (later > c.1.expiresAt ==> v == Failure(Refusal(ExpiredMessage)))
  {
  }

  /** Once revoked, a token is refused as revoked at every later instant, whatever
      its expiry. */
  lemma RevokedTokenRejected(crypto: Primitives, s: Store, token: string, now: int, later: int)
    requires RevokeRefreshToken(crypto, s, token, now).Success?
    ensures ValidateRefreshToken(crypto, RevokeRefreshToken(crypto, s, token, now).value, token, later)
            == Failure(Refusal(RevokedMessage))
  {
  }

  /** After a single-device logout the token is unknown; every other row is as it
      was. */
  lemma DeletedTokenUnknown(crypto: Primitives, s: Store, token: string, userId: int, now: int)
    requires DeleteRefreshToken(crypto, s, token, userId).Success?
    ensures ValidateRefreshToken(crypto, DeleteRefreshToken(crypto, s, token, userId).value, token, now)
            == Failure(Refusal(InvalidMessage))
  {
  }

  /** After deleting all of a user's rows none of their tokens validates, and the
      outcome for every other user's token is unchanged. */
  lemma DeleteAllRevokesEverySession(crypto: Primitives, s: Store, userId: int, token: string, now: int)
    requires Valid(s)
    ensures var s' := DeleteAllUserTokens(s, userId);
            var v := ValidateRefreshToken(crypto, s', token, now);
            && (v.Success? ==> v.value.userId != userId)
            && (crypto.digest(token) in s && s[crypto.digest(token)].userId != userId ==>
                  v == ValidateRefreshToken(crypto, s, token, now))
  {
  }

  /** Marking a row used changes no validation outcome. */
  lemma MarkingKeepsValidity(crypto: Primitives, s: Store, row: RefreshToken, now: int, token: string, later: int)
    requires Valid(s) && row.tokenHash in s && s[row.tokenHash] == row
    ensures var v := ValidateRefreshToken(crypto, MarkTokenAsUsed(s, row, now).0, token, later);
            var w := ValidateRefreshToken(crypto, s, token, later);
            && v.Success? == w.Success?
            && (w.Failure? ==> v == w)
  {
  }
}

=== FILE: requests.dfy ===
/** The Bean Validation constraints on the two request bodies that carry user data:
    `UserSignupRequest` and `UpdateUserProfileRequest`. `@Size` and `@Pattern` accept
    a null value; `@NotBlank` rejects null and strings that trim to nothing. `@Size`
    counts Java `length()`, in UTF-16 code units. */
module Requests {
  import opened Wrappers
  import opened JavaStrings

  /** `@NotBlank` (Hibernate Validator reads it as "non-null and trim() non-empty"). */
  predicate NotBlank(s: Option<string>) {
    s.Some? && Trim(s.value) != []
  }

  /** `[@$!%*?&]`, the special characters of the password pattern. */
  predicate IsPasswordSpecial(c: char) {
    c == '@' || c == '$' || c == '!' || c == '%' || c == '*' || c == '?' || c == '&'
  }

  /** `[A-Za-z\d@$!%*?&]`, where `\d` is the ASCII digit class. */
  predicate IsPasswordChar(c: char) {
    IsAsciiLetter(c) || IsAsciiDigit(c) || IsPasswordSpecial(c)
  }

  /** `^(?=.*[a-z])(?=.*[A-Z])(?=.*\d)(?=.*[@$!%*?&])[A-Za-z\d@$!%*?&]+$`: only
      allowed characters, at least one, and each of the four lookaheads finds its
      class somewhere (no allowed character is a line terminator, so `.*` reaches
      every position). */
  ghost predicate PasswordPattern(p: string) {
    && |p| >= 1
    && (forall i :: 0 <= i < |p| ==> IsPasswordChar(p[i]))
    && (exists i :: 0 <= i < |p| && IsAsciiLower(p[i]))
    && (exists i :: 0 <= i < |p| && IsAsciiUpper(p[i]))
    && (exists i :: 0 <= i < |p| && IsAsciiDigit(p[i]))
    && (exists i :: 0 <= i < |p| && IsPasswordSpecial(p[i]))
  }

  /** One pass over the password that decides the pattern. */
  method MatchesPasswordPattern(p: string) returns (ok: bool)
    ensures ok <==> PasswordPattern(p)
  {
    var lower, upper, digit, special, allowed := false, false, false, false, true;
    var i := 0;
    while i < |p|
      invariant 0 <= i <= |p|
      invariant allowed <==> forall k :: 0 <= k < i ==> IsPasswordChar(p[k])
      invariant lower <==> exists k :: 0 <= k < i && IsAsciiLower(p[k])
      invariant upper <==> exists k :: 0 <= k < i && IsAsciiUpper(p[k])
      invariant digit <==> exists k :: 0 <= k < i && IsAsciiDigit(p[k])
      invariant special <==> exists k :: 0 <= k < i && IsPasswordSpecial(p[k])
    {
      var c := p[i];
      allowed := allowed && IsPasswordChar(c);
      lower := lower || IsAsciiLower(c);
      upper := upper || IsAsciiUpper(c);
      digit := digit || IsAsciiDigit(c);
      special := special || IsPasswordSpecial(c);
      i := i + 1;
    }
    ok := |p| >= 1 && allowed && lower && upper && digit && special;
  }

  /** A pattern-conforming password is never blank: none of its characters trims away. */
  lemma PasswordPatternNotBlank(p: string)
    requires PasswordPattern(p)
    ensures NotBlank(Some(p))
  {
    TrimEmptyIff(p);
    assert !IsTrimmed(p[0]);
  }

  /** `^\+?[1-9]\d{1,14}$`: an optional plus, a non-zero digit, then 1 to 14 digits.
      The plus cannot be skipped, since `[1-9]` does not match it. */
  predicate PhonePattern(s: string) {
    var d := if |s| > 0 && s[0] == '+' then s[1..] else s;
    && 2 <= |d| <= 15
    && '1' <= d[0] <= '9'
    && (forall i :: 0 <= i < |d| ==> IsAsciiDigit(d[i]))
  }

  /** The number of digits a phone number holds. */
  function DigitCount(s: string): (n: nat)
    ensures n <= |s|
  {
    if s == [] then 0 else (if IsAsciiDigit(s[0]) then 1 else 0) + DigitCount(s[1..])
  }

  /** E.164 in the pattern's reading: 2 to 15 digits, every character but a leading
      plus is one, and no character is whitespace (so `trim()` keeps it unchanged). */
  lemma {:induction false} PhonePatternShape(s: string)
    requires PhonePattern(s)
    ensures 2 <= DigitCount(s) <= 15
    ensures DigitCount(s) == |s| || (s[0] == '+' && DigitCount(s) == |s| - 1)
    ensures Trim(s) == s
  {
    var d := if |s| > 0 && s[0] == '+' then s[1..] else s;
    AllDigitsCount(d);
    if |s| > 0 && s[0] == '+' {
      assert s == [s[0]] + d;
      assert DigitCount(s) == DigitCount(d);
    }
    forall i | 0 <= i < |s| ensures !IsTrimmed(s[i]) {
      if i > 0 || s[0] != '+' {
        assert s[i] == d[if |s| > 0 && s[0] == '+' then i - 1 else i];
      }
    }
    TrimIdentity(s);
  }

  lemma {:induction false} AllDigitsCount(d: string)
    requires forall i :: 0 <= i < |d| ==> IsAsciiDigit(d[i])
    ensures DigitCount(d) == |d|
  {
    if d != [] {
      AllDigitsCount(d[1..]);
    }
  }

  datatype UserSignupRequest = UserSignupRequest(
    email: Option<string>,
    password: Option<string>,
    name: Option<string>,
    phoneNumber: Option<string>,
    currency: Option<string>)

  datatype UpdateUserProfileRequest = UpdateUserProfileRequest(
    name: Option<string>,
    phoneNumber: Option<string>,
    currency: Option<string>,
    avatar: Option<string>)

  /** `@Size(max = 100)` on a name. */
  predicate NameSize(name: Option<string>) {
    name.None? || Utf16Length(name.value) <= 100
  }

  /** `@Pattern` with the E.164 expression on a phone number. */
  predicate PhoneConstraint(phone: Option<string>) {
    phone.None? || PhonePattern(phone.value)
  }

  /** `@Size(min = 3, max = 3)` on a currency. */
  predicate CurrencySize(currency: Option<string>) {
    currency.None? || Utf16Length(currency.value) == 3
  }

  /** `@NotBlank @Size(min = 8, max = 100) @Pattern(...)` on the signup password. */
  ghost predicate PasswordConstraint(password: Option<string>) {
    NotBlank(password)
    && 8 <= Utf16Length(password.value) <= 100
    && PasswordPattern(password.value)
  }

  /** Every constraint of `UserSignupRequest` except `@Email` on the address, of
      which only `@NotBlank` is part of this model. */
  ghost predicate SignupConstraints(r: UserSignupRequest) {
    && NotBlank(r.email)
    && PasswordConstraint(r.password)
    && NameSize(r.name)
    && PhoneConstraint(r.phoneNumber)
    && CurrencySize(r.currency)
  }

  /** Every constraint of `UpdateUserProfileRequest`: none is required, the avatar
      is unconstrained. */
  predicate UpdateConstraints(r: UpdateUserProfileRequest) {
    NameSize(r.name) && PhoneConstraint(r.phoneNumber) && CurrencySize(r.currency)
  }

  /** Decides the signup constraints (all but `@Email`). */
  method CheckSignup(r: UserSignupRequest) returns (ok: bool)
    ensures ok <==> SignupConstraints(r)
  {
    var patternOk := false;
    if r.password.Some? {
      patternOk := MatchesPasswordPattern(r.password.value);
    }
    ok := NotBlank(r.email) && NotBlank(r.password)
      && 8 <= Utf16Length(r.password.value) <= 100 && patternOk
      && NameSize(r.name) && PhoneConstraint(r.phoneNumber) && CurrencySize(r.currency);
  }

  /** Sixty emoji make a name of sixty characters that `@Size(max = 100)` still
      rejects: each is two UTF-16 units. */
  lemma EmojiNameTooLong()
    ensures var name := seq(60, _ => '\U{1F600}');
            |name| == 60 && !NameSize(Some(name))
  {
    var name := seq(60, _ => '\U{1F600}');
    Utf16LengthAllSupplementary(name);
  }

  /** On characters of the Basic Multilingual Plane the size rules count characters. */
  lemma SizeCountsCharactersInBmp(name: string, currency: string)
    requires forall i :: 0 <= i < |name| ==> !IsSupplementary(name[i])
    requires forall i :: 0 <= i < |currency| ==> !IsSupplementary(currency[i])
    ensures NameSize(Some(name)) <==> |name| <= 100
    ensures CurrencySize(Some(currency)) <==> |currency| == 3
  {
    Utf16LengthIsCount(name);
    Utf16LengthIsCount(currency);
  }

  /** An all-null update request passes validation, and so does any avatar. */
  lemma EmptyUpdateIsValid(avatar: Option<string>)
    ensures UpdateConstraints(UpdateUserProfileRequest(None, None, None, avatar))
  {
  }

  /** Both request bodies share the phone, name and currency rules. */
  lemma SharedFieldRules(s: UserSignupRequest, u: UpdateUserProfileRequest)
    requires SignupConstraints(s)
    ensures UpdateConstraints(UpdateUserProfileRequest(s.name, s.phoneNumber, s.currency, u.avatar))
  {
  }
}

=== FILE: role_check.dfy ===
/** `RoleCheckAspect`: before a method annotated with `@RequireRole`, the current
    user must hold any (by default) or all of the listed roles. */
module RoleCheck {
  import opened Wrappers
  import opened Errors
  import opened Jwt
  import opened SecurityContext

  /** `@RequireRole(value, requireAll)`; `requireAll` defaults to false. */
  datatype RequireRole = RequireRole(value: seq<string>, requireAll: bool)

  /** `Arrays.stream(required).anyMatch(userRoles::contains)`. */
  predicate HasAnyRoleOf(userRoles: set<string>, required: seq<string>) {
    exists i :: 0 <= i < |required| && required[i] in userRoles
  }

  /** `Arrays.stream(required).allMatch(userRoles::contains)`. */
  predicate HasAllRolesOf(userRoles: set<string>, required: seq<string>) {
    forall i :: 0 <= i < |required| ==> required[i] in userRoles
  }

  /** Both policies read the list as a set: only which roles are listed matters. */
  lemma PoliciesAreSetConditions(userRoles: set<string>, required: seq<string>)
    ensures HasAllRolesOf(userRoles, required) <==> (set i | 0 <= i < |required| :: required[i]) <= userRoles
    ensures HasAnyRoleOf(userRoles, required) <==> (set i | 0 <= i < |required| :: required[i]) * userRoles != {}
  {
    var listed := set i | 0 <= i < |required| :: required[i];
    if HasAnyRoleOf(userRoles, required) {
      var i :| 0 <= i < |required| && required[i] in userRoles;
      assert required[i] in listed * userRoles;
    }
    if listed * userRoles != {} {
      var r :| r in listed * userRoles;
      var i :| 0 <= i < |required| && required[i] == r;
    }
  }

  const DeniedMessage := "You don't have the required role(s) to access this resource"

  /** `checkRole`. Without the annotation nothing is checked. With it, a missing
      current user fails `UNAUTHORIZED` before any role is compared, and a user
      without the roles fails `ACCESS_DENIED`. */
  function CheckRole(annotation: Option<RequireRole>, ctx: Context): (r: Result<(), AppException>)
    ensures annotation.None? ==> r.Success?
    ensures annotation.Some? && CurrentUser(ctx) == Success(None) ==>
              r == Failure(NewUnauthorizedMessage(NotAuthenticatedMessage))
    ensures annotation.Some? && CurrentUser(ctx).Success? && CurrentUser(ctx).value.Some? ==>
              var roles := CurrentUser(ctx).value.value.roles;
              var a := annotation.value;
              && (r.Success? <==> (if a.requireAll then HasAllRolesOf(roles, a.value) else HasAnyRoleOf(roles, a.value)))
              && (r.Failure? ==> r.error == UnauthorizedException(AccessDenied, DeniedMessage))
  {
    if annotation.None? then Success(())
    else
      var user :- CurrentUser(ctx);
      if user.None? then Failure(NewUnauthorizedMessage(NotAuthenticatedMessage))
      else
        var a := annotation.value;
        var granted := if a.requireAll then HasAllRolesOf(user.value.roles, a.value)
                       else HasAnyRoleOf(user.value.roles, a.value);
        if granted then Success(()) else Failure(UnauthorizedException(AccessDenied, DeniedMessage))
  }

  /** With an empty list the any-policy denies every user and the all-policy admits
      every user. */
  lemma EmptyRequirement(ctx: Context)
    requires CurrentUser(ctx).Success? && CurrentUser(ctx).value.Some?
    ensures CheckRole(Some(RequireRole([], false)), ctx).Failure?
    ensures CheckRole(Some(RequireRole([], true)), ctx).Success?
  {
  }

  /** For a single role the two policies coincide, and the all-policy is never more
      permissive than the any-policy for a non-empty list. */
  lemma PolicyOrdering(ctx: Context, required: seq<string>)
    requires CurrentUser(ctx).Success? && CurrentUser(ctx).value.Some?
    ensures |required| == 1 ==>
              CheckRole(Some(RequireRole(required, true)), ctx) == CheckRole(Some(RequireRole(required, false)), ctx)
    ensures required != [] && CheckRole(Some(RequireRole(required, true)), ctx).Success? ==>
              CheckRole(Some(RequireRole(required, false)), ctx).Success?
  {
    var roles := CurrentUser(ctx).value.value.roles;
    if required != [] && HasAllRolesOf(roles, required) {
      assert required[0] in roles;
    }
  }

  /** The any-policy is `SecurityUtils.hasAnyRole` of the listed roles. */
  lemma AnyPolicyIsHasAnyRole(ctx: Context, required: seq<string>)
    requires CurrentUser(ctx).Success? && CurrentUser(ctx).value.Some?
    ensures CheckRole(Some(RequireRole(required, false)), ctx).Success? <==> HasAnyRole(ctx, required) == Success(true)
  {
  }
}

=== FILE: security_context.dfy ===
/** The security context a request carries, the `JwtAuthenticationToken` that fills
    it, and `SecurityUtils`, which reads the current user from it. The context is an
    explicit value instead of a thread-local holder. */
module SecurityContext {
  import opened Wrappers
  import opened Errors
  import opened Jwt

  /** What `getPrincipal()` may return: null, Spring's anonymous marker string, a
      `UserPrincipal`, or some other object. */
  datatype PrincipalValue = NoPrincipal | AnonymousUser | UserPrincipal(user: Principal) | OtherPrincipal

  /** An `Authentication` in the context; `authorities` holds the granted authority
      names. */
  datatype Authentication = Authentication(
    principal: PrincipalValue,
    credentials: Option<string>,
    authenticated: bool,
    authorities: set<string>)

  /** `SecurityContextHolder.getContext()`: no authentication, or one. */
  type Context = Option<Authentication>

  /** `new JwtAuthenticationToken(token)`: a bare, unauthenticated token. */
  function UnauthenticatedToken(token: string): (a: Authentication)
    ensures a.principal == NoPrincipal && a.credentials == Some(token)
    ensures !a.authenticated && a.authorities == {}
  {
    Authentication(NoPrincipal, Some(token), false, {})
  }

  /** `new JwtAuthenticationToken(principal, token, authorities)`: authenticated. */
  function AuthenticatedToken(principal: PrincipalValue, token: string, authorities: set<string>): (a: Authentication)
    ensures a.principal == principal && a.credentials == Some(token)
    ensures a.authenticated && a.authorities == authorities
  {
    Authentication(principal, Some(token), true, authorities)
  }

  /** `eraseCredentials`: the token is dropped, nothing else changes. */
  function EraseCredentials(a: Authentication): (r: Authentication)
    ensures r.credentials.None?
    ensures r.principal == a.principal && r.authenticated == a.authenticated && r.authorities == a.authorities
  {
    a.(credentials := None)
  }

  /** Erasing twice is erasing once. */
  lemma EraseCredentialsIdempotent(a: Authentication)
    ensures EraseCredentials(EraseCredentials(a)) == EraseCredentials(a)
  {
  }

  /** `equals`: the superclass compares authorities, credentials, principal and the
      authenticated flag; the override compares principal and credentials again. */
  predicate TokenEquals(a: Authentication, b: Authentication) {
    && a.authorities == b.authorities
    && a.credentials == b.credentials
    && a.principal == b.principal
    && a.authenticated == b.authenticated
  }

  /** `equals` is value equality, hence reflexive, symmetric and transitive; an
      erased token never equals its original. */
  lemma TokenEqualsIsEquality(a: Authentication, b: Authentication)
    ensures TokenEquals(a, b) <==> a == b
    ensures a.credentials.Some? ==> !TokenEquals(a, EraseCredentials(a))
  {
  }

  /** `getCurrentUser`. A null principal in an authenticated token makes the
      `equals("anonymousUser")` call throw. */
  function CurrentUser(ctx: Context): (r: Result<Option<Principal>, AppException>)
    ensures r.Failure? <==> ctx.Some? && ctx.value.authenticated && ctx.value.principal == NoPrincipal
    ensures r.Success? && r.value.Some? <==>
              ctx.Some? && ctx.value.authenticated && ctx.value.principal.UserPrincipal?
    ensures r.Success? && r.value.Some? ==> r.value.value == ctx.value.principal.user
  {
    if ctx.None? || !ctx.value.authenticated then Success(None)
    else match ctx.value.principal
      case NoPrincipal => Failure(UnexpectedException("NullPointerException"))
      case AnonymousUser => Success(None)
      case UserPrincipal(p) => Success(Some(p))
      case OtherPrincipal => Success(None)
  }

  const NotAuthenticatedMessage := "User not authenticated"

  /** `getCurrentUserId`. */
  function CurrentUserId(ctx: Context): (r: Result<int, AppException>)
    ensures r.Success? <==> CurrentUser(ctx).Success? && CurrentUser(ctx).value.Some?
    ensures r.Success? ==> r.value == CurrentUser(ctx).value.value.id
    ensures CurrentUser(ctx) == Success(None) ==> r == Failure(NewUnauthorizedMessage(NotAuthenticatedMessage))
  {
    var user :- CurrentUser(ctx);
    if user.None? then Failure(NewUnauthorizedMessage(NotAuthenticatedMessage)) else Success(user.value.id)
  }

  /** `getCurrentUserEmail`. */
  function CurrentUserEmail(ctx: Context): (r: Result<string, AppException>)
    ensures r.Success? <==> CurrentUser(ctx).Success? && CurrentUser(ctx).value.Some?
    ensures r.Success? ==> r.value == CurrentUser(ctx).value.value.email
    ensures CurrentUser(ctx) == Success(None) ==> r == Failure(NewUnauthorizedMessage(NotAuthenticatedMessage))
  {
    var user :- CurrentUser(ctx);
    if user.None? then Failure(NewUnauthorizedMessage(NotAuthenticatedMessage)) else Success(user.value.email)
  }

  /** `hasRole`: false without a current user. */
  function HasRole(ctx: Context, role: string): (r: Result<bool, AppException>)
    ensures r.Success? <==> CurrentUser(ctx).Success?
    ensures r.Success? ==> (r.value <==> CurrentUser(ctx).value.Some? && role in CurrentUser(ctx).value.value.roles)
  {
    var user :- CurrentUser(ctx);
    Success(user.Some? && role in user.value.roles)
  }

  /** The loop of `hasAnyRole`: is any of `roles` held? */
  function AnyHeld(held: set<string>, roles: seq<string>): (r: bool)
    ensures r <==> exists i :: 0 <= i < |roles| && roles[i] in held
  {
    if roles == [] then false
    else if roles[0] in held then true
    else
      assert forall i :: 1 <= i < |roles| ==> roles[i] == roles[1..][i - 1];
      AnyHeld(held, roles[1..])
  }

  /** `hasAnyRole(roles...)`: false without a current user or for no roles. */
  function HasAnyRole(ctx: Context, roles: seq<string>): (r: Result<bool, AppException>)
    ensures r.Success? <==> CurrentUser(ctx).Success?
    ensures r.Success? ==>
              (r.value <==>
                 && CurrentUser(ctx).value.Some?
                 && exists i :: 0 <= i < |roles| && roles[i] in CurrentUser(ctx).value.value.roles)
  {
    var user :- CurrentUser(ctx);
    Success(user.Some? && AnyHeld(user.value.roles, roles))
  }

  /** `hasAnyRole` with one role is `hasRole`; with none it is false. */
  lemma HasAnyRoleGeneralisesHasRole(ctx: Context, role: string)
    ensures HasAnyRole(ctx, [role]) == HasRole(ctx, role)
    ensures CurrentUser(ctx).Success? ==> HasAnyRole(ctx, []) == Success(false)
  {
  }
}

=== FILE: users.dfy ===
/** The `users` table both services read, as a sequence in insertion order: the user
    at position `i` has the generated id `i + 1`. Role entities are represented by
    their names. */
module Users {
  import opened Wrappers
  import opened Errors

  datatype User = User(
    id: int,
    email: string,
    passwordHash: string,
    name: Option<string>,
    phoneNumber: Option<string>,
    avatar: Option<string>,
    currency: Option<string>,
    roles: set<string>,
    emailVerified: bool,
    accountLocked: bool,
    enabled: bool)

  type Directory = seq<User>

  /** Ids come from an identity column: consecutive from 1 in insertion order. */
  predicate IdsAreIdentity(d: Directory) {
    forall i :: 0 <= i < |d| ==> d[i].id == i + 1
  }

  /** Position of the first user satisfying `p`, or `|d|`. */
  function FirstWhere(d: Directory, p: User -> bool): (i: nat)
    ensures i <= |d|
    ensures i < |d| ==> p(d[i])
    ensures forall k :: 0 <= k < i ==> !p(d[k])
  {
    if d == [] then 0
    else if p(d[0]) then 0
    else 1 + FirstWhere(d[1..], p)
  }

  /** The first user satisfying `p`, in insertion order. */
  function FindWhere(d: Directory, p: User -> bool): (r: Option<User>)
    ensures r.Some? <==> exists i :: 0 <= i < |d| && p(d[i])
    ensures r.Some? ==> r.value in d && p(r.value)
  {
    var i := FirstWhere(d, p);
    if i < |d| then Some(d[i]) else None
  }

  /** `findById`. */
  function FindById(d: Directory, id: int): (r: Option<User>)
    ensures IdsAreIdentity(d) ==> (r.Some? <==> 1 <= id <= |d|)
    ensures IdsAreIdentity(d) && r.Some? ==> r.value == d[id - 1]
    ensures r.Some? ==> r.value in d && r.value.id == id
  {
    assert IdsAreIdentity(d) && 1 <= id <= |d| ==> d[id - 1].id == id;
    FindWhere(d, (u: User) => u.id == id)
  }

  /** Under consecutive ids, every user on file is found by its own id. */
  lemma FindByOwnId(d: Directory, u: User)
    requires IdsAreIdentity(d) && u in d
    ensures FindById(d, u.id) == Some(u)
  {
    var i :| 0 <= i < |d| && d[i] == u;
    assert d[u.id - 1] == u;
  }

  /** The first user on file under `email`, compared exactly and case-sensitively. */
  function FindByEmail(d: Directory, email: string): (r: Option<User>)
    ensures r.Some? <==> exists i :: 0 <= i < |d| && d[i].email == email
    ensures r.Some? ==> r.value in d && r.value.email == email
  {
    FindWhere(d, (u: User) => u.email == email)
  }

  /** Two users on file under the same address. */
  predicate EmailAmbiguous(d: Directory, email: string) {
    exists i, j :: 0 <= i < j < |d| && d[i].email == email && d[j].email == email
  }

  /** What Spring Data raises when a query declared to return one row finds more. */
  const NonUniqueResult := PersistenceException("IncorrectResultSizeDataAccessException")

  /** `findByEmail`, a derived query returning `Optional<User>`: empty when no row
      has the address, the one row when exactly one has it, and a persistence error
      (not the first row) when several have it. */
  function FindOneByEmail(d: Directory, email: string): (r: Result<Option<User>, AppException>)
    ensures r.Failure? <==> EmailAmbiguous(d, email)
    ensures r.Failure? ==> r.error == NonUniqueResult
    ensures r.Success? ==> r.value == FindByEmail(d, email)
    ensures r.Success? && r.value.Some? ==>
              forall i :: 0 <= i < |d| && d[i].email == email ==> d[i] == r.value.value
  {
    var p := (u: User) => u.email == email;
    var i := FirstWhere(d, p);
    if i == |d| then Success(None)
    else
      var rest := d[i + 1..];
      var k := FirstWhere(rest, p);
      if k < |rest| then
        assert d[i + 1 + k] == rest[k];
        Failure(NonUniqueResult)
      else
        assert forall j :: i < j < |d| ==> d[j] == rest[j - i - 1];
        var found := FindByEmail(d, email);
        assert found == Some(d[i]) by {
          var x :| 0 <= x < |d| && d[x] == found.value;
          assert x == i;
        }
        Success(found)
  }

  /** `existsByEmail`. */
  predicate ExistsByEmail(d: Directory, email: string) {
    exists i :: 0 <= i < |d| && d[i].email == email
  }

  /** `findByPhoneNumber`. */
  function FindByPhoneNumber(d: Directory, phone: string): (r: Option<User>)
    ensures r.Some? <==> exists i :: 0 <= i < |d| && d[i].phoneNumber == Some(phone)
    ensures r.Some? ==> r.value in d && r.value.phoneNumber == Some(phone)
  {
    FindWhere(d, (u: User) => u.phoneNumber == Some(phone))
  }

  /** `existsByPhoneNumber`. */
  predicate ExistsByPhoneNumber(d: Directory, phone: string) {
    exists i :: 0 <= i < |d| && d[i].phoneNumber == Some(phone)
  }

  /** `save` of a new user: the next identity value is assigned. */
  function Insert(d: Directory, user: User): (r: (Directory, User))
    ensures r.1 == user.(id := |d| + 1)
    ensures r.0 == d + [r.1]
    ensures IdsAreIdentity(d) ==> IdsAreIdentity(r.0)
  {
    var saved := user.(id := |d| + 1);
    (d + [saved], saved)
  }

  /** `save` of a loaded user: the row with its id is overwritten. */
  function Save(d: Directory, user: User): (r: Directory)
    ensures |r| == |d|
    ensures forall i :: 0 <= i < |d| ==> r[i] == (if d[i].id == user.id then user else d[i])
    ensures IdsAreIdentity(d) ==> IdsAreIdentity(r)
  {
    seq(|d|, i requires 0 <= i < |d| => if d[i].id == user.id then user else d[i])
  }

  /** No two users share a phone number. */
  predicate PhonesUnique(d: Directory) {
    forall i, j :: 0 <= i < |d| && 0 <= j < |d| && i != j && d[i].phoneNumber.Some? ==>
      d[i].phoneNumber != d[j].phoneNumber
  }

  /** Appending a user whose phone number nobody holds keeps phone numbers unique. */
  lemma AppendKeepsPhonesUnique(d: Directory, u: User)
    requires PhonesUnique(d)
    requires u.phoneNumber.Some? ==> !ExistsByPhoneNumber(d, u.phoneNumber.value)
    ensures PhonesUnique(d + [u])
  {
    var d' := d + [u];
    forall i, j | 0 <= i < |d'| && 0 <= j < |d'| && i != j && d'[i].phoneNumber.Some?
      ensures d'[i].phoneNumber != d'[j].phoneNumber
    {
      if i < |d| && j < |d| {
        assert d'[i] == d[i] && d'[j] == d[j];
      }
    }
  }
}

=== FILE: validation.dfy ===
/** `ValidationUtils`: the e-mail pattern and the guard helpers that throw a
    `ValidationException`. A `None` argument stands for a Java `null`. */
module Validation {
  import opened Wrappers
  import opened JavaStrings
  import opened Errors
  import Requests

  /** `[A-Za-z0-9+_.-]`, the local-part class of the e-mail pattern. */
  predicate IsLocalChar(c: char) {
    IsAsciiLetter(c) || IsAsciiDigit(c) || c == '+' || c == '_' || c == '.' || c == '-'
  }

  /** `[A-Za-z0-9.-]`, the domain class. */
  predicate IsDomainChar(c: char) {
    IsAsciiLetter(c) || IsAsciiDigit(c) || c == '.' || c == '-'
  }

  /** One way of reading `s` as `local@domain.tld` for the pattern
      `^[A-Za-z0-9+_.-]+@[A-Za-z0-9.-]+\.[A-Za-z]{2,}$`: `s[at]` is the `@`,
      `s[dot]` the literal dot before the top-level part. */
  ghost predicate EmailSplit(s: string, at: int, dot: int) {
    && 0 < at && at + 1 < dot && |s| - (dot + 1) >= 2
    && s[at] == '@' && s[dot] == '.'
    && (forall k :: 0 <= k < at ==> IsLocalChar(s[k]))
    && (forall k :: at < k < dot ==> IsDomainChar(s[k]))
    && (forall k :: dot < k < |s| ==> IsAsciiLetter(s[k]))
  }

  /** The regular language of the e-mail pattern, as `matches()` reads it. */
  ghost predicate EmailPattern(s: string) {
    exists at, dot :: EmailSplit(s, at, dot)
  }

  /** Index of the first `c` in `s`, or `|s|`. */
  function IndexOf(s: string, c: char): (r: nat)
    ensures r <= |s|
    ensures r < |s| ==> s[r] == c
    ensures forall k :: 0 <= k < r ==> s[k] != c
  {
    if s == [] then 0 else if s[0] == c then 0 else 1 + IndexOf(s[1..], c)
  }

  /** Index of the last `c` in `s`, or `-1`. */
  function LastIndexOf(s: string, c: char): (r: int)
    ensures -1 <= r < |s|
    ensures r >= 0 ==> s[r] == c
    ensures forall k :: r < k < |s| ==> s[k] != c
  {
    if s == [] then -1
    else if s[|s| - 1] == c then |s| - 1
    else LastIndexOf(s[..|s| - 1], c)
  }

  /** Executable matcher: neither class of the local part nor the top-level part
      admits the character that delimits it, so the only candidate split is the
      first `@` and the last `.`. */
  predicate MatchesEmail(s: string) {
    var at := IndexOf(s, '@');
    var dot := LastIndexOf(s, '.');
    && 0 < at && at + 1 < dot && |s| - (dot + 1) >= 2
    && (forall k :: 0 <= k < at ==> IsLocalChar(s[k]))
    && (forall k :: at < k < dot ==> IsDomainChar(s[k]))
    && (forall k :: dot < k < |s| ==> IsAsciiLetter(s[k]))
  }

  lemma MatchesEmailIsPattern(s: string)
    ensures MatchesEmail(s) <==> EmailPattern(s)
  {
    var at := IndexOf(s, '@');
    var dot := LastIndexOf(s, '.');
    if MatchesEmail(s) {
      assert EmailSplit(s, at, dot);
    }
    if EmailPattern(s) {
      var a, d :| EmailSplit(s, a, d);
      // the local part holds no '@' and the top-level part no '.'
      assert forall k :: 0 <= k < a ==> s[k] != '@';
      assert forall k :: d < k < |s| ==> s[k] != '.';
      assert at == a;
      assert dot == d;
    }
  }

  /** `isValidEmail`: false for null, otherwise whether the whole string matches. */
  function IsValidEmail(email: Option<string>): (r: bool)
    ensures r <==> email.Some? && EmailPattern(email.value)
  {
    if email.Some? then MatchesEmailIsPattern(email.value); MatchesEmail(email.value) else false
  }

  /** `validateEmail`: throws exactly when `isValidEmail` is false. */
  function ValidateEmail(email: Option<string>): (r: Result<(), AppException>)
    ensures r.Failure? <==> !(email.Some? && EmailPattern(email.value))
    ensures r.Failure? ==> r.error == NewValidation("Invalid email format")
  {
    if IsValidEmail(email) then Success(()) else Failure(NewValidation("Invalid email format"))
  }

  /** `requireNonEmpty`: throws when the value is null or trims to nothing. */
  function RequireNonEmpty(value: Option<string>, fieldName: string): (r: Result<(), AppException>)
    ensures r.Failure? <==> value.None? || forall i :: 0 <= i < |value.value| ==> value.value[i] <= ' '
    ensures r.Failure? ==> r.error == NewValidation(fieldName + " cannot be empty")
  {
    if value.None? then Failure(NewValidation(fieldName + " cannot be empty"))
    else
      TrimEmptyIff(value.value);
      if Trim(value.value) == [] then Failure(NewValidation(fieldName + " cannot be empty"))
      else Success(())
  }

  /** `requireNonNull`. */
  function RequireNonNull<T>(value: Option<T>, fieldName: string): (r: Result<(), AppException>)
    ensures r.Failure? <==> value.None?
    ensures r.Failure? ==> r.error == NewValidation(fieldName + " cannot be null")
  {
    if value.None? then Failure(NewValidation(fieldName + " cannot be null")) else Success(())
  }

  /** `validateLength`: null passes; otherwise Java's `length()`, in UTF-16 units,
      must lie in `[min, max]`. */
  function ValidateLength(value: Option<string>, fieldName: string, min: int, max: int): (r: Result<(), AppException>)
    ensures r.Success? <==> value.None? || min <= Utf16Length(value.value) <= max
    ensures r.Failure? ==> r.error.ErrorCodeOf() == Some(ValidationError)
  {
    if value.Some? && (Utf16Length(value.value) < min || Utf16Length(value.value) > max) then
      Failure(NewValidation(fieldName + " must be between " + IntToString(min) + " and "
                            + IntToString(max) + " characters"))
    else Success(())
  }

  /** With the bounds of the request annotations, `validateLength` agrees with
      `@Size` on a name and on a currency. */
  lemma ValidateLengthAgreesWithSize(value: Option<string>, fieldName: string)
    ensures ValidateLength(value, fieldName, 0, 100).Success? <==> Requests.NameSize(value)
    ensures ValidateLength(value, fieldName, 3, 3).Success? <==> Requests.CurrencySize(value)
  {
  }

  /** A concrete address is accepted. */
  lemma EmailExample()
    ensures IsValidEmail(Some("ann@x.io"))
  {
    assert EmailSplit("ann@x.io", 3, 5);
  }

  /** The character classes of the phone pattern; `\s` is Java's `[ \t\n\x0B\f\r]`. */
  datatype PhoneClass = PlusSign | OpenParen | CloseParen | Digit | Separator

  predicate InClass(cls: PhoneClass, c: char) {
    match cls
    case PlusSign => c == '+'
    case OpenParen => c == '('
    case CloseParen => c == ')'
    case Digit => IsAsciiDigit(c)
    case Separator =>
      c == '-' || c == '.' || c == ' ' || c == '\t' || c == '\n' || c == '\U{000B}' || c == '\U{000C}' || c == '\r'
  }

  predicate RunIn(cls: PhoneClass, run: string) {
    forall i :: 0 <= i < |run| ==> InClass(cls, run[i])
  }

  /** One element `[class]{min,max}` of a pattern that is a plain concatenation. */
  datatype Term = Term(cls: PhoneClass, min: nat, max: nat)

  /** `^[+]?[(]?[0-9]{1,4}[)]?[-\s.]?[(]?[0-9]{1,4}[)]?[-\s.]?[0-9]{1,9}$`, term by term. */
  const PhoneTerms: seq<Term> := [Term(PlusSign, 0, 1)] + DigitGroups
  const DigitGroups: seq<Term> := [Term(OpenParen, 0, 1), Term(Digit, 1, 4)] + MiddleGroups
  const MiddleGroups: seq<Term> :=
    [Term(CloseParen, 0, 1), Term(Separator, 0, 1), Term(OpenParen, 0, 1), Term(Digit, 1, 4)] + LastGroup
  const LastGroup: seq<Term> := [Term(CloseParen, 0, 1), Term(Separator, 0, 1), Term(Digit, 1, 9)]

  /** `lens` cuts `s` into one run per term, each of an allowed length and within
      its class: the language of the pattern, as `matches()` reads it. */
  ghost predicate Splits(terms: seq<Term>, s: string, lens: seq<nat>)
    decreases |terms|
  {
    && |lens| == |terms|
    && if terms == [] then s == []
       else
         var k := lens[0];
         && terms[0].min <= k <= terms[0].max && k <= |s|
         && RunIn(terms[0].cls, s[..k])
         && Splits(terms[1..], s[k..], lens[1..])
  }

  ghost predicate InLanguage(terms: seq<Term>, s: string) {
    exists lens :: Splits(terms, s, lens)
  }

  /** Backtracking matcher: every admissible length of the first run is tried. */
  function Matches(terms: seq<Term>, s: string): bool
    decreases |terms|, 1
  {
    if terms == [] then s == [] else TryRun(terms, s, terms[0].min)
  }

  /** Whether some first run of length `k` or more leads to a match. */
  function TryRun(terms: seq<Term>, s: string, k: nat): bool
    requires terms != [] && terms[0].min <= k
    decreases |terms|, 0, terms[0].max - k
  {
    if k > terms[0].max || k > |s| then false
    else (RunIn(terms[0].cls, s[..k]) && Matches(terms[1..], s[k..])) || TryRun(terms, s, k + 1)
  }

  lemma {:induction false} MatchesSound(terms: seq<Term>, s: string)
    ensures Matches(terms, s) <==> InLanguage(terms, s)
    decreases |terms|, 1
  {
    if terms == [] {
      if s == [] {
        assert Splits(terms, s, []);
      }
    } else {
      TryRunSound(terms, s, terms[0].min);
    }
  }

  lemma {:induction false} TryRunSound(terms: seq<Term>, s: string, k: nat)
    requires terms != [] && terms[0].min <= k
    ensures TryRun(terms, s, k) <==> exists lens :: |lens| > 0 && lens[0] >= k && Splits(terms, s, lens)
    decreases |terms|, 0, terms[0].max - k
  {
    if k > terms[0].max || k > |s| {
    } else {
      MatchesSound(terms[1..], s[k..]);
      TryRunSound(terms, s, k + 1);
      if RunIn(terms[0].cls, s[..k]) && Matches(terms[1..], s[k..]) {
        var rest :| Splits(terms[1..], s[k..], rest);
        assert ([k] + rest)[1..] == rest;
        assert Splits(terms, s, [k] + rest);
      }
      if lens :| |lens| > 0 && lens[0] == k && Splits(terms, s, lens) {
        assert Splits(terms[1..], s[k..], lens[1..]);
      }
    }
  }

  /** `isValidPhone`: false for null, otherwise whether the whole string matches. */
  function IsValidPhone(phone: Option<string>): (r: bool)
    ensures r <==> phone.Some? && InLanguage(PhoneTerms, phone.value)
  {
    if phone.Some? then MatchesSound(PhoneTerms, phone.value); Matches(PhoneTerms, phone.value) else false
  }

  /** A run that may be left empty. */
  lemma SkipTerm(terms: seq<Term>, s: string, lens: seq<nat>)
    requires terms != [] && terms[0].min == 0 && Splits(terms[1..], s, lens)
    ensures Splits(terms, s, [0] + lens)
  {
    assert ([0] + lens)[1..] == lens;
    assert s[0..] == s;
  }

  /** A run of `k` characters of the term's class. */
  lemma TakeTerm(terms: seq<Term>, s: string, k: nat, lens: seq<nat>)
    requires terms != [] && terms[0].min <= k <= terms[0].max && k <= |s|
    requires RunIn(terms[0].cls, s[..k]) && Splits(terms[1..], s[k..], lens)
    ensures Splits(terms, s, [k] + lens)
  {
    assert ([k] + lens)[1..] == lens;
  }

  /** The last digit group, after its optional close and separator are skipped. */
  lemma LastGroupSplits(tail: string) returns (lens: seq<nat>)
    requires 1 <= |tail| <= 9 && RunIn(Digit, tail)
    ensures Splits(LastGroup, tail, lens)
  {
    var t := LastGroup;
    assert tail[..|tail|] == tail;
    assert Splits(t[3..], tail[|tail|..], []);
    TakeTerm(t[2..], tail, |tail|, []);
    SkipTerm(t[1..], tail, [|tail|]);
    SkipTerm(t, tail, [0, |tail|]);
    lens := [0, 0, |tail|];
  }

  /** The second digit group followed by the last one. */
  lemma MiddleGroupsSplit(mid: string, b: nat) returns (lens: seq<nat>)
    requires 1 <= b <= 4 && 1 <= |mid| - b <= 9 && RunIn(Digit, mid)
    ensures Splits(MiddleGroups, mid, lens)
  {
    var t := MiddleGroups;
    var rest := LastGroupSplits(mid[b..]);
    assert t[3..][1..] == LastGroup;
    TakeTerm(t[3..], mid, b, rest);
    SkipTerm(t[2..], mid, [b] + rest);
    SkipTerm(t[1..], mid, [0] + ([b] + rest));
    SkipTerm(t, mid, [0] + ([0] + ([b] + rest)));
    assert [0] + ([0] + ([0] + ([b] + rest))) == [0, 0, 0, b] + rest;
    lens := [0, 0, 0, b] + rest;
  }

  /** Three to fifteen digits spread over the three digit groups. */
  lemma DigitsSplit(d: string) returns (lens: seq<nat>)
    requires 3 <= |d| <= 15 && RunIn(Digit, d)
    ensures Splits(DigitGroups, d, lens)
  {
    var n := |d|;
    var c := if n - 2 <= 9 then n - 2 else 9;
    var b := (n - c) / 2;
    var a := n - c - b;
    var t := DigitGroups;
    var rest := MiddleGroupsSplit(d[a..], b);
    assert t[1..][1..] == MiddleGroups;
    TakeTerm(t[1..], d, a, rest);
    SkipTerm(t, d, [a] + rest);
    assert [0] + ([a] + rest) == [0, a] + rest;
    lens := [0, a] + rest;
  }

  /** A signup-form number is its digits, perhaps after a plus. */
  lemma SignupPhoneDigits(s: string) returns (d: string)
    requires Requests.PhonePattern(s)
    ensures |d| == Requests.DigitCount(s) && RunIn(Digit, d)
    ensures s == d || (|s| > 0 && s[0] == '+' && s[1..] == d)
  {
    d := if |s| > 0 && s[0] == '+' then s[1..] else s;
    Requests.AllDigitsCount(d);
    if |s| > 0 && s[0] == '+' {
      assert s == [s[0]] + d;
    }
  }

  /** The digits are spread over the pattern's three digit groups and every
      optional term is skipped. */
  lemma E164InLanguage(s: string)
    requires Requests.PhonePattern(s) && Requests.DigitCount(s) >= 3
    ensures InLanguage(PhoneTerms, s)
  {
    var d := SignupPhoneDigits(s);
    var lens := DigitsSplit(d);
    assert PhoneTerms[1..] == DigitGroups;
    if s == d {
      SkipTerm(PhoneTerms, s, lens);
    } else {
      TakeTerm(PhoneTerms, s, 1, lens);
    }
  }

  /** Every number the signup form accepts passes `isValidPhone` once it has at
      least three digits. */
  lemma E164Accepted(s: string)
    requires Requests.PhonePattern(s) && Requests.DigitCount(s) >= 3
    ensures IsValidPhone(Some(s))
  {
    E164InLanguage(s);
  }

  /** The least number of digits a match of `terms` holds. */
  function RequiredDigits(terms: seq<Term>): nat {
    if terms == [] then 0
    else (if terms[0].cls == Digit then terms[0].min else 0) + RequiredDigits(terms[1..])
  }

  lemma {:induction false} RequiredDigitsAppend(a: seq<Term>, b: seq<Term>)
    ensures RequiredDigits(a + b) == RequiredDigits(a) + RequiredDigits(b)
  {
    if a != [] {
      assert (a + b)[1..] == a[1..] + b;
      RequiredDigitsAppend(a[1..], b);
    } else {
      assert a + b == b;
    }
  }

  lemma {:induction false} DigitCountAppend(a: string, b: string)
    ensures Requests.DigitCount(a + b) == Requests.DigitCount(a) + Requests.DigitCount(b)
  {
    if a != [] {
      assert (a + b)[1..] == a[1..] + b;
      DigitCountAppend(a[1..], b);
    } else {
      assert a + b == b;
    }
  }

  /** Every digit group contributes at least its minimum of digits. */
  lemma {:induction false} SplitsHoldDigits(terms: seq<Term>, s: string, lens: seq<nat>)
    requires Splits(terms, s, lens)
    ensures Requests.DigitCount(s) >= RequiredDigits(terms)
    decreases |terms|
  {
    if terms != [] {
      var k := lens[0];
      SplitsHoldDigits(terms[1..], s[k..], lens[1..]);
      assert s == s[..k] + s[k..];
      DigitCountAppend(s[..k], s[k..]);
      if terms[0].cls == Digit {
        Requests.AllDigitsCount(s[..k]);
      }
    }
  }

  /** `isValidPhone` demands three digits at least, one per digit group. */
  lemma PhoneNeedsThreeDigits(s: string)
    requires IsValidPhone(Some(s))
    ensures Requests.DigitCount(s) >= 3
  {
    var lens :| Splits(PhoneTerms, s, lens);
    SplitsHoldDigits(PhoneTerms, s, lens);
    assert RequiredDigits(LastGroup) == 1;
    RequiredDigitsAppend([Term(CloseParen, 0, 1), Term(Separator, 0, 1), Term(OpenParen, 0, 1), Term(Digit, 1, 4)], LastGroup);
    RequiredDigitsAppend([Term(OpenParen, 0, 1), Term(Digit, 1, 4)], MiddleGroups);
    RequiredDigitsAppend([Term(PlusSign, 0, 1)], DigitGroups);
  }

  /** For a number the signup form accepts, `isValidPhone` holds exactly when it has
      three digits or more: `+12` passes the form but not this check. */
  lemma SignupPhoneValidIff(s: string)
    requires Requests.PhonePattern(s)
    ensures IsValidPhone(Some(s)) <==> Requests.DigitCount(s) >= 3
  {
    if IsValidPhone(Some(s)) {
      PhoneNeedsThreeDigits(s);
    }
    if Requests.DigitCount(s) >= 3 {
      E164Accepted(s);
    }
  }
}

=== FILE: wrappers.dfy ===
/** Failure-compatible wrappers used throughout the model: `Option` stands for a
    Java reference that may be null (or an `Optional`), `Result` for a call that
    either returns a value or throws. */
module Wrappers {

  datatype Option<+T> = None | Some(value: T) {

    predicate IsFailure() {
      None?
    }

    function PropagateFailure<U>(): Option<U>
      requires None?
    {
      None
    }

    function Extract(): T
      requires Some?
    {
      value
    }

    /** `Optional.orElse` */
    function GetOr(default: T): T {
      match this
      case Some(v) => v
      case None => default
    }

    /** `Optional.orElseThrow(supplier)` */
    function ToResult<E>(error: E): Result<T, E> {
      match this
      case Some(v) => Success(v)
      case None => Failure(error)
    }
  }

  datatype Result<+R, +E> = Success(value: R) | Failure(error: E) {

    predicate IsFailure() {
      Failure?
    }

    function PropagateFailure<U>(): Result<U, E>
      requires Failure?
    {
      Failure(error)
    }

    function Extract(): R
      requires Success?
    {
      value
    }
  }
}
